=== FILE: README.md ===
# SOC analyst pipeline: a Dafny model

This project models the batch core of a small security-operations pipeline. The pipeline has
these stages:

- Raw log lines (sshd `auth.log`, nginx access log) are parsed into normalised events.
- Two detection rules count events per source address and upsert one alert per (rule, address).
- Alerts are synchronised into incidents, keyed `INC-<year>-<nnnnnn>` and identified by a `rule|ip`
  fingerprint.
- A correlator escalates open incidents that share an address.
- An enrichment workflow exports incident packages and asks an external analysis engine for
  reports, skipping fresh ones.
- The web application changes an incident's status, creates enrichment runs with per-run
  envelopes, and polls runs for completion.
- Two maintenance scripts deduplicate alerts before a unique index is created and delete legacy
  incidents.

The store is a value: one sequence per table, in ascending id order, so `ORDER BY id` is the
sequence order and a new row takes one past the largest id. SQL NULL is `Option.None`. A Python
exception that ends a pass is the `Err` of a `Result`; no database change is committed in that
case, but files already written stay on disk, and the enrichment run's `Err` carries them. Files
under the data directory form a map from path to (mtime, content). Clocks, the current year, file
mtimes, the analysis engine, the host-time-zone timestamp parser and write failures are
parameters.

Modules follow the program:

- `AuthLog`, `NginxLog` and the shared `ParsePass` cover the parsers.
- `Detection`, `SshBruteForce` and `WebScanner` cover the rules.
- `IncidentSync`, `Correlation`, `Export`, `Enrichment` and `AgentRuns` cover the rest of the
  pipeline.
- `Files` covers the data-directory paths.
- `Maintenance` covers the two maintenance scripts.
- `Base`, `Text`, `Scan`, `Records` and `Sorting` are shared building blocks: Option/Result and
  ids, digits and padding and trimming, token recognisers, the tables, and `ORDER BY` as a stable
  sort.

Regular expressions are modelled as deterministic token recognisers (`Scan`). In these patterns
every greedy run is followed by a character outside its class, so no backtracking is needed. There
are two exceptions, both modelled explicitly:

- the optional `(invalid user )?` group of the failed-password pattern;
- the nginx `[^"]+` protocol group, which can take back one whitespace character.

## Model

| member | source | states |
|---|---|---|
| AuthLog.FailedRoundTrip | src/soc/parsers/auth_log.py:10-13 | `FAILED_RE` reads back every group of a failed-password line, with any whitespace run before the day and with or without the `invalid user ` prefix; the prefix is never part of the captured user |
| AuthLog.AcceptedRoundTrip | src/soc/parsers/auth_log.py:15-18 | `ACCEPTED_RE` reads back, with any whitespace run before the day, header, method, user, address and port of an accepted line |
| AuthLog.HeaderRoundTrip | src/soc/parsers/auth_log.py:11 | the shared syslog header (month, day, time, host, sshd pid) is read back whatever whitespace run separates the month from the day (`Feb  9`), when any non-space follows |
| AuthLog.LoginRoundTrip | src/soc/parsers/auth_log.py:12 | the `user from ip port N` tail is read back, whatever non-digit follows the port |
| AuthLog.NotInvalidPrefix | src/soc/parsers/auth_log.py:12 | a login tail never starts with `invalid user `, since a user name holds no space |
| AuthLog.FailedBodyRoundTrip | src/soc/parsers/auth_log.py:12 | the failed-login body yields the right `invalid user` flag and login in both cases |
| AuthLog.AcceptedBodyRoundTrip | src/soc/parsers/auth_log.py:17 | the accepted body yields its method and login |
| AuthLog.PatternsExclusive | src/soc/parsers/auth_log.py:10-18 | no line matches both patterns |
| AuthLog.AcceptedIsNotFailed | src/soc/parsers/auth_log.py:55-75 | an accepted line does not match the failed pattern, so it reaches the second branch |
| AuthLog.MonthsBijective | src/soc/parsers/auth_log.py:20-24 | `MONTHS` maps its twelve keys injectively onto 1..12 and every month number is reached |
| AuthLog.MonthNameOfMonths | src/soc/parsers/auth_log.py:20-24 | every key of `MONTHS` is named back by its number |
| AuthLog.MonthName | src/soc/parsers/auth_log.py:20-24 | the name chosen for a month number is a key of `MONTHS` mapping to that number |
| AuthLog.NewDateTime | src/soc/parsers/auth_log.py:27-28 | `datetime(...)` succeeds exactly for values in range (years 1..9999, month lengths with leap years, clock ranges) and then holds those values; a failure is `OverflowError` exactly when some argument does not fit a C `int`, and `ValueError` otherwise |
| AuthLog.CInt | src/soc/parsers/auth_log.py:27-28 | the constructor's C `int` conversion passes exactly the values from -2^31 to 2^31-1 unchanged and raises `OverflowError` for any other |
| AuthLog.ParseInt | src/soc/parsers/auth_log.py:27-28 | `int()` succeeds exactly on non-empty digit strings of at most 4300 digits, and raises `ValueError` otherwise |
| AuthLog.ParseSyslogTs | src/soc/parsers/auth_log.py:26-30 | an unknown month raises `KeyError` with that month before any `int()` is evaluated |
| AuthLog.SyslogTsOfClock | src/soc/parsers/auth_log.py:26-30 | with a two-digit clock and a day of at most 4300 digits, the timestamp is the ISO text of the date and time in the given year |
| AuthLog.HugeDayOverflows | src/soc/parsers/auth_log.py:27 | a day above 2^31-1 raises `OverflowError` for any year, not the day check's `ValueError`; when the year fits, the message is the C `int` range message, or the C `long` one for a day above 2^63-1 |
| AuthLog.LongDayRaises | src/soc/parsers/auth_log.py:27 | a day of more than 4300 digits raises the digit limit's `ValueError`, even when its value is small |
| AuthLog.ShortHourRaises | src/soc/parsers/auth_log.py:28 | a one-digit hour is misread by the fixed slices `t[0:2]` and raises |
| AuthLog.IsoFormatFields | src/soc/parsers/auth_log.py:30 | `isoformat(sep=" ")` puts year, month, day, hour, minute and second at fixed positions, each read back by `int()` |
| AuthLog.IsoFormatInjective | src/soc/parsers/auth_log.py:30 | distinct valid date-times give distinct timestamps |
| AuthLog.ParseIntPadded | src/soc/parsers/auth_log.py:30 | a zero-padded field of at most 4300 digits reads back to its number |
| AuthLog.Classify | src/soc/parsers/auth_log.py:54-96 | a line is skipped exactly when neither pattern matches; an event is `ssh_auth`/`linux`; its outcome is `fail` exactly when the failed pattern matched and `success` exactly when only the accepted one did; for every line a pattern matches, the result is exactly the event built from the captured groups, or the `KeyError` abort when the month is unknown |
| AuthLog.FailedLineEvent | src/soc/parsers/auth_log.py:55-73 | a failed-password line, with any whitespace run before the day, yields exactly the event with its host, address, user, outcome `fail` and message `SSH failed password for {user} from {ip}` |
| AuthLog.AcceptedLineEvent | src/soc/parsers/auth_log.py:75-94 | an accepted line, with any whitespace run before the day, yields outcome `success` and message `SSH accepted {method} for {user} from {ip}` |
| AuthLog.HugeDayAborts | src/soc/parsers/auth_log.py:26-28 | a matching line with a two-digit clock and a day above 2^31-1 aborts with `OverflowError`, which ends the pass |
| AuthLog.UnknownMonthAborts | src/soc/parsers/auth_log.py:26-28 | a matching line with a month outside `MONTHS` raises `KeyError`, which ends the pass |
| AuthLog.MatchFailedBody | src/soc/parsers/auth_log.py:12 | a matched failed body starts with `Failed password for ` |
| NginxLog.AccessRoundTrip | src/soc/parsers/nginx_access_log.py:8-13 | `NGINX_RE` reads back every group of a single-spaced combined-format line |
| NginxLog.ClientRoundTrip | src/soc/parsers/nginx_access_log.py:9 | the address, the two unnamed fields and the bracketed time are read back |
| NginxLog.RequestRoundTrip | src/soc/parsers/nginx_access_log.py:10 | method, path and protocol are read back |
| NginxLog.ProtoRoundTrip | src/soc/parsers/nginx_access_log.py:10 | a protocol not starting with whitespace is read back up to the closing quote |
| NginxLog.BlankProtoBacktracks | src/soc/parsers/nginx_access_log.py:10 | with two spaces before the closing quote the protocol group takes back one space and matches |
| NginxLog.EmptyProtoFails | src/soc/parsers/nginx_access_log.py:10 | with one space before the closing quote there is nothing for the protocol and the line does not match |
| NginxLog.ResponseRoundTrip | src/soc/parsers/nginx_access_log.py:11-12 | status, size, referer and user agent are read back |
| NginxLog.MatchResponse | src/soc/parsers/nginx_access_log.py:11 | a matched status is exactly three digits |
| NginxLog.MatchAccess | src/soc/parsers/nginx_access_log.py:8-13 | every match carries a three-digit status |
| NginxLog.Classify | src/soc/parsers/nginx_access_log.py:40-63 | a line is skipped exactly when it does not match; every event has no user name, outcome `success` and host `web`; a matched line yields exactly the event built from its groups when its timestamp parses, and aborts otherwise |
| NginxLog.AccessLineEvent | src/soc/parsers/nginx_access_log.py:44-63 | a matching line yields the `http_access`/`nginx` event from the client address with message `Nginx {method} {path} -> {status} UA={ua}` |
| NginxLog.MessageStatus | src/soc/parsers/nginx_access_log.py:48-52 | the status in the message equals the three digits as written exactly when there is no leading zero |
| ParsePass.Pending | src/soc/parsers/auth_log.py:41-49 | the rows read are exactly the table's rows of the source whose id no event links to |
| ParsePass.PendingInIdOrder | src/soc/parsers/auth_log.py:47 | those rows come in ascending id order |
| ParsePass.Insert | src/soc/parsers/auth_log.py:54-98 | the loop succeeds exactly when no row raises, and the table then grows by the count it reports |
| ParsePass.InsertClosedForm | src/soc/parsers/auth_log.py:54-94 | on success the table is extended by one event per emitting row, in row order, numbered on from the next id |
| ParsePass.InsertRaisesFirst | src/soc/parsers/auth_log.py:57 | a failing pass raises the exception of the first raising row |
| ParsePass.EmittedAreLinked | src/soc/parsers/auth_log.py:62-71 | after the pass every emitting row is linked to an event, and earlier links stay |
| ParsePass.AllSkipInsertsNothing | src/soc/parsers/auth_log.py:96 | rows that match no pattern produce no event and no error |
| ParsePass.RunPass | src/soc/parsers/nginx_access_log.py:27-66 | a pass changes only the events table, keeps existing events and adds exactly `inserted` rows |
| ParsePass.RunPassEffect | src/soc/parsers/nginx_access_log.py:27-66 | a pass fails exactly when a pending row raises; otherwise it appends the reference events of the pending rows, counted in `inserted` |
| ParsePass.SecondPassInsertsNothing | src/soc/parsers/auth_log.py:41-98 | a second pass straight after a successful one inserts nothing and changes nothing |
| Detection.CountAt | src/soc/detection/ssh_bruteforce.py:25-29 | the count of an address never exceeds the number of events |
| Detection.HitIps | src/soc/detection/ssh_bruteforce.py:29 | an address appears among the hit addresses exactly when it has a counted event |
| Detection.Distinct | src/soc/detection/ssh_bruteforce.py:30 | `GROUP BY` sees each address once: the same addresses, without repetition |
| Detection.Keep | src/soc/detection/ssh_bruteforce.py:31 | the kept groups are exactly the addresses reaching the threshold, with their exact counts |
| Detection.Groups | src/soc/detection/ssh_bruteforce.py:23-34 | every group carries its address's exact count, at or above the threshold |
| Detection.GroupsExact | src/soc/detection/ssh_bruteforce.py:23-34 | an address forms a group exactly when it has at least `threshold` (and at least one) counted events |
| Detection.GroupsDistinct | src/soc/detection/ssh_bruteforce.py:30 | no address forms two groups |
| Detection.Upsert | src/soc/detection/ssh_bruteforce.py:43-53 | after the upsert the identity has a row carrying the new severity, description and time; an existing row keeps its id and identity; otherwise exactly one row is appended with the next id; other rows are unchanged |
| Detection.Apply | src/soc/detection/ssh_bruteforce.py:38-54 | the loop adds at most one row per group |
| Detection.Run | src/soc/detection/ssh_bruteforce.py:36-54 | `changed` counts every group, whether inserted or updated; the table grows by at most that many rows, and is left exactly as it was when no address qualifies |
| Detection.ApplyFrame | src/soc/detection/ssh_bruteforce.py:42-53 | existing rows keep id and identity; rows of other identities are unchanged; appended rows belong to a hit |
| Detection.ApplySettles | src/soc/detection/ssh_bruteforce.py:38-54 | after the loop every hit's identity carries the severity and description of its count and the run's time |
| Detection.UpsertKeepsUnique | src/soc/detection/ssh_bruteforce.py:47 | an upsert never creates a second row for an identity |
| Detection.ApplyKeepsUnique | src/soc/detection/ssh_bruteforce.py:38-54 | a run keeps at most one alert per (rule, address) |
| Detection.ApplyReflectedIsStable | src/soc/detection/ssh_bruteforce.py:47-50 | upserting values the table already holds changes nothing but creation times |
| Detection.RerunOnlyRestamps | src/soc/detection/ssh_bruteforce.py:38-54 | a second run on unchanged events changes nothing but creation times and inserts nothing |
| Detection.RunSettles | src/soc/detection/ssh_bruteforce.py:38-54 | a qualifying address has its alert, with the severity and description of its count and the run's time |
| Detection.RunLeavesOthers | src/soc/detection/ssh_bruteforce.py:42-53 | other rules' alerts, alerts without an address and alerts of addresses below the threshold are neither changed nor removed; new rows are this rule's, for qualifying addresses |
| SshBruteForce.Severity | src/soc/detection/ssh_bruteforce.py:6-14 | the severity lies in 6..9 and is 6 below 20 failures |
| SshBruteForce.SeverityLevels | src/soc/detection/ssh_bruteforce.py:6-14 | the severity is at least 7 exactly from 20, at least 8 exactly from 30, and 9 exactly from 50 |
| SshBruteForce.SeverityMonotone | src/soc/detection/ssh_bruteforce.py:6-14 | more failures never mean a lower severity |
| SshBruteForce.Run | src/soc/detection/ssh_bruteforce.py:36-54 | `changed` is the number of groups, and the table grows by at most that many rows |
| SshBruteForce.GroupsAreQualifying | src/soc/detection/ssh_bruteforce.py:4 | the groups are exactly the addresses with at least ten failed SSH logins |
| SshBruteForce.QualifyingAddressAlerted | src/soc/detection/ssh_bruteforce.py:38-53 | a qualifying address has its `SSH_BRUTE_FORCE` alert with severity 6..9 for its count, the description `SSH brute force suspected: {cnt} failed logins from {ip}` and the run's time |
| SshBruteForce.OthersUntouched | src/soc/detection/ssh_bruteforce.py:42-53 | alerts of other rules and of addresses below ten failures are unchanged |
| SshBruteForce.RerunIdempotent | src/soc/detection/ssh_bruteforce.py:38-53 | a re-run on the same events changes only creation times |
| SshBruteForce.ParsedFailuresCount | src/soc/detection/ssh_bruteforce.py:27-29 | the event of a failed-password line counts for its address; that of an accepted line does not |
| WebScanner.Severity | src/soc/detection/web_scanner.py:6-11 | the severity lies in 6..8 and is 6 below 10 responses |
| WebScanner.SeverityLevels | src/soc/detection/web_scanner.py:6-11 | the severity is at least 7 exactly from 10 and 8 exactly from 20 |
| WebScanner.SeverityMonotone | src/soc/detection/web_scanner.py:6-11 | more 404s never mean a lower severity |
| WebScanner.Run | src/soc/detection/web_scanner.py:33-51 | `changed` is the number of groups, and the table grows by at most that many rows |
| WebScanner.GroupsAreQualifying | src/soc/detection/web_scanner.py:4 | the groups are exactly the addresses with at least five `-> 404` access events |
| WebScanner.QualifyingAddressAlerted | src/soc/detection/web_scanner.py:35-49 | a qualifying address has its `WEB_404_SCANNING` alert with severity 6..8 for its count, the description `Web scanning suspected: {cnt} HTTP 404 responses from {ip}` and the run's time |
| WebScanner.OthersUntouched | src/soc/detection/web_scanner.py:39-49 | alerts of other rules and of addresses below five are unchanged |
| WebScanner.RerunIdempotent | src/soc/detection/web_scanner.py:35-49 | a re-run on the same events changes only creation times |
| WebScanner.NotFoundLineCounts | src/soc/detection/web_scanner.py:22-24 | the event of a status-404 access line counts for its client address |
| WebScanner.UserAgentCanTrigger | src/soc/detection/web_scanner.py:23 | a user agent containing `-> 404` makes a request count whatever its status |
| IncidentSync.YearCount | src/soc/incidents/create_from_alerts.py:8-11 | the count of a year's keys never exceeds the table size |
| IncidentSync.PrefixIsLikePrefix | src/soc/incidents/create_from_alerts.py:10 | every key issued for a year matches that year's `LIKE` pattern |
| IncidentSync.IssuedKeysDistinct | src/soc/incidents/create_from_alerts.py:13 | distinct sequence numbers give distinct keys within a year |
| IncidentSync.NextKeyFresh | src/soc/incidents/create_from_alerts.py:5-13 | the next key is unused when the year's keys are numbered within 1..count |
| IncidentSync.KeyReissuedAfterDeletion | src/soc/incidents/create_from_alerts.py:12 | after the year's first key is deleted, the next key repeats the surviving second one |
| IncidentSync.FirstBar | src/soc/incidents/create_from_alerts.py:37 | the position found is the first `\|`, or the length when there is none |
| IncidentSync.SplitFingerprint | src/soc/incidents/create_from_alerts.py:37 | the rule part read back from a fingerprint contains no `\|` |
| IncidentSync.SplitFingerprintRoundTrip | src/soc/incidents/create_from_alerts.py:37 | for rule names without `\|` the fingerprint gives back rule and address |
| IncidentSync.FingerprintInjective | src/soc/incidents/create_from_alerts.py:37 | rule names without `\|` make fingerprints identify (rule, address) |
| IncidentSync.FingerprintCollision | src/soc/incidents/create_from_alerts.py:37 | a `\|` in a rule name lets two identities share a fingerprint |
| IncidentSync.Find | src/soc/incidents/create_from_alerts.py:41-49 | the lookup returns the first incident with the fingerprint, or none when no incident has it |
| IncidentSync.FindFirst | src/soc/incidents/create_from_alerts.py:41-49 | the first row with the fingerprint is the one found |
| IncidentSync.SyncAlert | src/soc/incidents/create_from_alerts.py:33-78 | alerts with a NULL or empty address are skipped; an incident is created exactly for an unknown fingerprint, adding one row; a kept or skipped alert changes nothing |
| IncidentSync.SyncAlertSynced | src/soc/incidents/create_from_alerts.py:41-77 | afterwards the first incident of the alert's fingerprint carries its severity and summary |
| IncidentSync.SyncAlertOpens | src/soc/incidents/create_from_alerts.py:67-77 | an unknown fingerprint appends the opened incident as the last row |
| IncidentSync.OpenedFields | src/soc/incidents/create_from_alerts.py:37-39 | the opened incident is `New`, with the next key of the year, fingerprint `rule\|ip`, the alert as source, the alert's severity, rule and address, summary `{rule} detected from {ip} — {desc}`, and a fresh id |
| IncidentSync.SyncAlertFrame | src/soc/incidents/create_from_alerts.py:56-64 | no existing incident changes id, key, status, creation time, fingerprint or source alert |
| IncidentSync.SyncAlertUpdates | src/soc/incidents/create_from_alerts.py:51-65 | the first incident of the fingerprint is updated exactly when severity or summary differs, taking rule and address too; every other row is unchanged |
| IncidentSync.Sync | src/soc/incidents/create_from_alerts.py:76-78 | `created` is the number of rows added; existing rows keep their identity; both counters are bounded by the number of alerts |
| IncidentSync.KeyStep | src/soc/incidents/create_from_alerts.py:67 | one alert raises the year's count exactly when it opens an incident, whose key is the next number; existing keys stay |
| IncidentSync.SyncKeysConsecutive | src/soc/incidents/create_from_alerts.py:5-13 | the keys opened in one pass are the year's next numbers, consecutive and in order |
| IncidentSync.SyncAlertKeepsUnique | src/soc/incidents/create_from_alerts.py:67-77 | one alert never creates a second incident for a fingerprint |
| IncidentSync.SyncKeepsUnique | src/soc/incidents/create_from_alerts.py:41-77 | from unique fingerprints, a pass leaves at most one incident per fingerprint |
| IncidentSync.SyncedPreserved | src/soc/incidents/create_from_alerts.py:51-77 | handling one alert leaves another alert's incident in step |
| IncidentSync.SyncEstablishes | src/soc/incidents/create_from_alerts.py:33-78 | after a pass every alert with an address is reflected by the first incident of its fingerprint |
| IncidentSync.SyncOfSyncedIsNoop | src/soc/incidents/create_from_alerts.py:51-65 | a pass over alerts already reflected creates and updates nothing |
| IncidentSync.SecondPassChangesNothing | src/soc/incidents/create_from_alerts.py:41-65 | a second pass over the same alerts, in any year, creates and updates nothing |
| Correlation.CandCount | src/soc/correlation/ip_multi_alert.py:14-18 | the count of an address's candidates never exceeds the table size |
| Correlation.CandCountPositive | src/soc/correlation/ip_multi_alert.py:14-18 | an address has candidates exactly when some open incident with that address exists |
| Correlation.MaxSev | src/soc/correlation/ip_multi_alert.py:14 | `MAX(severity)` is present exactly when there are candidates, bounds every candidate's severity and is attained |
| Correlation.Target | src/soc/correlation/ip_multi_alert.py:27 | the target is `max + 1`, capped at 9 |
| Correlation.CandIps | src/soc/correlation/ip_multi_alert.py:16-17 | the candidate addresses are exactly those of open incidents with an address |
| Correlation.KeepPairs | src/soc/correlation/ip_multi_alert.py:18-19 | the kept groups are exactly the addresses with at least two candidates, each with its count and maximum |
| Correlation.GroupAt | src/soc/correlation/ip_multi_alert.py:14 | a group row carries the address's candidate count and a maximum that is at least the severity of every open incident at the address and equal to one of them |
| Correlation.Bump | src/soc/correlation/ip_multi_alert.py:29-38 | the guarded update raises matching rows to the target and changes nothing else |
| Correlation.RowCount | src/soc/correlation/ip_multi_alert.py:39 | the row count is bounded by the table size |
| Correlation.RowCountChanges | src/soc/correlation/ip_multi_alert.py:39 | the row count equals the number of rows the update changed |
| Correlation.GroupTarget | src/soc/correlation/ip_multi_alert.py:19-27 | only addresses with two or more candidates get a target, at most 9 and above every candidate below 9 |
| Correlation.TargetFor | src/soc/correlation/ip_multi_alert.py:25 | the loop has a target for an address exactly when it visited a group with that address |
| Correlation.CorrelateRowwise | src/soc/correlation/ip_multi_alert.py:25-38 | one run escalates each row by its own group's target, read off the table before the run |
| Correlation.ApplyGroupsRowwise | src/soc/correlation/ip_multi_alert.py:25-38 | over distinct groups the loop treats each row independently |
| Correlation.CorrGroupsTarget | src/soc/correlation/ip_multi_alert.py:12-27 | the groups visited are distinct, and the loop's target for an address is the query's |
| Correlation.Correlate | src/soc/correlation/ip_multi_alert.py:12-39 | a run keeps the number of incidents |
| Correlation.UpdatedIsChanges | src/soc/correlation/ip_multi_alert.py:39 | `updated` is the number of incidents whose row changed |
| Correlation.ChangesZero | src/soc/correlation/ip_multi_alert.py:39 | no changed rows means the tables are equal |
| Correlation.NeverLowers | src/soc/correlation/ip_multi_alert.py:29-38 | severities never decrease and no other column changes |
| Correlation.LeavesUngrouped | src/soc/correlation/ip_multi_alert.py:33-35 | closed incidents, incidents without an address and lone incidents are untouched |
| Correlation.GroupSettles | src/soc/correlation/ip_multi_alert.py:27-38 | a grouped incident ends at the group's old maximum plus one, or at 9 once that is reached; a severity already above 9 stays |
| Correlation.RowChanges | src/soc/correlation/ip_multi_alert.py:29-38 | a row changes exactly when it is grouped and below 9 |
| Correlation.NoopIff | src/soc/correlation/ip_multi_alert.py:12-39 | a run changes nothing exactly when every grouped incident is already at 9 or above |
| Correlation.KeepsClimbing | src/soc/correlation/ip_multi_alert.py:12-38 | a group whose maximum is below 8 is escalated again by a second run: the correlator is not a fixed point |
| Export.FindKey | src/soc/agentzero/export_incident.py:14-21 | the lookup finds the first incident with the key, and none exactly when no incident has it |
| Export.AlertsFor | src/soc/agentzero/export_incident.py:29-37 | the alerts are exactly those whose address equals the incident's; none for a NULL address |
| Export.AlertsForAscending | src/soc/agentzero/export_incident.py:34 | the package's alerts are in id order |
| Export.EventsFor | src/soc/agentzero/export_incident.py:40-48 | the events are exactly those whose address equals the incident's; none for a NULL address |
| Export.TimelineExact | src/soc/agentzero/export_incident.py:40-48 | the timeline is a permutation of those events, ordered by event time |
| Export.TimelineInTableOrder | src/soc/agentzero/export_incident.py:45 | events already in time order keep their table order |
| Export.TimeOrder | src/soc/agentzero/export_incident.py:45 | ordering by event time is total and transitive |
| Export.PackageContents | src/soc/agentzero/export_incident.py:52-104 | the package copies the incident's fields verbatim, holds exactly its address's alerts in id order (none without an address), states the four constraints and asks for JSON with the eight report fields, each list in the program's order |
| Export.ExportIncident | src/soc/agentzero/export_incident.py:14-107 | an unknown key raises `SystemExit` `Incident not found: {key}` before anything is written; otherwise only the key's inbox file is (re)written, and it holds exactly the package built from the first incident with that key |
| Export.ExportAgainReplaces | src/soc/agentzero/export_incident.py:106-107 | the package path depends only on the key, so exporting again replaces the earlier package |
| Files.InboxPathInjective | src/soc/agentzero/export_incident.py:106 | packages of distinct incidents never overwrite each other |
| Files.ReportPathInjective | src/soc/agentzero/ai_analyzer.py:11 | reports of distinct incidents never overwrite each other |
| Files.PackageIsNotReport | src/soc/web/app.py:22-27 | a package and a report are never the same file |
| Files.DigitTailOf | src/soc/web/app.py:33-34 | the digits after `.run-` are the final digit run |
| Files.RunNameInjective | src/soc/web/app.py:33-37 | a `{key}.run-{id}` name determines key and id |
| Files.RunInboxPathInjective | src/soc/web/app.py:33-34 | every run gets its own envelope |
| Files.RunOutboxPathInjective | src/soc/web/app.py:36-37 | every run has its own expected output file |
| Enrichment.Decide | src/soc/agentzero/run_ai_for_new_incidents.py:29-42 | an incident is skipped exactly when a report exists and no strictly newer package exists (a report without a package is skipped) |
| Enrichment.Analyze | src/soc/agentzero/ai_analyzer.py:8-52 | analysis fails exactly when the package is missing or the engine gives no JSON; otherwise only the report is written, holding the engine's reply |
| Enrichment.Visit | src/soc/agentzero/run_ai_for_new_incidents.py:28-47 | each incident adds one to `processed + skipped`, and a skipped one changes nothing else; a visit that raises was not a skip, and it leaves the disk as before, plus the incident's freshly exported package when the key is an incident's |
| Enrichment.Pass | src/soc/agentzero/run_ai_for_new_incidents.py:28-47 | a completed loop has `processed + skipped` equal to the number of keys |
| Enrichment.Run | src/soc/agentzero/run_ai_for_new_incidents.py:15-47 | a completed run visits every incident once |
| Enrichment.OtherKeyUntouched | src/soc/agentzero/run_ai_for_new_incidents.py:45-46 | writing one key's package and report leaves every other key's decision unchanged |
| Enrichment.VisitKeepsFresh | src/soc/agentzero/run_ai_for_new_incidents.py:37-47 | after a visit its key, and every key fresh before, is fresh |
| Enrichment.PassFreshens | src/soc/agentzero/run_ai_for_new_incidents.py:28-47 | after a completed loop every key is fresh |
| Enrichment.FreshPassSkipsAll | src/soc/agentzero/run_ai_for_new_incidents.py:37-39 | a loop over fresh keys skips all and writes nothing |
| Enrichment.PassStops | src/soc/agentzero/run_ai_for_new_incidents.py:28-47 | a loop that raises stopped at one key: the loop over the keys before it completed, and no later key was visited |
| Enrichment.StoppedKeepsWork | src/soc/agentzero/run_ai_for_new_incidents.py:44-46 | when the visit to a key raises, the keys before it other than it stay fresh; the key's package stays written when it is an incident's, and nothing is written when it is not |
| Enrichment.RunStopped | src/soc/agentzero/run_ai_for_new_incidents.py:15-47 | a run that raises stopped at an incident whose new package is on disk, with every earlier incident of another key fresh: only the counters are lost |
| Enrichment.SecondPassSkipsAll | src/soc/agentzero/run_ai_for_new_incidents.py:15-47 | after a completed run, a second run at any time skips every incident and writes nothing |
| AgentRuns.UpdateStatus | src/soc/web/app.py:197-212 | the stripped value must be one of the five statuses, else 400 with no write; otherwise every incident with the key takes it, nothing else changes, and the answer redirects to the incident |
| AgentRuns.UpdateStatusIdempotent | src/soc/web/app.py:204-209 | submitting the same status twice equals submitting it once |
| AgentRuns.PaddedStatusSame | src/soc/web/app.py:199 | a status padded by any leading and any trailing whitespace run is handled as the bare status |
| AgentRuns.Refresh | src/soc/web/app.py:218-240 | the poll changes only statuses, each change a lifecycle step; runs of other incidents are left exactly as they were; the key's exported runs become completed exactly when their output path is set, non-empty and present |
| AgentRuns.RefreshKeepsSettled | src/soc/web/app.py:232 | queued, failed and completed runs are not touched |
| AgentRuns.RefreshIdempotent | src/soc/web/app.py:218-240 | polling again without new files changes nothing |
| AgentRuns.NotesFor | src/soc/web/app.py:286-291 | the notes read are exactly the key's notes |
| AgentRuns.CreateRun | src/soc/web/app.py:242-335 | an unknown key raises the exporter's `SystemExit`, which the handler does not catch, and nothing is committed; otherwise exactly one run is appended and no other table changes |
| AgentRuns.CreateRunStore | src/soc/web/app.py:256-332 | a successful creation appends the queued run, finished, to the runs table and changes nothing else |
| AgentRuns.CreateRunRecord | src/soc/web/app.py:256-260 | the new run has a fresh id, the key, the `created_at` clock reading `now`, model `agentzero`, requester `analyst` and the stripped prompt |
| AgentRuns.CreateRunExported | src/soc/web/app.py:262-322 | without a write error the run is exported with both run paths and no error, its envelope is at the export path naming the run and its expected output and carries the separate `utc_now_iso()` reading as `requested_at`, and the handler redirects |
| AgentRuns.CreateRunFailed | src/soc/web/app.py:324-332 | an exception while writing fails the run with its message, sets no path, and answers 500 `Agent run failed: {e}` |
| AgentRuns.CreateRunFollowsLifecycle | src/soc/web/app.py:256-332 | creation moves the run from `queued` to `exported` or `failed` |
| AgentRuns.CreateRunKeepsIdOrder | src/soc/web/app.py:256-260 | the runs table stays in id order |
| AgentRuns.EnvelopeContents | src/soc/web/app.py:279-291 | the envelope holds exactly the alerts of the incident's address, newest first with ties broken by the larger id, and exactly the incident's notes in the same order |
| AgentRuns.NewestFirstOrders | src/soc/web/app.py:283 | `ORDER BY created_at DESC, id DESC` compares every two rows and is transitive, for alerts and for notes |
| AgentRuns.EnvelopeAlertOrderFixed | src/soc/web/app.py:279-284 | with unique alert ids the envelope's alert order depends only on which alerts there are, not on the order the query meets them |
| AgentRuns.EnvelopeNoteOrderFixed | src/soc/web/app.py:286-291 | with unique note ids the envelope's note order depends only on which notes there are |
| AgentRuns.SuccessiveRunsApart | src/soc/web/app.py:260-263 | two runs created one after the other never share an envelope or an output file |
| AgentRuns.CreateRunWritesPackage | src/soc/web/app.py:265-277 | after a successful creation the key's inbox file holds the package of the first incident with that key, not overwritten by the run's envelope |
| Maintenance.GroupMax | add_alert_index.py:10-12 | a group's `MAX(id)` bounds every id in the group |
| Maintenance.PositiveMaxAttained | add_alert_index.py:10-12 | a positive group maximum is the id of a row of the group |
| Maintenance.MaxIds | add_alert_index.py:9-13 | the subquery yields one maximum per row's group |
| Maintenance.KeepIds | add_alert_index.py:8-9 | the rows kept are exactly those whose id is in the list |
| Maintenance.MaxIdsOwnGroup | add_alert_index.py:9-13 | with unique ids, an id is among the group maxima exactly when it is its own group's maximum |
| Maintenance.DedupKeepsGroupMax | add_alert_index.py:7-14 | the survivors are exactly the rows holding their group's largest id, unmodified |
| Maintenance.DedupOnePerGroup | add_alert_index.py:7-14 | afterwards no two rows share a group, rows without an address forming one group per rule |
| Maintenance.DedupKeepsEveryGroup | add_alert_index.py:7-14 | every group present before keeps a row whose id is at least every id the group had |
| Maintenance.KeepIdsAscending | add_alert_index.py:7-14 | the remaining rows stay in id order |
| Maintenance.DedupIdempotent | add_alert_index.py:7-14 | a second dedup deletes nothing: it returns the table unchanged, so its size too |
| Maintenance.IndexRefusesDuplicate | add_alert_index.py:17-20 | two rows with the same rule and the same non-NULL address make the index creation fail |
| Maintenance.IndexSurvivesDetection | add_alert_index.py:17-20 | once the index exists, a detection run's `ON CONFLICT` upserts never give a table the index would refuse |
| Maintenance.AddAlertIndexSucceeds | add_alert_index.py:7-20 | on a table with unique ids the script always creates the index, over the deduplicated rows in id order |
| Maintenance.Cleanup | cleanup_legacy_incidents.py:6-7 | the remaining incidents are exactly those with a fingerprint, and the row count is the number removed |
| Maintenance.LegacyRows | cleanup_legacy_incidents.py:6 | the legacy rows are exactly those without a fingerprint |
| Maintenance.CleanupCountsLegacy | cleanup_legacy_incidents.py:7 | `deleted` is the number of incidents without a fingerprint beforehand |
| Maintenance.CleanupKeepsOrder | cleanup_legacy_incidents.py:6 | the remaining incidents stay in id order |
| Maintenance.CleanupIdempotent | cleanup_legacy_incidents.py:6-7 | a second cleanup deletes nothing and keeps every row |
| Maintenance.CleanupReissuesKey | cleanup_legacy_incidents.py:6 | deleting a year's first incident as legacy makes the next key repeat the surviving second one |
| Sorting.SortSorts | src/soc/agentzero/export_incident.py:45 | `ORDER BY` rearranges the rows, and only them, into order |
| Sorting.SortSorted | src/soc/agentzero/export_incident.py:45 | rows already in order keep their order |
| Sorting.SortIsTheSortedPermutation | src/soc/web/app.py:283 | when no two of the rows tie, the result does not depend on the order the rows came in |
| Text.Trim | src/soc/web/app.py:199 | `strip()` yields a piece of the input with no whitespace at either end and only whitespace before and after it |
| Text.TrimUnique | src/soc/web/app.py:199 | that piece is determined: any split into whitespace, a piece with non-space ends, and whitespace gives exactly the `strip()` result |
| Text.TrimPadded | src/soc/web/app.py:199 | `strip()` removes a leading and a trailing whitespace run of any lengths, independently |
| Text.DecimalRoundTrip | src/soc/incidents/create_from_alerts.py:13 | the decimal text of a number reads back to it |
| Text.PadNatRoundTrip | src/soc/incidents/create_from_alerts.py:13 | `{n:06d}` reads back to `n` |
| Text.CanonicalDecimal | src/soc/parsers/nginx_access_log.py:48 | for every non-empty digit string, `str(int(s))` gives `s` back if and only if `s` has no superfluous leading zero |
| Text.DecimalWidth | src/soc/incidents/create_from_alerts.py:13 | numbers below 10^w pad to exactly w digits |
| Base.NextId | src/soc/web/app.py:260 | a new row's id exceeds every existing id |
| Base.AscendingAppendNext | src/soc/web/app.py:256-260 | appending the next id keeps a table in id order |

## Left out

- Tables are sequences in id order. A new id is one past the largest (SQLite's rowid default; the schema is not part of this model). Query results without `ORDER BY` (`LIMIT 1`, `fetchone()`, `GROUP BY` output) use table order, and groups come in order of first appearance.
- `ORDER BY` is modelled as a stable sort. SQLite does not promise stability for ties, so timeline events with equal times may come in another order in the database. The envelope's two orders end in `id DESC`, so with unique ids they have no ties and the order is fixed (`AgentRuns.EnvelopeAlertOrderFixed`, `AgentRuns.EnvelopeNoteOrderFixed`).
- Note ids are assumed unique, as a primary key would make them; the notes table's schema is not part of this model.
- `\d` and `\w` are modelled on ASCII only. Python also accepts other Unicode digits and letters.
- The `datetime` constructor's conversions assume a C `long` of 64 bits, as on 64-bit Linux. Exception messages follow CPython 3.12; the digit limit of `int()` is its default of 4300, and `sys.set_int_max_str_digits()` is not modelled.
- `\s` and `str.strip()` use Python's whitespace set.
- `parse_nginx_ts` depends on the host's time zone and appears as the parameter `parseTs`. Its `ValueError` is `None`.
- The current year, `datetime('now')`, `utc_now_iso()` and file mtimes are parameters.
- The analysis engine (`analyze_incident`'s network call) is the parameter `engine`. A failed call or a reply that is not JSON ends the enrichment run.
- JSON serialisation, file reading and writing, directory creation and the success prints are left out. Files are a map from path to mtime and structured content.
- Flask routing, HTML rendering, the read-only routes and `view_incident.py` are left out. `batch_import.py`, `migrate.py` and `check_db.py` are left out too.
- Concurrent passes and their race on the "not yet linked" check are left out.
- AgentRuns.CreateRun: an exception while writing the legacy package inside the handler's `try` is not modelled. Only the envelope write failure (`writeError`) is.
- IncidentSync.SyncEstablishes: this requires `DistinctFingerprints`. That holds when rule names contain no `|` and alerts carry the unique (rule, address) index.
- IncidentSync.SecondPassChangesNothing: this carries the same requirement. A `|` in a rule name can make two alerts share a fingerprint (`FingerprintCollision`).
- The unique index is modelled only at its creation (`Maintenance.CreateUniqueIndex`). Later inserts are not checked against it one by one; instead `Maintenance.IndexSurvivesDetection` shows that detection runs never produce a table it would refuse. `IF NOT EXISTS` on an index that already exists is not modelled.
- Maintenance.DedupKeepsGroupMax: requires ids in ascending order (unique ids). With duplicate ids, `id NOT IN` over all group maxima could keep a row of one group because another group's maximum has the same id.
- Enrichment.Analyze: the report's exact text is the engine's reply. Re-indenting by `json.dumps` is not modelled.
- AuthLog.HeaderRoundTrip: the line it builds has any whitespace run between month and day but single spaces at the other `\s+` positions. Lines spaced more widely elsewhere are covered by `AuthLog.Classify`, whose contract speaks of whatever the patterns capture.
- AuthLog.FailedRoundTrip: the line it builds has any whitespace run between month and day but single spaces at the other `\s+` positions. Lines spaced more widely elsewhere are covered by `AuthLog.Classify`, whose contract speaks of whatever the patterns capture.
- AuthLog.AcceptedRoundTrip: the line it builds has any whitespace run between month and day but single spaces at the other `\s+` positions. Lines spaced more widely elsewhere are covered by `AuthLog.Classify`, whose contract speaks of whatever the patterns capture.
- AuthLog.FailedLineEvent: the line it builds has any whitespace run between month and day but single spaces at the other `\s+` positions. Lines spaced more widely elsewhere are covered by `AuthLog.Classify`, whose contract speaks of whatever the patterns capture.
- AuthLog.AcceptedLineEvent: the line it builds has any whitespace run between month and day but single spaces at the other `\s+` positions. Lines spaced more widely elsewhere are covered by `AuthLog.Classify`, whose contract speaks of whatever the patterns capture.
- NginxLog.AccessRoundTrip: builds single-spaced lines only; `NginxLog.Classify` covers every line the pattern matches.
- Creation times that the schema fills in (`created_at` of a new alert, incident or agent run) are the parameter `now` of the pass or request. The detection upsert's `datetime('now')` on conflict uses the same parameter.
- The unique index on `alerts(rule_name, src_ip)` is assumed to exist, as `ON CONFLICT(rule_name, src_ip)` requires one (src/soc/detection/ssh_bruteforce.py:47). Without it SQLite rejects the statement; that error is not modelled.
- The web application's legacy single-file Agent Zero outbox path (`get_az_outbox_path`) is not used by any modelled operation.

=== FILE: agent_runs.dfy ===
/** The web application's write paths: the analyst's status change, the lazy completion poll, and
    the creation of an enrichment run with its envelope. */
module AgentRuns {
  import opened Base
  import opened Text
  import opened Records
  import opened Sorting
  import opened Files
  import opened Export

  /** What a request handler answers: a redirect, or an error status with its description. */
  datatype Response = Redirect(location: String) | Abort(code: nat, description: String)

  function IncidentPage(key: String): String {
    "/incident/" + key
  }

  // ----- status workflow -----

  const AllowedStatuses: set<String> := {"New", "Triage", "Investigating", "Contained", "Closed"}

  /** Every incident with the key takes `status`; no other field and no other incident changes. */
  function SetStatus(incs: seq<Incident>, key: String, status: String): (r: seq<Incident>)
    ensures |r| == |incs|
    ensures forall i :: 0 <= i < |incs| ==> r[i].(status := incs[i].status) == incs[i]
    ensures forall i :: 0 <= i < |incs| && incs[i].incidentKey != key ==> r[i] == incs[i]
    ensures forall i :: 0 <= i < |incs| && incs[i].incidentKey == key ==> r[i].status == status
  {
    seq(|incs|, i requires 0 <= i < |incs| => if incs[i].incidentKey == key then incs[i].(status := status) else incs[i])
  }

  /** `update_incident_status`: the submitted value, stripped, must be one of the five statuses;
      every incident with the key then takes it, and nothing else changes. */
  function UpdateStatus(st: Store, key: String, form: Option<String>): (r: (Store, Response))
    ensures r.1.Abort? <==> Trim(form.GetOr("")) !in AllowedStatuses
    ensures r.1.Abort? ==> r.0 == st && r.1.code == 400
    ensures r.1.Redirect? ==> r.1.location == IncidentPage(key)
    ensures r.0.(incidents := st.incidents) == st && |r.0.incidents| == |st.incidents|
    ensures forall i :: 0 <= i < |st.incidents| ==> r.0.incidents[i].(status := st.incidents[i].status) == st.incidents[i]
    ensures forall i :: 0 <= i < |st.incidents| && st.incidents[i].incidentKey != key ==> r.0.incidents[i] == st.incidents[i]
    ensures r.1.Redirect? ==> forall i :: 0 <= i < |st.incidents| && st.incidents[i].incidentKey == key ==>
      r.0.incidents[i].status == Trim(form.GetOr(""))
  {
    var status := Trim(form.GetOr(""));
    if status !in AllowedStatuses then (st, Abort(400, ""))
    else (st.(incidents := SetStatus(st.incidents, key, status)), Redirect(IncidentPage(key)))
  }

  /** Submitting the same status twice is the same as submitting it once. */
  lemma UpdateStatusIdempotent(st: Store, key: String, form: Option<String>)
    ensures UpdateStatus(UpdateStatus(st, key, form).0, key, form) == UpdateStatus(st, key, form)
  {
    var r := UpdateStatus(st, key, form);
    var r2 := UpdateStatus(r.0, key, form);
    assert r2.0.incidents == r.0.incidents;
  }

  /** Surrounding whitespace is ignored: a value padded by any leading and any trailing run is
      treated as the bare one. */
  lemma PaddedStatusSame(st: Store, key: String, lead: String, status: String, trail: String)
    requires |status| > 0 && !IsSpace(status[0]) && !IsSpace(status[|status| - 1])
    requires forall i :: 0 <= i < |lead| ==> IsSpace(lead[i])
    requires forall i :: 0 <= i < |trail| ==> IsSpace(trail[i])
    ensures UpdateStatus(st, key, Some(lead + status + trail)) == UpdateStatus(st, key, Some(status))
  {
    TrimPadded(lead, status, trail);
    TrimNoSpace(status);
  }

  // ----- the run lifecycle -----

  /** The moves a run can make: creation ends queued runs as exported or failed; the poll completes
      exported runs. */
  predicate Step(a: RunStatus, b: RunStatus) {
    (a == Queued && (b == Exported || b == Failed)) || (a == Exported && b == Completed)
  }

  /** The run's output is on disk: the path is set, not empty, and a file is there. */
  predicate OutputReady(r: AgentRun, fs: Fs) {
    r.outputPath.Some? && |r.outputPath.value| > 0 && r.outputPath.value in fs
  }

  function Poll(r: AgentRun, key: String, fs: Fs): AgentRun {
    if r.incidentKey == key && r.status == Exported && OutputReady(r, fs) then r.(status := Completed) else r
  }

  /** `refresh_agent_run_statuses`: the key's exported runs whose output has appeared become completed. */
  function Refresh(st: Store, key: String, fs: Fs): (r: Store)
    ensures r.(runs := st.runs) == st && |r.runs| == |st.runs|
    ensures forall i :: 0 <= i < |st.runs| ==> r.runs[i].(status := st.runs[i].status) == st.runs[i]
    ensures forall i :: 0 <= i < |st.runs| && r.runs[i] != st.runs[i] ==> Step(st.runs[i].status, r.runs[i].status)
    ensures forall i :: 0 <= i < |st.runs| && st.runs[i].incidentKey == key && st.runs[i].status == Exported ==>
      (r.runs[i].status == Completed <==> OutputReady(st.runs[i], fs))
    ensures forall i :: 0 <= i < |st.runs| && st.runs[i].incidentKey != key ==> r.runs[i] == st.runs[i]
  {
    st.(runs := seq(|st.runs|, i requires 0 <= i < |st.runs| => Poll(st.runs[i], key, fs)))
  }

  /** Failed and completed runs never move again, and queued runs are not touched by the poll. */
  lemma RefreshKeepsSettled(st: Store, key: String, fs: Fs, i: nat)
    requires i < |st.runs| && st.runs[i].status != Exported
    ensures Refresh(st, key, fs).runs[i] == st.runs[i]
  {
  }

  /** Polling again before anything new appears changes nothing. */
  lemma RefreshIdempotent(st: Store, key: String, fs: Fs)
    ensures Refresh(Refresh(st, key, fs), key, fs) == Refresh(st, key, fs)
  {
    var r := Refresh(st, key, fs);
    assert Refresh(r, key, fs).runs == r.runs;
  }

  // ----- creating a run -----

  datatype Outcome = Outcome(st: Store, fs: Fs, response: Response)

  /** `ORDER BY created_at DESC, id DESC` for alerts. */
  predicate AlertNewestFirst(a: Alert, b: Alert) {
    if a.createdAt == b.createdAt then a.id >= b.id else StrLe(b.createdAt, a.createdAt)
  }

  /** `ORDER BY created_at DESC, id DESC` for notes. */
  predicate NoteNewestFirst(a: Note, b: Note) {
    if a.createdAt == b.createdAt then a.id >= b.id else StrLe(b.createdAt, a.createdAt)
  }

  /** `SELECT ... FROM incident_notes WHERE incident_key = ?`, before ordering. */
  function NotesFor(notes: seq<Note>, key: String): (r: seq<Note>)
    ensures forall n :: n in r <==> n in notes && n.incidentKey == key
  {
    if |notes| == 0 then []
    else
      var pre := NotesFor(notes[..|notes| - 1], key);
      var n := notes[|notes| - 1];
      assert notes == notes[..|notes| - 1] + [n];
      if n.incidentKey == key then pre + [n] else pre
  }

  /** The previous report, read if present; a file that is not JSON is flagged with its path. */
  function PriorReportAt(fs: Fs, path: String): PriorReport {
    if path !in fs then NoReport
    else if fs[path].content.Text? && !fs[path].content.json then InvalidJson(path)
    else Loaded(fs[path].content)
  }

  /** The run envelope; `requestedAt` is the handler's own `utc_now_iso()` reading, taken
      after the row was inserted and so not the row's `created_at`. */
  function BuildEnvelope(st: Store, fs: Fs, root: String, x: Incident, runId: nat, prompt: String, requestedAt: String): Envelope {
    Envelope(
      x.incidentKey,
      runId,
      requestedAt,
      prompt,
      RunOutboxPath(root, x.incidentKey, runId),
      View(x),
      Sort(AlertsFor(st.alerts, x.primaryIp), AlertNewestFirst),
      Sort(NotesFor(st.notes, x.incidentKey), NoteNewestFirst),
      PriorReportAt(fs, ReportPath(root, x.incidentKey)))
  }

  /** The row inserted first: `queued`, model `agentzero`, requested by `analyst`; `created_at`
      is the database default, the clock reading `now`. */
  function QueuedRun(runs: seq<AgentRun>, key: String, prompt: String, now: String): AgentRun {
    AgentRun(NextId(RunIds(runs)), key, now, Queued, "agentzero", "analyst", prompt, None, None, None)
  }

  /** The final state of the new run. `writeError` is the message of an exception raised while
      writing the envelope; the run then fails with that message and no paths. */
  function Finish(q: AgentRun, root: String, writeError: Option<String>): AgentRun {
    if writeError.Some? then q.(status := Failed, error := writeError)
    else q.(status := Exported, exportPath := Some(RunInboxPath(root, q.incidentKey, q.id)),
            outputPath := Some(RunOutboxPath(root, q.incidentKey, q.id)), error := None)
  }

  /** What the handler leaves behind once the legacy package of incident `x` has been written,
      giving the files `exported`: the run inserted as `queued` and finished, and, without a write
      error, the envelope at the run's export path. */
  function Created(st: Store, exported: Fs, root: String, key: String, x: Incident, prompt: String, now: String,
                   requestedAt: String, mtime: int, writeError: Option<String>): Outcome {
    var q := QueuedRun(st.runs, key, prompt, now);
    var st2 := st.(runs := st.runs + [Finish(q, root, writeError)]);
    if writeError.Some? then
      Outcome(st2, exported, Abort(500, "Agent run failed: " + writeError.value))
    else
      var env := BuildEnvelope(st, exported, root, x, q.id, prompt, requestedAt);
      Outcome(st2, exported[RunInboxPath(root, key, q.id) := File(mtime, EnvelopeFile(env))], Redirect(IncidentPage(key)))
  }

  /** `agentzero_create_run`. An unknown key makes the exporter raise `SystemExit`, which the
      handler does not catch: nothing is committed and the error propagates (`Err`). Otherwise the
      run is inserted, the legacy package written, and the run ends exported or failed. Two clock
      readings take part: `now` is the `created_at` column default of the new row, `requestedAt`
      the `utc_now_iso()` text the envelope carries. */
  function CreateRun(st: Store, fs: Fs, root: String, key: String, form: Option<String>, now: String,
                     requestedAt: String, mtime: int, writeError: Option<String>): (r: Result<Outcome, String>)
    ensures r.Err? <==> forall j :: 0 <= j < |st.incidents| ==> st.incidents[j].incidentKey != key
    ensures r.Err? ==> r.error == NotFound(key)
    ensures r.Ok? ==> r.value.st.(runs := st.runs) == st
    ensures r.Ok? ==> |r.value.st.runs| == |st.runs| + 1 && r.value.st.runs[..|st.runs|] == st.runs
  {
    var exported :- ExportIncident(st, fs, root, key, mtime);
    var x := st.incidents[FindKey(st.incidents, key).value];
    Ok(Created(st, exported, root, key, x, Trim(form.GetOr("")), now, requestedAt, mtime, writeError))
  }

  /** A successful creation is `Created` applied to the exporter's files and the incident found. */
  lemma CreateRunIsCreated(st: Store, fs: Fs, root: String, key: String, form: Option<String>, now: String, requestedAt: String, mtime: int,
                         writeError: Option<String>)
    requires CreateRun(st, fs, root, key, form, now, requestedAt, mtime, writeError).Ok?
    ensures ExportIncident(st, fs, root, key, mtime).Ok? && FindKey(st.incidents, key).Some?
    ensures var x := st.incidents[FindKey(st.incidents, key).value];
      && x.incidentKey == key
      && CreateRun(st, fs, root, key, form, now, requestedAt, mtime, writeError).value
         == Created(st, ExportIncident(st, fs, root, key, mtime).value, root, key, x, Trim(form.GetOr("")), now, requestedAt, mtime, writeError)
  {
  }

  /** A successful creation leaves the legacy package of the first incident with the key at its
      inbox path; the run's envelope, at a longer path, does not overwrite it. */
  lemma CreateRunWritesPackage(st: Store, fs: Fs, root: String, key: String, form: Option<String>, now: String,
                               requestedAt: String, mtime: int, writeError: Option<String>)
    requires CreateRun(st, fs, root, key, form, now, requestedAt, mtime, writeError).Ok?
    ensures FindKey(st.incidents, key).Some?
    ensures var o := CreateRun(st, fs, root, key, form, now, requestedAt, mtime, writeError).value;
      && InboxPath(root, key) in o.fs
      && o.fs[InboxPath(root, key)] == File(mtime, PackageFile(BuildPackage(st, st.incidents[FindKey(st.incidents, key).value])))
  {
    CreateRunIsCreated(st, fs, root, key, form, now, requestedAt, mtime, writeError);
    var runId := NextId(RunIds(st.runs));
    assert |RunInboxPath(root, key, runId)| > |InboxPath(root, key)|;
  }

  /** The store after a successful creation: the finished run appended, nothing else changed. */
  lemma CreateRunStore(st: Store, fs: Fs, root: String, key: String, form: Option<String>, now: String, requestedAt: String, mtime: int,
                         writeError: Option<String>)
    requires CreateRun(st, fs, root, key, form, now, requestedAt, mtime, writeError).Ok?
    ensures CreateRun(st, fs, root, key, form, now, requestedAt, mtime, writeError).value.st
      == st.(runs := st.runs + [Finish(QueuedRun(st.runs, key, Trim(form.GetOr("")), now), root, writeError)])
  {
    CreateRunIsCreated(st, fs, root, key, form, now, requestedAt, mtime, writeError);
  }

  /** The new run has a fresh id, the key, the clock reading and the analyst's stripped prompt. */
  lemma CreateRunRecord(st: Store, fs: Fs, root: String, key: String, form: Option<String>, now: String, requestedAt: String, mtime: int,
                         writeError: Option<String>)
    requires CreateRun(st, fs, root, key, form, now, requestedAt, mtime, writeError).Ok?
    ensures var run := CreateRun(st, fs, root, key, form, now, requestedAt, mtime, writeError).value.st.runs[|st.runs|];
      && (forall j :: 0 <= j < |st.runs| ==> st.runs[j].id < run.id)
      && run.incidentKey == key && run.createdAt == now && run.model == "agentzero" && run.requestedBy == "analyst"
      && run.analystPrompt == Trim(form.GetOr(""))
  {
    CreateRunStore(st, fs, root, key, form, now, requestedAt, mtime, writeError);
    var q := QueuedRun(st.runs, key, Trim(form.GetOr("")), now);
    forall j | 0 <= j < |st.runs| ensures st.runs[j].id < q.id {
      assert RunIds(st.runs)[j] == st.runs[j].id;
    }
  }

  /** Without a write error the run is exported with both run paths and no error, its envelope sits
      at the export path naming the run and its expected output, and the handler redirects. */
  lemma CreateRunExported(st: Store, fs: Fs, root: String, key: String, form: Option<String>, now: String, requestedAt: String, mtime: int,
                         writeError: Option<String>)
    requires CreateRun(st, fs, root, key, form, now, requestedAt, mtime, writeError).Ok?
    requires writeError.None?
    ensures var o := CreateRun(st, fs, root, key, form, now, requestedAt, mtime, writeError).value;
      var run := o.st.runs[|st.runs|];
      && run.status == Exported && run.error.None?
      && run.exportPath == Some(RunInboxPath(root, key, run.id))
      && run.outputPath == Some(RunOutboxPath(root, key, run.id))
      && RunInboxPath(root, key, run.id) in o.fs
      && o.fs[RunInboxPath(root, key, run.id)].content.EnvelopeFile?
      && o.fs[RunInboxPath(root, key, run.id)].content.envelope.runId == run.id
      && o.fs[RunInboxPath(root, key, run.id)].content.envelope.expectedOutputPath == RunOutboxPath(root, key, run.id)
      && o.fs[RunInboxPath(root, key, run.id)].content.envelope.requestedAt == requestedAt
      && o.response == Redirect(IncidentPage(key))
  {
    CreateRunIsCreated(st, fs, root, key, form, now, requestedAt, mtime, writeError);
  }

  /** An exception while writing fails the run with its message, sets no path, and answers 500. */
  lemma CreateRunFailed(st: Store, fs: Fs, root: String, key: String, form: Option<String>, now: String, requestedAt: String, mtime: int,
                         writeError: Option<String>)
    requires CreateRun(st, fs, root, key, form, now, requestedAt, mtime, writeError).Ok?
    requires writeError.Some?
    ensures var o := CreateRun(st, fs, root, key, form, now, requestedAt, mtime, writeError).value;
      var run := o.st.runs[|st.runs|];
      && run.status == Failed && run.error == writeError
      && run.exportPath.None? && run.outputPath.None?
      && o.response == Abort(500, "Agent run failed: " + writeError.value)
  {
    CreateRunIsCreated(st, fs, root, key, form, now, requestedAt, mtime, writeError);
  }

  /** Creation moves the new run along the lifecycle, starting from `queued`. */
  lemma CreateRunFollowsLifecycle(st: Store, fs: Fs, root: String, key: String, form: Option<String>, now: String, requestedAt: String, mtime: int,
                                  writeError: Option<String>)
    requires CreateRun(st, fs, root, key, form, now, requestedAt, mtime, writeError).Ok?
    ensures Step(Queued, CreateRun(st, fs, root, key, form, now, requestedAt, mtime, writeError).value.st.runs[|st.runs|].status)
  {
    CreateRunStore(st, fs, root, key, form, now, requestedAt, mtime, writeError);
  }

  /** The new run keeps the runs table in id order. */
  lemma CreateRunKeepsIdOrder(st: Store, fs: Fs, root: String, key: String, form: Option<String>, now: String, requestedAt: String, mtime: int,
                              writeError: Option<String>)
    requires Ascending(RunIds(st.runs))
    requires CreateRun(st, fs, root, key, form, now, requestedAt, mtime, writeError).Ok?
    ensures Ascending(RunIds(CreateRun(st, fs, root, key, form, now, requestedAt, mtime, writeError).value.st.runs))
  {
    CreateRunStore(st, fs, root, key, form, now, requestedAt, mtime, writeError);
    FinishedRunKeepsIdOrder(st.runs, key, Trim(form.GetOr("")), now, root, writeError);
  }

  lemma FinishedRunKeepsIdOrder(runs: seq<AgentRun>, key: String, prompt: String, now: String, root: String,
                                writeError: Option<String>)
    requires Ascending(RunIds(runs))
    ensures Ascending(RunIds(runs + [Finish(QueuedRun(runs, key, prompt, now), root, writeError)]))
  {
    RunIdsSnoc(runs, Finish(QueuedRun(runs, key, prompt, now), root, writeError));
    AscendingAppendNext(RunIds(runs));
  }

  lemma RunIdsSnoc(runs: seq<AgentRun>, run: AgentRun)
    ensures RunIds(runs + [run]) == RunIds(runs) + [run.id]
  {
    var a := RunIds(runs + [run]);
    var b := RunIds(runs) + [run.id];
    forall i | 0 <= i < |a| ensures a[i] == b[i] {
      if i < |runs| {
        assert (runs + [run])[i] == runs[i];
      }
    }
  }

  /** The envelope holds exactly the alerts of the incident's address, newest first with ties broken
      by the larger id, and exactly the incident's notes in the same order. */
  lemma EnvelopeContents(st: Store, fs: Fs, root: String, x: Incident, runId: nat, prompt: String, requestedAt: String)
    ensures var e := BuildEnvelope(st, fs, root, x, runId, prompt, requestedAt);
      && multiset(e.alerts) == multiset(AlertsFor(st.alerts, x.primaryIp))
      && (forall a :: a in e.alerts <==> a in st.alerts && SqlEq(a.srcIp, x.primaryIp))
      && Sorted(e.alerts, AlertNewestFirst)
      && multiset(e.notes) == multiset(NotesFor(st.notes, x.incidentKey))
      && (forall n :: n in e.notes <==> n in st.notes && n.incidentKey == x.incidentKey)
      && Sorted(e.notes, NoteNewestFirst)
  {
    NewestFirstOrders();
    var e := BuildEnvelope(st, fs, root, x, runId, prompt, requestedAt);
    SortSorts(AlertsFor(st.alerts, x.primaryIp), AlertNewestFirst);
    SortSorts(NotesFor(st.notes, x.incidentKey), NoteNewestFirst);
    forall a ensures a in e.alerts <==> a in AlertsFor(st.alerts, x.primaryIp) {
      assert a in e.alerts <==> a in multiset(e.alerts);
    }
    forall n ensures n in e.notes <==> n in NotesFor(st.notes, x.incidentKey) {
      assert n in e.notes <==> n in multiset(e.notes);
    }
  }

  /** `created_at DESC, id DESC` compares every two rows and can be applied in steps. */
  lemma NewestFirstOrders()
    ensures Total(AlertNewestFirst) && Transitive(AlertNewestFirst)
    ensures Total(NoteNewestFirst) && Transitive(NoteNewestFirst)
  {
    forall a: Alert, b: Alert ensures AlertNewestFirst(a, b) || AlertNewestFirst(b, a) {
      StrLeTotal(a.createdAt, b.createdAt);
    }
    forall a: Note, b: Note ensures NoteNewestFirst(a, b) || NoteNewestFirst(b, a) {
      StrLeTotal(a.createdAt, b.createdAt);
    }
    forall a: Alert, b: Alert, c: Alert | AlertNewestFirst(a, b) && AlertNewestFirst(b, c)
      ensures AlertNewestFirst(a, c)
    {
      NewestFirstStep(a.createdAt, b.createdAt, c.createdAt);
    }
    forall a: Note, b: Note, c: Note | NoteNewestFirst(a, b) && NoteNewestFirst(b, c)
      ensures NoteNewestFirst(a, c)
    {
      NewestFirstStep(a.createdAt, b.createdAt, c.createdAt);
    }
  }

  /** The time part of `created_at DESC`: two steps back in time end no later than they started,
      and end strictly earlier unless one step stayed at the same time. */
  lemma NewestFirstStep(a: String, b: String, c: String)
    requires a == b || StrLe(b, a)
    requires b == c || StrLe(c, b)
    ensures a == c || StrLe(c, a)
    ensures a == c && a != b ==> b == c
  {
    if a != b && b != c {
      StrLeTransitive(c, b, a);
      if a == c {
        StrLeAntisymmetric(a, b);
      }
    }
  }

  /** With unique alert ids no two alerts of the address tie under `created_at DESC, id DESC`, so
      the envelope's alert order is fixed by the rows alone, whatever order the query met them in. */
  lemma EnvelopeAlertOrderFixed(st: Store, fs: Fs, root: String, x: Incident, runId: nat, prompt: String,
                                requestedAt: String, ys: seq<Alert>)
    requires Ascending(AlertIds(st.alerts))
    requires multiset(ys) == multiset(AlertsFor(st.alerts, x.primaryIp))
    ensures Sort(ys, AlertNewestFirst) == BuildEnvelope(st, fs, root, x, runId, prompt, requestedAt).alerts
  {
    var xs := AlertsFor(st.alerts, x.primaryIp);
    NewestFirstOrders();
    assert NoTiesAmong(multiset(xs), AlertNewestFirst) by {
      forall a, b | a in multiset(xs) && b in multiset(xs) && AlertNewestFirst(a, b) && AlertNewestFirst(b, a)
        ensures a == b
      {
        assert a in xs && b in xs;
        var i :| 0 <= i < |st.alerts| && st.alerts[i] == a;
        var j :| 0 <= j < |st.alerts| && st.alerts[j] == b;
        if a.createdAt != b.createdAt {
          StrLeAntisymmetric(a.createdAt, b.createdAt);
        }
        assert AlertIds(st.alerts)[i] == a.id && AlertIds(st.alerts)[j] == b.id;
      }
    }
    SortIsTheSortedPermutation(ys, xs, AlertNewestFirst);
  }

  /** The same for notes: with unique note ids the envelope's note order is fixed by the rows. */
  lemma EnvelopeNoteOrderFixed(st: Store, fs: Fs, root: String, x: Incident, runId: nat, prompt: String,
                               requestedAt: String, ys: seq<Note>)
    requires forall i, j :: 0 <= i < j < |st.notes| ==> st.notes[i].id != st.notes[j].id
    requires multiset(ys) == multiset(NotesFor(st.notes, x.incidentKey))
    ensures Sort(ys, NoteNewestFirst) == BuildEnvelope(st, fs, root, x, runId, prompt, requestedAt).notes
  {
    var xs := NotesFor(st.notes, x.incidentKey);
    NewestFirstOrders();
    assert NoTiesAmong(multiset(xs), NoteNewestFirst) by {
      forall a, b | a in multiset(xs) && b in multiset(xs) && NoteNewestFirst(a, b) && NoteNewestFirst(b, a)
        ensures a == b
      {
        assert a in xs && b in xs;
        var i :| 0 <= i < |st.notes| && st.notes[i] == a;
        var j :| 0 <= j < |st.notes| && st.notes[j] == b;
        if a.createdAt != b.createdAt {
          StrLeAntisymmetric(a.createdAt, b.createdAt);
        }
      }
    }
    SortIsTheSortedPermutation(ys, xs, NoteNewestFirst);
  }

  /** Two runs created one after the other never share an envelope or an output file. */
  lemma SuccessiveRunsApart(st: Store, fs: Fs, root: String, key: String, form: Option<String>, now: String, requestedAt: String, mtime: int,
                            writeError: Option<String>, form2: Option<String>, now2: String, requestedAt2: String, mtime2: int, writeError2: Option<String>)
    requires CreateRun(st, fs, root, key, form, now, requestedAt, mtime, writeError).Ok?
    ensures var o := CreateRun(st, fs, root, key, form, now, requestedAt, mtime, writeError).value;
      var o2 := CreateRun(o.st, o.fs, root, key, form2, now2, requestedAt2, mtime2, writeError2);
      && o2.Ok?
      && RunInboxPath(root, key, o.st.runs[|st.runs|].id) != RunInboxPath(root, key, o2.value.st.runs[|st.runs| + 1].id)
      && RunOutboxPath(root, key, o.st.runs[|st.runs|].id) != RunOutboxPath(root, key, o2.value.st.runs[|st.runs| + 1].id)
  {
    var o := CreateRun(st, fs, root, key, form, now, requestedAt, mtime, writeError).value;
    var o2 := CreateRun(o.st, o.fs, root, key, form2, now2, requestedAt2, mtime2, writeError2).value;
    var id1 := o.st.runs[|st.runs|].id;
    var id2 := o2.st.runs[|st.runs| + 1].id;
    CreateRunRecord(o.st, o.fs, root, key, form2, now2, requestedAt2, mtime2, writeError2);
    assert o.st.runs[|st.runs|].id < id2;
    if RunInboxPath(root, key, id1) == RunInboxPath(root, key, id2) { RunInboxPathInjective(root, key, id1, key, id2); }
    if RunOutboxPath(root, key, id1) == RunOutboxPath(root, key, id2) { RunOutboxPathInjective(root, key, id1, key, id2); }
  }
}

=== FILE: auth_log.dfy ===
/** The sshd log parser: two line patterns sharing a syslog header, the month table, timestamp
    construction, and the per-line decision of the auth.log pass. */
module AuthLog {
  import opened Base
  import opened Text
  import opened Records
  import opened Scan
  import opened ParsePass

  /** The `time` group `\d+:\d+:\d+`, kept as its three digit runs. */
  datatype Clock = Clock(hour: String, minute: String, second: String)

  /** The groups of the syslog header shared by both patterns; `pid` is the unnamed `sshd[\d+]`. */
  datatype Header = Header(mon: String, day: String, clock: Clock, host: String, pid: String)

  /** `(?P<user>\S+)\s+from\s+(?P<ip>\S+)\s+port\s+(?P<port>\d+)`, the tail both patterns share. */
  datatype Login = Login(user: String, ip: String, port: String)

  /** A `FAILED_RE` match; `invalidUser` records whether the optional `invalid user ` group matched. */
  datatype FailedLine = FailedLine(header: Header, invalidUser: bool, login: Login)

  /** An `ACCEPTED_RE` match. */
  datatype AcceptedLine = AcceptedLine(header: Header, authMethod: String, login: Login)

  function TimeText(c: Clock): String {
    c.hour + ":" + c.minute + ":" + c.second
  }

  // ----- recognisers -----

  /** `^(?P<mon>\w+)\s+(?P<day>\d+)\s+(?P<time>\d+:\d+:\d+)`: the syslog time stamp. */
  function MatchStamp(s: String): (r: Option<(String, String, Clock, String)>)
  {
    var mon :- Plus(s, Word);
    var a :- Plus(mon.rest, Space);
    var day :- Plus(a.rest, Digit);
    var b :- Plus(day.rest, Space);
    var hh :- Plus(b.rest, Digit);
    var c1 :- Lit(hh.rest, ":");
    var mm :- Plus(c1, Digit);
    var c2 :- Lit(mm.rest, ":");
    var ss :- Plus(c2, Digit);
    Some((mon.text, day.text, Clock(hh.text, mm.text, ss.text), ss.rest))
  }

  /** `\s+(?P<host>\S+)\s+sshd\[\d+\]:\s+`: host and process tag. */
  function MatchProcess(s: String): (r: Option<(String, String, String)>)
  {
    var c :- Plus(s, Space);
    var host :- Plus(c.rest, NonSpace);
    var d :- Plus(host.rest, Space);
    var s1 :- Lit(d.rest, "sshd[");
    var pid :- Plus(s1, Digit);
    var s2 :- Lit(pid.rest, "]:");
    var e :- Plus(s2, Space);
    Some((host.text, pid.text, e.rest))
  }

  /** The header both patterns share; yields its groups and the unread rest of the line. */
  function MatchHeader(s: String): (r: Option<(Header, String)>)
  {
    var (mon, day, clock, s1) :- MatchStamp(s);
    var (host, pid, rest) :- MatchProcess(s1);
    Some((Header(mon, day, clock, host, pid), rest))
  }

  /** `(?P<user>\S+)\s+from\s+(?P<ip>\S+)\s+port\s+(?P<port>\d+)`; whatever follows the port is ignored. */
  function MatchLogin(s: String): (r: Option<Login>)
  {
    var user :- Plus(s, NonSpace);
    var a :- Plus(user.rest, Space);
    var f :- Lit(a.rest, "from");
    var b :- Plus(f, Space);
    var ep :- MatchEndpoint(b.rest);
    Some(Login(user.text, ep.0, ep.1))
  }

  /** `(?P<ip>\S+)\s+port\s+(?P<port>\d+)`: the address part of a login. */
  function MatchEndpoint(s: String): (r: Option<(String, String)>)
  {
    var ip :- Plus(s, NonSpace);
    var c :- Plus(ip.rest, Space);
    var p :- Lit(c.rest, "port");
    var d :- Plus(p, Space);
    var port :- Plus(d.rest, Digit);
    Some((ip.text, port.text))
  }

  /** `FAILED_RE.match`. */
  function MatchFailed(line: String): (r: Option<FailedLine>)
  {
    var (h, s) :- MatchHeader(line);
    var (invalidUser, login) :- MatchFailedBody(s);
    Some(FailedLine(h, invalidUser, login))
  }

  /** `Failed password for (invalid user )?` followed by the login groups. The optional group is
      tried first and given up if the rest then fails to match. */
  function MatchFailedBody(s: String): (r: Option<(bool, Login)>)
    ensures r.Some? ==> "Failed password for " <= s
  {
    var body :- Lit(s, "Failed password for ");
    var withPrefix := Lit(body, "invalid user ");
    var withLogin := if withPrefix.Some? then MatchLogin(withPrefix.value) else None;
    if withLogin.Some? then Some((true, withLogin.value))
    else
      var login :- MatchLogin(body);
      Some((false, login))
  }

  /** `ACCEPTED_RE.match`. */
  function MatchAccepted(line: String): (r: Option<AcceptedLine>)
  {
    var (h, s) :- MatchHeader(line);
    var (m, login) :- MatchAcceptedBody(s);
    Some(AcceptedLine(h, m, login))
  }

  /** `Accepted\s+(?P<method>\S+)\s+for\s+` followed by the login groups. */
  function MatchAcceptedBody(s: String): (r: Option<(String, Login)>)
  {
    var a :- Lit(s, "Accepted");
    var b :- Plus(a, Space);
    var m :- Plus(b.rest, NonSpace);
    var c :- Plus(m.rest, Space);
    var f :- Lit(c.rest, "for");
    var d :- Plus(f, Space);
    var login :- MatchLogin(d.rest);
    Some((m.text, login))
  }

  // ----- canonical line text -----

  predicate NonEmptyIn(s: String, k: CharClass) {
    |s| > 0 && AllIn(s, k)
  }

  predicate WfHeader(h: Header) {
    && NonEmptyIn(h.mon, Word) && NonEmptyIn(h.day, Digit)
    && NonEmptyIn(h.clock.hour, Digit) && NonEmptyIn(h.clock.minute, Digit) && NonEmptyIn(h.clock.second, Digit)
    && NonEmptyIn(h.host, NonSpace) && NonEmptyIn(h.pid, Digit)
  }

  predicate WfLogin(l: Login) {
    NonEmptyIn(l.user, NonSpace) && NonEmptyIn(l.ip, NonSpace) && NonEmptyIn(l.port, Digit)
  }

  /** A whitespace run separating the month from the day: syslog pads a one-digit day with a
      second space (`Feb  9`), and `\s+` accepts any run. */
  predicate IsGap(gap: String) {
    NonEmptyIn(gap, Space)
  }

  /** The header with `gap` between month and day and single spaces elsewhere, followed by `tail`. */
  function HeaderText(h: Header, gap: String, tail: String): String {
    StampText(h.mon, gap, h.day, h.clock, ProcessText(h.host, h.pid, tail))
  }

  function StampText(mon: String, gap: String, day: String, c: Clock, tail: String): String {
    mon + (gap + (day + (" " + (c.hour + (":" + (c.minute + (":" + (c.second + tail))))))))
  }

  function ProcessText(host: String, pid: String, tail: String): String {
    " " + (host + (" " + ("sshd[" + (pid + ("]:" + (" " + tail))))))
  }

  function LoginText(l: Login, tail: String): String {
    l.user + (" " + ("from" + (" " + (l.ip + (" " + ("port" + (" " + (l.port + tail))))))))
  }

  function FailedText(f: FailedLine, gap: String, tail: String): String {
    HeaderText(f.header, gap, FailedBodyText(f.invalidUser, f.login, tail))
  }

  function FailedBodyText(invalidUser: bool, l: Login, tail: String): String {
    "Failed password for " + (if invalidUser then "invalid user " + LoginText(l, tail) else LoginText(l, tail))
  }

  function AcceptedText(a: AcceptedLine, gap: String, tail: String): String {
    HeaderText(a.header, gap, AcceptedBodyText(a.authMethod, a.login, tail))
  }

  function AcceptedBodyText(m: String, l: Login, tail: String): String {
    "Accepted" + (" " + (m + (" " + ("for" + (" " + LoginText(l, tail))))))
  }

  // ----- round trips -----

  lemma SpaceStops(rest: String, k: CharClass)
    requires k == Word || k == Digit || k == NonSpace
    ensures StopsRun(" " + rest, k)
  {
  }

  lemma StampRoundTrip(mon: String, gap: String, day: String, c: Clock, tail: String)
    requires NonEmptyIn(mon, Word) && IsGap(gap) && NonEmptyIn(day, Digit)
    requires NonEmptyIn(c.hour, Digit) && NonEmptyIn(c.minute, Digit) && NonEmptyIn(c.second, Digit)
    requires StopsRun(tail, Digit)
    ensures MatchStamp(StampText(mon, gap, day, c, tail)) == Some((mon, day, c, tail))
  {
    var t3 := c.second + tail;
    var t2 := c.minute + (":" + t3);
    var t1 := c.hour + (":" + t2);
    var t0 := day + (" " + t1);
    assert StopsRun(gap + t0, Word) by { assert (gap + t0)[0] == gap[0]; }
    PlusOf(mon, gap + t0, Word);
    assert StopsRun(t0, Space) by { assert t0[0] == day[0]; }
    PlusOf(gap, t0, Space);
    PlusOf(day, " " + t1, Digit);
    PlusOf(" ", t1, Space);
    PlusOf(c.hour, ":" + t2, Digit);
    LitOf(":", t2);
    PlusOf(c.minute, ":" + t3, Digit);
    LitOf(":", t3);
    PlusOf(c.second, tail, Digit);
  }

  lemma ProcessRoundTrip(host: String, pid: String, tail: String)
    requires NonEmptyIn(host, NonSpace) && NonEmptyIn(pid, Digit) && StopsRun(tail, Space)
    ensures MatchProcess(ProcessText(host, pid, tail)) == Some((host, pid, tail))
  {
    var t1 := "sshd[" + (pid + ("]:" + (" " + tail)));
    var t0 := host + (" " + t1);
    PlusOf(" ", t0, Space);
    PlusOf(host, " " + t1, NonSpace);
    PlusOf(" ", t1, Space);
    LitOf("sshd[", pid + ("]:" + (" " + tail)));
    PlusOf(pid, "]:" + (" " + tail), Digit);
    LitOf("]:", " " + tail);
    PlusOf(" ", tail, Space);
  }

  /** The header recogniser reads back the groups of a header, whatever whitespace run separates
      the month from the day. */
  lemma HeaderRoundTrip(h: Header, gap: String, tail: String)
    requires WfHeader(h) && IsGap(gap) && StopsRun(tail, Space)
    ensures MatchHeader(HeaderText(h, gap, tail)) == Some((h, tail))
  {
    var p := ProcessText(h.host, h.pid, tail);
    assert StopsRun(p, Digit) by { assert p[0] == ' '; }
    ProcessRoundTrip(h.host, h.pid, tail);
    StampRoundTrip(h.mon, gap, h.day, h.clock, p);
    HeaderOf(HeaderText(h, gap, tail), h, p, tail);
  }

  /** The header pattern is the stamp pattern followed by the process pattern. */
  lemma HeaderOf(s: String, h: Header, p: String, rest: String)
    requires MatchStamp(s) == Some((h.mon, h.day, h.clock, p))
    requires MatchProcess(p) == Some((h.host, h.pid, rest))
    ensures MatchHeader(s) == Some((h, rest))
  {
  }

  lemma LoginRoundTrip(l: Login, tail: String)
    requires WfLogin(l) && StopsRun(tail, Digit)
    ensures MatchLogin(LoginText(l, tail)) == Some(l)
  {
    var t1 := l.ip + (" " + ("port" + (" " + (l.port + tail))));
    PlusOf(l.user, " " + ("from" + (" " + t1)), NonSpace);
    PlusOf(" ", "from" + (" " + t1), Space);
    LitOf("from", " " + t1);
    PlusOf(" ", t1, Space);
    EndpointRoundTrip(l, tail);
  }

  lemma EndpointRoundTrip(l: Login, tail: String)
    requires WfLogin(l) && StopsRun(tail, Digit)
    ensures MatchEndpoint(l.ip + (" " + ("port" + (" " + (l.port + tail))))) == Some((l.ip, l.port))
  {
    var t2 := "port" + (" " + (l.port + tail));
    PlusOf(l.ip, " " + t2, NonSpace);
    PlusOf(" ", t2, Space);
    LitOf("port", " " + (l.port + tail));
    PlusOf(" ", l.port + tail, Space);
    PlusOf(l.port, tail, Digit);
  }

  /** A user name cannot be mistaken for the `invalid user ` group: a name has no space in it. */
  lemma NotInvalidPrefix(l: Login, tail: String)
    requires WfLogin(l)
    ensures Lit(LoginText(l, tail), "invalid user ") == None
  {
    var x := LoginText(l, tail);
    var p := "invalid user ";
    var n := |l.user|;
    assert x[..n] == l.user && x[n] == ' ' && x[n + 1] == 'f';
    var k := if n >= 8 then 7 else if n == 7 then 8 else n;
    assert k < |p| && k < |x| && x[k] != p[k];
  }

  lemma FailedBodyRoundTrip(invalidUser: bool, l: Login, tail: String)
    requires WfLogin(l) && StopsRun(tail, Digit)
    ensures MatchFailedBody(FailedBodyText(invalidUser, l, tail)) == Some((invalidUser, l))
  {
    var rest := if invalidUser then "invalid user " + LoginText(l, tail) else LoginText(l, tail);
    LitOf("Failed password for ", rest);
    LoginRoundTrip(l, tail);
    if invalidUser {
      LitOf("invalid user ", LoginText(l, tail));
    } else {
      NotInvalidPrefix(l, tail);
    }
  }

  /** `FAILED_RE` reads back the groups of a failed-password line, with or without the
      `invalid user ` prefix, and that prefix never becomes part of the user name. */
  lemma FailedRoundTrip(f: FailedLine, gap: String, tail: String)
    requires WfHeader(f.header) && IsGap(gap) && WfLogin(f.login) && StopsRun(tail, Digit)
    ensures MatchFailed(FailedText(f, gap, tail)) == Some(f)
  {
    var body := FailedBodyText(f.invalidUser, f.login, tail);
    assert StopsRun(body, Space) by { assert body[0] == 'F'; }
    HeaderRoundTrip(f.header, gap, body);
    FailedBodyRoundTrip(f.invalidUser, f.login, tail);
  }

  lemma AcceptedBodyRoundTrip(m: String, l: Login, tail: String)
    requires NonEmptyIn(m, NonSpace) && WfLogin(l) && StopsRun(tail, Digit)
    ensures MatchAcceptedBody(AcceptedBodyText(m, l, tail)) == Some((m, l))
  {
    var t1 := "for" + (" " + LoginText(l, tail));
    var t0 := m + (" " + t1);
    LitOf("Accepted", " " + t0);
    PlusOf(" ", t0, Space);
    PlusOf(m, " " + t1, NonSpace);
    PlusOf(" ", t1, Space);
    LitOf("for", " " + LoginText(l, tail));
    PlusOf(" ", LoginText(l, tail), Space);
    LoginRoundTrip(l, tail);
  }

  lemma AcceptedRoundTrip(a: AcceptedLine, gap: String, tail: String)
    requires WfHeader(a.header) && IsGap(gap) && NonEmptyIn(a.authMethod, NonSpace) && WfLogin(a.login) && StopsRun(tail, Digit)
    ensures MatchAccepted(AcceptedText(a, gap, tail)) == Some(a)
  {
    var body := AcceptedBodyText(a.authMethod, a.login, tail);
    assert StopsRun(body, Space) by { assert body[0] == 'A'; }
    HeaderRoundTrip(a.header, gap, body);
    AcceptedBodyRoundTrip(a.authMethod, a.login, tail);
  }

  /** No line matches both patterns: after the common header one needs `Failed`, the other `Accepted`. */
  lemma PatternsExclusive(line: String)
    ensures MatchFailed(line).Some? ==> MatchAccepted(line).None?
  {
    if MatchFailed(line).Some? {
      BodiesExclusive(MatchHeader(line).value.1);
    }
  }

  /** After the header, a failed-login body starts with `F` and an accepted one with `A`. */
  lemma BodiesExclusive(s: String)
    ensures MatchFailedBody(s).Some? ==> MatchAcceptedBody(s).None?
  {
    if MatchFailedBody(s).Some? {
      assert s[0] == 'F';
      assert Lit(s, "Accepted").None?;
    }
  }

  // ----- timestamps -----

  /** Month abbreviations to month numbers. */
  const Months: map<String, nat> := map[
    "Jan" := 1, "Feb" := 2, "Mar" := 3, "Apr" := 4,
    "May" := 5, "Jun" := 6, "Jul" := 7, "Aug" := 8,
    "Sep" := 9, "Oct" := 10, "Nov" := 11, "Dec" := 12]

  function MonthName(m: nat): (name: String)
    requires 1 <= m <= 12
    ensures name in Months && Months[name] == m
  {
    ["Jan", "Feb", "Mar", "Apr", "May", "Jun", "Jul", "Aug", "Sep", "Oct", "Nov", "Dec"][m - 1]
  }

  /** Naming a table entry's number gives the entry's key back. */
  lemma MonthNameOfMonths()
    ensures forall a :: a in Months ==> 1 <= Months[a] <= 12 && MonthName(Months[a]) == a
  {
    assert Months.Keys == {"Jan", "Feb", "Mar", "Apr", "May", "Jun", "Jul", "Aug", "Sep", "Oct", "Nov", "Dec"};
  }

  /** The month table is a bijection between its twelve keys and 1..12. */
  lemma MonthsBijective()
    ensures forall a :: a in Months ==> 1 <= Months[a] <= 12 && MonthName(Months[a]) == a
    ensures forall a, b :: a in Months && b in Months && Months[a] == Months[b] ==> a == b
    ensures forall m :: 1 <= m <= 12 ==> m in Months.Values
  {
    MonthNameOfMonths();
    forall a, b | a in Months && b in Months && Months[a] == Months[b] ensures a == b {
      assert MonthName(Months[a]) == a && MonthName(Months[b]) == b;
    }
    forall m | 1 <= m <= 12 ensures m in Months.Values {
      assert Months[MonthName(m)] == m;
    }
  }

  /** A `datetime` value without time zone or microseconds. */
  datatype DateTime = DateTime(year: int, month: int, day: int, hour: int, minute: int, second: int)

  predicate IsLeapYear(y: int) {
    y % 4 == 0 && (y % 100 != 0 || y % 400 == 0)
  }

  function DaysInMonth(y: int, m: int): nat
    requires 1 <= m <= 12
  {
    if m == 2 then (if IsLeapYear(y) then 29 else 28)
    else if m == 4 || m == 6 || m == 9 || m == 11 then 30
    else 31
  }

  /** The ranges the `datetime` constructor accepts. */
  predicate ValidDateTime(dt: DateTime) {
    && 1 <= dt.year <= 9999 && 1 <= dt.month <= 12 && 1 <= dt.day <= DaysInMonth(dt.year, dt.month)
    && 0 <= dt.hour < 24 && 0 <= dt.minute < 60 && 0 <= dt.second < 60
  }

  /** The bounds of a C `int` and a C `long` on a 64-bit Linux build. */
  const IntMin: int := -0x8000_0000
  const IntMax: int := 0x7fff_ffff
  const LongMin: int := -0x8000_0000_0000_0000
  const LongMax: int := 0x7fff_ffff_ffff_ffff

  predicate FitsCInt(n: int) {
    IntMin <= n <= IntMax
  }

  /** The `i` conversion the `datetime` constructor applies to each argument: `PyLong_AsLong`, which
      raises when the value does not fit a C `long`, then the C `int` range check. */
  function CInt(n: int): (r: Result<int, ParseError>)
    ensures r.Ok? <==> FitsCInt(n)
    ensures r.Ok? ==> r.value == n
    ensures r.Err? ==> r.error.OverflowError?
  {
    if n < LongMin || LongMax < n then Err(OverflowError("Python int too large to convert to C long"))
    else if IntMax < n then Err(OverflowError("signed integer is greater than maximum"))
    else if n < IntMin then Err(OverflowError("signed integer is less than minimum"))
    else Ok(n)
  }

  /** The `datetime` constructor: every argument is first converted to a C `int`, in order, and one
      that does not fit raises `OverflowError`; then come the range checks, in the order it makes
      them, each raising `ValueError`. */
  function NewDateTime(year: int, month: int, day: int, hour: int, minute: int, second: int): (r: Result<DateTime, ParseError>)
    ensures r.Ok? <==> ValidDateTime(DateTime(year, month, day, hour, minute, second))
    ensures r.Ok? ==> r.value == DateTime(year, month, day, hour, minute, second)
    ensures r.Err? ==> (r.error.OverflowError? <==>
      !(FitsCInt(year) && FitsCInt(month) && FitsCInt(day) && FitsCInt(hour) && FitsCInt(minute) && FitsCInt(second)))
    ensures r.Err? ==> r.error.OverflowError? || r.error.ValueError?
  {
    var y :- CInt(year);
    var mo :- CInt(month);
    var d :- CInt(day);
    var h :- CInt(hour);
    var mi :- CInt(minute);
    var s :- CInt(second);
    CheckRanges(y, mo, d, h, mi, s)
  }

  /** The constructor's range checks on converted arguments. */
  function CheckRanges(year: int, month: int, day: int, hour: int, minute: int, second: int): (r: Result<DateTime, ParseError>)
    ensures r.Ok? <==> ValidDateTime(DateTime(year, month, day, hour, minute, second))
    ensures r.Ok? ==> r.value == DateTime(year, month, day, hour, minute, second)
    ensures r.Err? ==> r.error.ValueError?
  {
    if !(1 <= year <= 9999) then Err(ValueError("year " + IntText(year) + " is out of range"))
    else if !(1 <= month <= 12) then Err(ValueError("month must be in 1..12"))
    else if !(1 <= day <= DaysInMonth(year, month)) then Err(ValueError("day is out of range for month"))
    else if !(0 <= hour < 24) then Err(ValueError("hour must be in 0..23"))
    else if !(0 <= minute < 60) then Err(ValueError("minute must be in 0..59"))
    else if !(0 <= second < 60) then Err(ValueError("second must be in 0..59"))
    else Ok(DateTime(year, month, day, hour, minute, second))
  }

  /** Python `str(n)` for any integer. */
  function IntText(n: int): String {
    if n < 0 then "-" + Decimal(-n) else Decimal(n)
  }

  /** `isoformat(sep=" ")` with no microseconds: `YYYY-MM-DD HH:MM:SS`. */
  function IsoFormat(dt: DateTime): (s: String)
    requires ValidDateTime(dt)
  {
    DateText(dt) + " " + ClockText(dt)
  }

  function DateText(dt: DateTime): String
    requires ValidDateTime(dt)
  {
    PadNat(dt.year, 4) + ['-'] + PadNat(dt.month, 2) + ['-'] + PadNat(dt.day, 2)
  }

  function ClockText(dt: DateTime): String
    requires ValidDateTime(dt)
  {
    PadNat(dt.hour, 2) + [':'] + PadNat(dt.minute, 2) + [':'] + PadNat(dt.second, 2)
  }

  /** The default of `sys.get_int_max_str_digits()`: `int()` refuses decimal text with more digits. */
  const MaxStrDigits: nat := 4300

  /** Python `int(s)` on the strings it is applied to here, which hold only digits and ':'. A digit
      string longer than the limit raises `ValueError` as well. */
  function ParseInt(s: String): (r: Result<nat, ParseError>)
    ensures r.Ok? <==> |s| > 0 && AllDigits(s) && |s| <= MaxStrDigits
    ensures r.Err? ==> r.error.ValueError?
  {
    if !(|s| > 0 && AllDigits(s)) then Err(ValueError("invalid literal for int() with base 10: '" + s + "'"))
    else if |s| > MaxStrDigits then
      Err(ValueError("Exceeds the limit (4300 digits) for integer string conversion: value has "
        + Decimal(|s|) + " digits; use sys.set_int_max_str_digits() to increase the limit"))
    else Ok(DecimalValue(s))
  }

  /** Python's `s[i:j]` for non-negative bounds: indices past the end are clamped. */
  function PySlice(s: String, i: nat, j: nat): (r: String)
    ensures |r| <= |s|
  {
    var a := if i < |s| then i else |s|;
    var b := if j < |s| then j else |s|;
    if a <= b then s[a..b] else []
  }

  /** `parse_syslog_ts`: the arguments of `datetime(...)` are evaluated left to right, so an unknown
      month raises `KeyError` before any `int()` is tried, and the clock is read by fixed positions
      of the `time` text, not by its `:`-separated parts. */
  function ParseSyslogTs(mon: String, day: String, t: String, year: int): (r: Result<String, ParseError>)
    ensures mon !in Months ==> r == Err(KeyError(mon))
  {
    if mon !in Months then Err(KeyError(mon))
    else
      var d :- ParseInt(day);
      var hh :- ParseInt(PySlice(t, 0, 2));
      var mm :- ParseInt(PySlice(t, 3, 5));
      var ss :- ParseInt(PySlice(t, 6, 8));
      var dt :- NewDateTime(year, Months[mon], d, hh, mm, ss);
      Ok(IsoFormat(dt))
  }

  /** `int()` reads back a zero-padded number. */
  lemma ParseIntPadded(n: nat, w: nat)
    requires |PadNat(n, w)| <= MaxStrDigits
    ensures ParseInt(PadNat(n, w)) == Ok(n)
  {
    PadNatRoundTrip(n, w);
  }

  /** The middle part of a three-way concatenation is the slice between the seams. */
  lemma MiddleOf(a: String, b: String, c: String)
    ensures (a + b + c)[|a|..|a| + |b|] == b
  {
    var s := a + b + c;
    assert forall i :: 0 <= i < |b| ==> s[|a|..|a| + |b|][i] == s[|a| + i] == b[i];
  }

  /** Three fields joined by one-character separators sit at fixed positions. */
  lemma Fields(a: String, b: String, c: String, sep: char)
    ensures var s := a + [sep] + b + [sep] + c;
      && |s| == |a| + |b| + |c| + 2
      && s[0..|a|] == a
      && s[|a| + 1..|a| + 1 + |b|] == b
      && s[|a| + |b| + 2..|s|] == c
  {
    var s := a + [sep] + b + [sep] + c;
    MiddleOf([], a, [sep] + b + [sep] + c);
    assert s == [] + a + ([sep] + b + [sep] + c);
    MiddleOf(a + [sep], b, [sep] + c);
    assert s == (a + [sep]) + b + ([sep] + c);
    MiddleOf(a + [sep] + b + [sep], c, []);
    assert s == (a + [sep] + b + [sep]) + c + [];
  }

  /** A four-digit and two two-digit padded numbers sit at fixed positions. */
  lemma PaddedFields(a: nat, wa: nat, b: nat, c: nat, sep: char)
    requires wa >= 1 && a < Pow10(wa) && b < 100 && c < 100
    ensures var s := PadNat(a, wa) + [sep] + PadNat(b, 2) + [sep] + PadNat(c, 2);
      && |s| == wa + 6
      && s[0..wa] == PadNat(a, wa)
      && s[wa + 1..wa + 3] == PadNat(b, 2)
      && s[wa + 4..wa + 6] == PadNat(c, 2)
  {
    var pa, pb, pc := PadNat(a, wa), PadNat(b, 2), PadNat(c, 2);
    assert Pow10(2) == 100 by { assert Pow10(1) == 10; }
    DecimalWidth(a, wa);
    DecimalWidth(b, 2);
    DecimalWidth(c, 2);
    assert |pa| == wa && |pb| == 2 && |pc| == 2;
    Fields(pa, pb, pc, sep);
  }

  lemma DateFields(dt: DateTime)
    requires ValidDateTime(dt)
    ensures var s := DateText(dt);
      |s| == 10 && s[0..4] == PadNat(dt.year, 4) && s[5..7] == PadNat(dt.month, 2) && s[8..10] == PadNat(dt.day, 2)
  {
    PaddedFields(dt.year, 4, dt.month, dt.day, '-');
  }

  lemma ClockFields(dt: DateTime)
    requires ValidDateTime(dt)
    ensures var s := ClockText(dt);
      |s| == 8 && s[0..2] == PadNat(dt.hour, 2) && s[3..5] == PadNat(dt.minute, 2) && s[6..8] == PadNat(dt.second, 2)
  {
    PaddedFields(dt.hour, 2, dt.minute, dt.second, ':');
  }

  /** The date and clock fields keep their positions in the joined text. */
  lemma JoinedSlices(d: String, c: String)
    requires |d| == 10 && |c| == 8
    ensures var s := d + " " + c;
      && |s| == 19
      && s[0..4] == d[0..4] && s[5..7] == d[5..7] && s[8..10] == d[8..10]
      && s[11..13] == c[0..2] && s[14..16] == c[3..5] && s[17..19] == c[6..8]
  {
    var s := d + " " + c;
    assert forall i :: 0 <= i < 10 ==> s[i] == d[i];
    assert forall i :: 0 <= i < 8 ==> s[11 + i] == c[i];
  }

  /** The ISO text has fixed field positions for valid values, and each field reads back through
      `int()`. */
  lemma IsoFormatFields(dt: DateTime)
    requires ValidDateTime(dt)
    ensures var s := IsoFormat(dt);
      && |s| == 19
      && ParseInt(s[0..4]) == Ok(dt.year) && ParseInt(s[5..7]) == Ok(dt.month)
      && ParseInt(s[8..10]) == Ok(dt.day) && ParseInt(s[11..13]) == Ok(dt.hour)
      && ParseInt(s[14..16]) == Ok(dt.minute) && ParseInt(s[17..19]) == Ok(dt.second)
  {
    DateFields(dt);
    ClockFields(dt);
    JoinedSlices(DateText(dt), ClockText(dt));
    ParseIntPadded(dt.year, 4);
    ParseIntPadded(dt.month, 2);
    ParseIntPadded(dt.day, 2);
    ParseIntPadded(dt.hour, 2);
    ParseIntPadded(dt.minute, 2);
    ParseIntPadded(dt.second, 2);
  }

  lemma IsoFormatInjective(a: DateTime, b: DateTime)
    requires ValidDateTime(a) && ValidDateTime(b) && IsoFormat(a) == IsoFormat(b)
    ensures a == b
  {
    IsoFormatFields(a);
    IsoFormatFields(b);
  }

  /** A conventional two-digit clock is read field by field, and the timestamp is the ISO text of
      the date in the given year. */
  lemma SyslogTsOfClock(mon: String, day: String, c: Clock, year: int)
    requires mon in Months && NonEmptyIn(day, Digit) && |day| <= MaxStrDigits
    requires |c.hour| == 2 && |c.minute| == 2 && |c.second| == 2
    requires AllDigits(c.hour) && AllDigits(c.minute) && AllDigits(c.second)
    requires ValidDateTime(DateTime(year, Months[mon], DecimalValue(day),
      DecimalValue(c.hour), DecimalValue(c.minute), DecimalValue(c.second)))
    ensures ParseSyslogTs(mon, day, TimeText(c), year) == Ok(IsoFormat(DateTime(year, Months[mon],
      DecimalValue(day), DecimalValue(c.hour), DecimalValue(c.minute), DecimalValue(c.second))))
  {
    var t := TimeText(c);
    TimeTextSlices(c);
    var dt := DateTime(year, Months[mon], DecimalValue(day),
      DecimalValue(c.hour), DecimalValue(c.minute), DecimalValue(c.second));
    assert ParseInt(day) == Ok(dt.day);
    assert ParseInt(c.hour) == Ok(dt.hour);
    assert ParseInt(c.minute) == Ok(dt.minute);
    assert ParseInt(c.second) == Ok(dt.second);
    ParseSyslogTsParsed(mon, day, t, year, dt.day, dt.hour, dt.minute, dt.second);
  }

  /** A clock of two-digit fields is read back by the fixed slices `t[0:2]`, `t[3:5]` and `t[6:8]`. */
  lemma TimeTextSlices(c: Clock)
    requires |c.hour| == 2 && |c.minute| == 2 && |c.second| == 2
    ensures var t := TimeText(c);
      PySlice(t, 0, 2) == c.hour && PySlice(t, 3, 5) == c.minute && PySlice(t, 6, 8) == c.second
  {
    Fields(c.hour, c.minute, c.second, ':');
    assert TimeText(c) == c.hour + [':'] + c.minute + [':'] + c.second;
  }

  /** Once the month is known and the four `int()` calls succeed, the timestamp is whatever the
      `datetime` constructor makes of the values. */
  lemma ParseSyslogTsParsed(mon: String, day: String, t: String, year: int, d: nat, hh: nat, mm: nat, ss: nat)
    requires mon in Months && ParseInt(day) == Ok(d)
    requires ParseInt(PySlice(t, 0, 2)) == Ok(hh) && ParseInt(PySlice(t, 3, 5)) == Ok(mm) && ParseInt(PySlice(t, 6, 8)) == Ok(ss)
    ensures var dt := NewDateTime(year, Months[mon], d, hh, mm, ss);
      ParseSyslogTs(mon, day, t, year) == if dt.Ok? then Ok(IsoFormat(dt.value)) else Err(dt.error)
  {
  }

  /** A day too large for a C `int` makes the `datetime` constructor raise `OverflowError` before
      any range check, whatever the year, and not the `ValueError` of its day check. When the year
      fits, the message is the one of the day's conversion. */
  lemma HugeDayOverflows(mon: String, day: String, t: String, year: int)
    requires mon in Months && ParseInt(day).Ok? && ParseInt(day).value > IntMax
    requires ParseInt(PySlice(t, 0, 2)).Ok? && ParseInt(PySlice(t, 3, 5)).Ok? && ParseInt(PySlice(t, 6, 8)).Ok?
    ensures ParseSyslogTs(mon, day, t, year).Err? && ParseSyslogTs(mon, day, t, year).error.OverflowError?
    ensures FitsCInt(year) ==> ParseSyslogTs(mon, day, t, year) == Err(OverflowError(
      if ParseInt(day).value <= LongMax then "signed integer is greater than maximum"
      else "Python int too large to convert to C long"))
  {
    MonthsBijective();
    ParseSyslogTsParsed(mon, day, t, year, ParseInt(day).value,
      ParseInt(PySlice(t, 0, 2)).value, ParseInt(PySlice(t, 3, 5)).value, ParseInt(PySlice(t, 6, 8)).value);
  }

  /** A day written with more digits than `int()` accepts raises the limit's `ValueError`, however
      small its value after the leading zeros. */
  lemma LongDayRaises(mon: String, day: String, t: String, year: int)
    requires mon in Months && AllDigits(day) && |day| > MaxStrDigits
    ensures ParseSyslogTs(mon, day, t, year) == Err(ValueError("Exceeds the limit (4300 digits) for integer string conversion: value has "
      + Decimal(|day|) + " digits; use sys.set_int_max_str_digits() to increase the limit"))
  {
  }

  /** A clock whose hour has one digit is misread: `t[0:2]` takes the colon and `int()` raises. */
  lemma ShortHourRaises(mon: String, year: int)
    requires mon in Months
    ensures ParseSyslogTs(mon, "19", "1:02:03", year).Err?
  {
    assert PySlice("1:02:03", 0, 2) == "1:";
    assert !IsDigit(':');
  }

  // ----- the auth.log pass -----

  const Source: String := "auth.log"

  function FailedDraft(f: FailedLine, ts: String): Draft {
    Draft(ts, "ssh_auth", "linux", f.header.host, Some(f.login.ip), Some(f.login.user), "fail",
      "SSH failed password for " + f.login.user + " from " + f.login.ip)
  }

  function AcceptedDraft(a: AcceptedLine, ts: String): Draft {
    Draft(ts, "ssh_auth", "linux", a.header.host, Some(a.login.ip), Some(a.login.user), "success",
      "SSH accepted " + a.authMethod + " for " + a.login.user + " from " + a.login.ip)
  }

  function HeaderTs(h: Header, year: int): Result<String, ParseError> {
    ParseSyslogTs(h.mon, h.day, TimeText(h.clock), year)
  }

  /** One loop iteration: the failed pattern first, then the accepted one; each match yields one
      event unless the timestamp raises; a line matching neither is ignored. */
  function Classify(line: String, year: int): (r: LineOutcome)
    ensures r.Skip? <==> MatchFailed(line).None? && MatchAccepted(line).None?
    ensures r.Emit? ==> r.draft.eventType == "ssh_auth" && r.draft.product == "linux"
    ensures r.Emit? && r.draft.outcome == "fail" <==> MatchFailed(line).Some? && r.Emit?
    ensures r.Emit? && r.draft.outcome == "success" <==> MatchFailed(line).None? && MatchAccepted(line).Some? && r.Emit?
    ensures MatchFailed(line).Some? ==>
      var f := MatchFailed(line).value;
      r == (if HeaderTs(f.header, year).Ok? then Emit(FailedDraft(f, HeaderTs(f.header, year).value))
            else Abort(HeaderTs(f.header, year).error))
    ensures MatchFailed(line).None? && MatchAccepted(line).Some? ==>
      var a := MatchAccepted(line).value;
      r == (if HeaderTs(a.header, year).Ok? then Emit(AcceptedDraft(a, HeaderTs(a.header, year).value))
            else Abort(HeaderTs(a.header, year).error))
  {
    match MatchFailed(line)
    case Some(f) =>
      (match HeaderTs(f.header, year)
       case Err(e) => Abort(e)
       case Ok(ts) => Emit(FailedDraft(f, ts)))
    case None =>
      match MatchAccepted(line)
      case Some(a) =>
        (match HeaderTs(a.header, year)
         case Err(e) => Abort(e)
         case Ok(ts) => Emit(AcceptedDraft(a, ts)))
      case None => Skip
  }

  /** The auth.log pass in a given year (the pass supplies the current year). */
  function Pass(st: Store, year: int): Result<(Store, nat), ParseError> {
    RunPass(st, Source, line => Classify(line, year))
  }

  /** A failed-password line, with any whitespace run before the day, yields exactly the event
      with its host, ip, user and fixed strings. */
  lemma FailedLineEvent(f: FailedLine, gap: String, tail: String, year: int)
    requires WfHeader(f.header) && IsGap(gap) && WfLogin(f.login) && StopsRun(tail, Digit)
    requires HeaderTs(f.header, year).Ok?
    ensures Classify(FailedText(f, gap, tail), year) == Emit(FailedDraft(f, HeaderTs(f.header, year).value))
  {
    FailedRoundTrip(f, gap, tail);
  }

  /** An accepted line yields the `success` event naming the method. */
  lemma AcceptedLineEvent(a: AcceptedLine, gap: String, tail: String, year: int)
    requires WfHeader(a.header) && IsGap(gap) && NonEmptyIn(a.authMethod, NonSpace) && WfLogin(a.login) && StopsRun(tail, Digit)
    requires HeaderTs(a.header, year).Ok?
    ensures Classify(AcceptedText(a, gap, tail), year) == Emit(AcceptedDraft(a, HeaderTs(a.header, year).value))
  {
    AcceptedRoundTrip(a, gap, tail);
    AcceptedIsNotFailed(a, gap, tail);
  }

  lemma AcceptedIsNotFailed(a: AcceptedLine, gap: String, tail: String)
    requires WfHeader(a.header) && IsGap(gap) && WfLogin(a.login)
    ensures MatchFailed(AcceptedText(a, gap, tail)) == None
  {
    var body := AcceptedBodyText(a.authMethod, a.login, tail);
    HeaderRoundTrip(a.header, gap, body);
    assert body[0] == 'A';
  }

  /** A line that matches with a day too large for a C `int` raises `OverflowError`, which ends
      the pass. */
  lemma HugeDayAborts(f: FailedLine, gap: String, tail: String, year: int)
    requires WfHeader(f.header) && IsGap(gap) && WfLogin(f.login) && StopsRun(tail, Digit) && f.header.mon in Months
    requires |f.header.clock.hour| == 2 && |f.header.clock.minute| == 2 && |f.header.clock.second| == 2
    requires |f.header.day| <= MaxStrDigits && DecimalValue(f.header.day) > IntMax
    ensures Classify(FailedText(f, gap, tail), year).Abort?
    ensures Classify(FailedText(f, gap, tail), year).error.OverflowError?
  {
    FailedRoundTrip(f, gap, tail);
    TimeTextSlices(f.header.clock);
    HugeDayOverflows(f.header.mon, f.header.day, TimeText(f.header.clock), year);
  }

  /** A line that matches but names no known month raises `KeyError`, which ends the pass. */
  lemma UnknownMonthAborts(f: FailedLine, gap: String, tail: String, year: int)
    requires WfHeader(f.header) && IsGap(gap) && WfLogin(f.login) && StopsRun(tail, Digit) && f.header.mon !in Months
    ensures Classify(FailedText(f, gap, tail), year) == Abort(KeyError(f.header.mon))
  {
    FailedRoundTrip(f, gap, tail);
  }
}

=== FILE: base.dfy ===
/** Failure-compatible wrappers and the id discipline shared by every table of the store. */
module Base {

  /** A value that may be absent: SQL NULL, a regex that did not match, a missing row. */
  datatype Option<+T> = None | Some(value: T) {
    predicate IsFailure() {
      None?
    }

    function PropagateFailure<U>(): Option<U>
      requires None?
    {
      None
    }

    function Extract(): T
      requires Some?
    {
      value
    }

    function GetOr(default: T): T {
      match this
      case Some(v) => v
      case None => default
    }
  }

  /** The outcome of a step that may raise: `Err` carries the exception. */
  datatype Result<+T, +E> = Ok(value: T) | Err(error: E) {
    predicate IsFailure() {
      Err?
    }

    function PropagateFailure<U>(): Result<U, E>
      requires Err?
    {
      Err(error)
    }

    function Extract(): T
      requires Ok?
    {
      value
    }
  }

  /** Largest id of a table, 0 for an empty one. */
  function MaxId(ids: seq<nat>): (m: nat)
    ensures forall i :: 0 <= i < |ids| ==> ids[i] <= m
    ensures |ids| > 0 ==> m in ids
    ensures |ids| == 0 ==> m == 0
  {
    if |ids| == 0 then 0
    else
      var rest := MaxId(ids[1..]);
      assert forall i :: 1 <= i < |ids| ==> ids[i] == ids[1..][i - 1];
      if ids[0] >= rest then ids[0] else rest
  }

  /** The id an INTEGER PRIMARY KEY column hands to the next inserted row: one past the largest. */
  function NextId(ids: seq<nat>): (n: nat)
    ensures forall i :: 0 <= i < |ids| ==> ids[i] < n
    ensures n >= 1
  {
    MaxId(ids) + 1
  }

  /** Ids strictly increase along the table: the table is in `ORDER BY id` order and ids are unique. */
  predicate Ascending(ids: seq<nat>) {
    forall i, j :: 0 <= i < j < |ids| ==> ids[i] < ids[j]
  }

  /** Appending a row with the next id keeps a table in id order. */
  lemma AscendingAppendNext(ids: seq<nat>)
    requires Ascending(ids)
    ensures Ascending(ids + [NextId(ids)])
  {
    var n := NextId(ids);
    var s := ids + [n];
    forall i, j | 0 <= i < j < |s|
      ensures s[i] < s[j]
    {
      if j < |ids| {
        assert s[i] == ids[i] && s[j] == ids[j];
      } else {
        assert s[i] == ids[i] && s[j] == n;
      }
    }
  }
}

=== FILE: correlation.dfy ===
/** Cross-incident correlation: open incidents that share a primary address are escalated together,
    to one above the group's highest severity, capped at 9. */
module Correlation {
  import opened Base
  import opened Text
  import opened Records
  import opened Detection

  /** `status != 'Closed' AND primary_ip IS NOT NULL`. */
  predicate Candidate(x: Incident) {
    x.status != "Closed" && x.primaryIp.Some?
  }

  predicate CandidateAt(x: Incident, ip: String) {
    Candidate(x) && x.primaryIp == Some(ip)
  }

  /** `COUNT(*)` of the candidates at `ip`. */
  function CandCount(incs: seq<Incident>, ip: String): (n: nat)
    ensures n <= |incs|
  {
    if |incs| == 0 then 0
    else CandCount(incs[..|incs| - 1], ip) + (if CandidateAt(incs[|incs| - 1], ip) then 1 else 0)
  }

  /** There are candidates at `ip` exactly when some row is one. */
  lemma {:induction false} CandCountPositive(incs: seq<Incident>, ip: String)
    ensures CandCount(incs, ip) > 0 <==> exists i :: 0 <= i < |incs| && CandidateAt(incs[i], ip)
  {
    if |incs| > 0 {
      var pre := incs[..|incs| - 1];
      assert forall i :: 0 <= i < |pre| ==> pre[i] == incs[i];
      CandCountPositive(pre, ip);
    }
  }

  /** `MAX(severity)` over the candidates at `ip`; `None` when there are none. */
  function MaxSev(incs: seq<Incident>, ip: String): (m: Option<int>)
    ensures m.Some? <==> exists i :: 0 <= i < |incs| && CandidateAt(incs[i], ip)
    ensures m.Some? ==> forall i :: 0 <= i < |incs| && CandidateAt(incs[i], ip) ==> incs[i].severity <= m.value
    ensures m.Some? ==> exists i :: 0 <= i < |incs| && CandidateAt(incs[i], ip) && incs[i].severity == m.value
  {
    if |incs| == 0 then None
    else
      var x := incs[|incs| - 1];
      var rest := MaxSev(incs[..|incs| - 1], ip);
      if !CandidateAt(x, ip) then rest
      else if rest.Some? && rest.value >= x.severity then rest
      else
        var pre := incs[..|incs| - 1];
        assert forall i :: 0 <= i < |pre| ==> pre[i] == incs[i];
        assert CandidateAt(incs[|incs| - 1], ip);
        Some(x.severity)
  }

  /** `min(9, max_sev + 1)`. */
  function Target(m: int): (t: int)
    ensures t <= 9 && t <= m + 1 && (t == 9 || t == m + 1)
  {
    if m + 1 < 9 then m + 1 else 9
  }

  /** The addresses of the candidates, in table order, with repetitions. */
  function CandIps(incs: seq<Incident>): (r: seq<String>)
    ensures forall ip :: ip in r <==> exists i :: 0 <= i < |incs| && CandidateAt(incs[i], ip)
  {
    if |incs| == 0 then []
    else
      var x := incs[|incs| - 1];
      var rest := CandIps(incs[..|incs| - 1]);
      if Candidate(x) then rest + [x.primaryIp.value] else rest
  }

  /** One row of `GROUP BY primary_ip HAVING cnt >= 2`. */
  datatype Group = Group(ip: String, count: nat, maxSev: int)

  function GroupIps(gs: seq<Group>): seq<String> {
    seq(|gs|, i requires 0 <= i < |gs| => gs[i].ip)
  }

  function KeepPairs(incs: seq<Incident>, ips: seq<String>): (r: seq<Group>)
    ensures forall g :: g in r ==> g.count == CandCount(incs, g.ip) && g.count >= 2 && MaxSev(incs, g.ip) == Some(g.maxSev)
    ensures forall ip :: ip in ips && CandCount(incs, ip) >= 2 ==> ip in GroupIps(r)
    ensures forall ip :: ip in GroupIps(r) ==> ip in ips
  {
    if |ips| == 0 then []
    else
      var rest := KeepPairs(incs, ips[1..]);
      assert forall ip :: ip in ips <==> ip == ips[0] || ip in ips[1..];
      if CandCount(incs, ips[0]) >= 2 then
        var g := GroupAt(incs, ips[0]);
        GroupIpsCons(g, rest);
        [g] + rest
      else rest
  }

  /** The aggregate row of the candidates at `ip`: its maximum bounds the severity of every open
      incident at the address and is the severity of one of them. */
  function GroupAt(incs: seq<Incident>, ip: String): (g: Group)
    requires CandCount(incs, ip) > 0
    ensures g.ip == ip && g.count == CandCount(incs, ip) && MaxSev(incs, ip) == Some(g.maxSev)
    ensures forall i :: 0 <= i < |incs| && CandidateAt(incs[i], ip) ==> incs[i].severity <= g.maxSev
    ensures exists i :: 0 <= i < |incs| && CandidateAt(incs[i], ip) && incs[i].severity == g.maxSev
  {
    CandCountPositive(incs, ip);
    Group(ip, CandCount(incs, ip), MaxSev(incs, ip).value)
  }

  /** The groups the query returns, in order of first appearance. */
  function CorrGroups(incs: seq<Incident>): seq<Group> {
    KeepPairs(incs, Distinct(CandIps(incs)))
  }

  // ----- the guarded update -----

  /** `WHERE status != 'Closed' AND primary_ip = ? AND severity < ?`. */
  predicate Matches(x: Incident, ip: String, t: int) {
    CandidateAt(x, ip) && x.severity < t
  }

  function BumpRow(x: Incident, ip: String, t: int): Incident {
    if Matches(x, ip, t) then x.(severity := t) else x
  }

  /** `UPDATE incidents SET severity = t WHERE ...`: matching rows rise to `t`, nothing else changes. */
  function Bump(incs: seq<Incident>, ip: String, t: int): (r: seq<Incident>)
    ensures |r| == |incs|
    ensures forall i :: 0 <= i < |incs| ==> r[i].(severity := incs[i].severity) == incs[i]
    ensures forall i :: 0 <= i < |incs| ==> r[i].severity == (if Matches(incs[i], ip, t) then t else incs[i].severity)
  {
    seq(|incs|, i requires 0 <= i < |incs| => BumpRow(incs[i], ip, t))
  }

  /** `cur.rowcount`: the number of rows the update matched. */
  function RowCount(incs: seq<Incident>, ip: String, t: int): (n: nat)
    ensures n <= |incs|
  {
    if |incs| == 0 then 0
    else RowCount(incs[..|incs| - 1], ip, t) + (if Matches(incs[|incs| - 1], ip, t) then 1 else 0)
  }

  /** The loop over the groups: each group's update with the target computed by the query. */
  function ApplyGroups(incs: seq<Incident>, gs: seq<Group>): (r: (seq<Incident>, nat))
    ensures |r.0| == |incs|
  {
    if |gs| == 0 then (incs, 0)
    else
      var p := ApplyGroups(incs, gs[..|gs| - 1]);
      var g := gs[|gs| - 1];
      var t := Target(g.maxSev);
      (Bump(p.0, g.ip, t), p.1 + RowCount(p.0, g.ip, t))
  }

  /** One correlation run: the incidents afterwards and `updated`. */
  function Correlate(incs: seq<Incident>): (r: (seq<Incident>, nat))
    ensures |r.0| == |incs|
  {
    ApplyGroups(incs, CorrGroups(incs))
  }

  // ----- the row-wise reading -----

  /** The target the query assigns to `ip`: only groups of at least two candidates have one. */
  function GroupTarget(incs: seq<Incident>, ip: String): (t: Option<int>)
    ensures t.Some? <==> CandCount(incs, ip) >= 2
    ensures t.Some? ==> t.value <= 9 && forall i :: 0 <= i < |incs| && CandidateAt(incs[i], ip) ==> incs[i].severity < t.value || t.value == 9
  {
    if CandCount(incs, ip) >= 2 then
      CandCountPositive(incs, ip);
      Some(Target(MaxSev(incs, ip).value))
    else None
  }

  /** What one run does to a single row, read off the table before the run. */
  function Escalated(incs: seq<Incident>, x: Incident): Incident {
    if Candidate(x) then
      var t := GroupTarget(incs, x.primaryIp.value);
      if t.Some? && x.severity < t.value then x.(severity := t.value) else x
    else x
  }

  /** The target of `ip` among the groups the loop has visited (the last one naming it). */
  function TargetFor(gs: seq<Group>, ip: String): (t: Option<int>)
    ensures t.Some? <==> ip in GroupIps(gs)
  {
    if |gs| == 0 then None
    else
      var pre := gs[..|gs| - 1];
      assert GroupIps(gs) == GroupIps(pre) + [gs[|gs| - 1].ip];
      if gs[|gs| - 1].ip == ip then Some(Target(gs[|gs| - 1].maxSev)) else TargetFor(pre, ip)
  }

  function RowBy(gs: seq<Group>, x: Incident): Incident {
    if Candidate(x) then
      var t := TargetFor(gs, x.primaryIp.value);
      if t.Some? && x.severity < t.value then x.(severity := t.value) else x
    else x
  }

  /** The loop over distinct groups treats each row on its own, by its group's target. */
  lemma {:induction false} ApplyGroupsRowwise(incs: seq<Incident>, gs: seq<Group>)
    requires NoDuplicates(GroupIps(gs))
    ensures forall i :: 0 <= i < |incs| ==> ApplyGroups(incs, gs).0[i] == RowBy(gs, incs[i])
  {
    if |gs| > 0 {
      var pre := gs[..|gs| - 1];
      var g := gs[|gs| - 1];
      var t := Target(g.maxSev);
      assert GroupIps(gs) == GroupIps(pre) + [g.ip];
      NoDuplicatesSnoc(GroupIps(pre), g.ip);
      ApplyGroupsRowwise(incs, pre);
      var p := ApplyGroups(incs, pre).0;
      var r := ApplyGroups(incs, gs).0;
      assert r == Bump(p, g.ip, t);
      forall i | 0 <= i < |incs| ensures r[i] == RowBy(gs, incs[i]) {
        var x := incs[i];
        assert p[i] == RowBy(pre, x);
        if CandidateAt(x, g.ip) {
          assert TargetFor(pre, g.ip).None?;
          assert p[i] == x;
        } else {
          assert !CandidateAt(p[i], g.ip);
          assert r[i] == p[i];
          if Candidate(x) {
            assert TargetFor(gs, x.primaryIp.value) == TargetFor(pre, x.primaryIp.value);
          }
        }
      }
    }
  }

  lemma NoDuplicatesSnoc(xs: seq<String>, y: String)
    requires NoDuplicates(xs + [y])
    ensures NoDuplicates(xs) && y !in xs
  {
    var s := xs + [y];
    forall i, j | 0 <= i < j < |xs| ensures xs[i] != xs[j] {
      assert xs[i] == s[i] && xs[j] == s[j];
    }
    forall i | 0 <= i < |xs| ensures xs[i] != y {
      assert xs[i] == s[i] && y == s[|xs|];
    }
  }

  /** One step of `KeepPairs`, seen through the addresses of the groups. */
  lemma KeepPairsStep(incs: seq<Incident>, ips: seq<String>)
    requires |ips| > 0
    ensures CandCount(incs, ips[0]) >= 2 ==> GroupIps(KeepPairs(incs, ips)) == [ips[0]] + GroupIps(KeepPairs(incs, ips[1..]))
    ensures CandCount(incs, ips[0]) < 2 ==> KeepPairs(incs, ips) == KeepPairs(incs, ips[1..])
  {
    if CandCount(incs, ips[0]) >= 2 {
      var rest := KeepPairs(incs, ips[1..]);
      var g := GroupAt(incs, ips[0]);
      assert KeepPairs(incs, ips) == [g] + rest;
      GroupIpsCons(g, rest);
    }
  }

  lemma GroupIpsCons(g: Group, gs: seq<Group>)
    ensures GroupIps([g] + gs) == [g.ip] + GroupIps(gs)
  {
    var a := GroupIps([g] + gs);
    var b := [g.ip] + GroupIps(gs);
    forall i | 0 <= i < |a| ensures a[i] == b[i] {
      if i > 0 {
        assert ([g] + gs)[i] == gs[i - 1];
      }
    }
  }

  lemma {:induction false} KeepPairsDistinct(incs: seq<Incident>, ips: seq<String>)
    requires NoDuplicates(ips)
    ensures NoDuplicates(GroupIps(KeepPairs(incs, ips)))
  {
    if |ips| > 0 {
      var tl := ips[1..];
      NoDuplicatesTail(ips);
      KeepPairsDistinct(incs, tl);
      KeepPairsStep(incs, ips);
      if CandCount(incs, ips[0]) >= 2 {
        NoDuplicatesCons(ips[0], GroupIps(KeepPairs(incs, tl)));
      }
    }
  }

  /** In distinct groups the visited target of an address is its group's. */
  lemma {:induction false} TargetForMember(gs: seq<Group>, k: nat)
    requires NoDuplicates(GroupIps(gs)) && k < |gs|
    ensures TargetFor(gs, gs[k].ip) == Some(Target(gs[k].maxSev))
  {
    var pre := gs[..|gs| - 1];
    assert GroupIps(gs) == GroupIps(pre) + [gs[|gs| - 1].ip];
    if k < |gs| - 1 {
      NoDuplicatesSnoc(GroupIps(pre), gs[|gs| - 1].ip);
      assert pre[k] == gs[k];
      TargetForMember(pre, k);
    }
  }

  /** The loop's targets are the query's: the visited groups are exactly the qualifying addresses. */
  lemma CorrGroupsTarget(incs: seq<Incident>, ip: String)
    ensures NoDuplicates(GroupIps(CorrGroups(incs)))
    ensures TargetFor(CorrGroups(incs), ip) == GroupTarget(incs, ip)
  {
    var ips := Distinct(CandIps(incs));
    var gs := CorrGroups(incs);
    KeepPairsDistinct(incs, ips);
    if CandCount(incs, ip) >= 2 {
      CandCountPositive(incs, ip);
      assert ip in ips;
      assert ip in GroupIps(gs);
      var k :| 0 <= k < |gs| && GroupIps(gs)[k] == ip;
      assert gs[k] in gs;
      TargetForMember(gs, k);
    }
  }

  /** One run escalates every row exactly as `Escalated` says. */
  lemma CorrelateRowwise(incs: seq<Incident>)
    ensures forall i :: 0 <= i < |incs| ==> Correlate(incs).0[i] == Escalated(incs, incs[i])
  {
    var gs := CorrGroups(incs);
    CorrGroupsTarget(incs, "");
    ApplyGroupsRowwise(incs, gs);
    forall i | 0 <= i < |incs| ensures RowBy(gs, incs[i]) == Escalated(incs, incs[i]) {
      RowByCorrGroups(incs, incs[i]);
    }
  }

  /** The final groups escalate a row exactly as its own group's target says. */
  lemma RowByCorrGroups(incs: seq<Incident>, x: Incident)
    ensures RowBy(CorrGroups(incs), x) == Escalated(incs, x)
  {
    if Candidate(x) {
      CorrGroupsTarget(incs, x.primaryIp.value);
    }
  }

  // ----- what `updated` counts -----

  /** The number of rows that differ between two versions of a table. */
  function Changes(a: seq<Incident>, b: seq<Incident>): (n: nat)
    requires |a| == |b|
    ensures n <= |a|
  {
    if |a| == 0 then 0
    else Changes(a[..|a| - 1], b[..|b| - 1]) + (if a[|a| - 1] != b[|b| - 1] then 1 else 0)
  }

  lemma {:induction false} ChangesZero(a: seq<Incident>, b: seq<Incident>)
    requires |a| == |b|
    ensures Changes(a, b) == 0 <==> a == b
  {
    if |a| > 0 {
      ChangesZero(a[..|a| - 1], b[..|b| - 1]);
      assert a == a[..|a| - 1] + [a[|a| - 1]] && b == b[..|b| - 1] + [b[|b| - 1]];
    }
  }

  /** The update's row count is the number of rows it changed: every matched row really rises. */
  lemma {:induction false} RowCountChanges(p: seq<Incident>, ip: String, t: int)
    ensures RowCount(p, ip, t) == Changes(p, Bump(p, ip, t))
  {
    if |p| > 0 {
      var pre := p[..|p| - 1];
      assert Bump(p, ip, t)[..|p| - 1] == Bump(pre, ip, t);
      RowCountChanges(pre, ip, t);
    }
  }

  /** Two steps that change disjoint rows change as many rows together as apart. */
  lemma {:induction false} ChangesAdd(a: seq<Incident>, b: seq<Incident>, c: seq<Incident>)
    requires |a| == |b| == |c|
    requires forall i :: 0 <= i < |a| ==> a[i] == b[i] || b[i] == c[i]
    ensures Changes(a, c) == Changes(a, b) + Changes(b, c)
  {
    if |a| > 0 {
      var n := |a| - 1;
      ChangesAdd(a[..n], b[..n], c[..n]);
    }
  }

  /** A group's update only touches rows no earlier group touched. */
  lemma LaterGroupDisjoint(incs: seq<Incident>, pre: seq<Group>, g: Group)
    requires NoDuplicates(GroupIps(pre)) && g.ip !in GroupIps(pre)
    ensures var p := ApplyGroups(incs, pre).0;
      forall i :: 0 <= i < |incs| ==> incs[i] == p[i] || p[i] == Bump(p, g.ip, Target(g.maxSev))[i]
  {
    ApplyGroupsRowwise(incs, pre);
    var p := ApplyGroups(incs, pre).0;
    forall i | 0 <= i < |incs| && p[i] != incs[i] ensures !CandidateAt(p[i], g.ip) {
      assert TargetFor(pre, incs[i].primaryIp.value).Some?;
    }
  }

  lemma {:induction false} ApplyGroupsCount(incs: seq<Incident>, gs: seq<Group>)
    requires NoDuplicates(GroupIps(gs))
    ensures ApplyGroups(incs, gs).1 == Changes(incs, ApplyGroups(incs, gs).0)
  {
    if |gs| > 0 {
      var pre := gs[..|gs| - 1];
      var g := gs[|gs| - 1];
      var t := Target(g.maxSev);
      assert GroupIps(gs) == GroupIps(pre) + [g.ip];
      NoDuplicatesSnoc(GroupIps(pre), g.ip);
      ApplyGroupsCount(incs, pre);
      var p := ApplyGroups(incs, pre).0;
      var r := Bump(p, g.ip, t);
      LaterGroupDisjoint(incs, pre, g);
      RowCountChanges(p, g.ip, t);
      ChangesAdd(incs, p, r);
    } else {
      ChangesZero(incs, incs);
    }
  }

  /** `updated` is the number of incidents whose row the run changed. */
  lemma UpdatedIsChanges(incs: seq<Incident>)
    ensures Correlate(incs).1 == Changes(incs, Correlate(incs).0)
  {
    CorrGroupsTarget(incs, "");
    ApplyGroupsCount(incs, CorrGroups(incs));
  }

  // ----- properties of one run -----

  /** A run only ever raises severities, and touches no other column. */
  lemma NeverLowers(incs: seq<Incident>, i: nat)
    requires i < |incs|
    ensures Correlate(incs).0[i].(severity := incs[i].severity) == incs[i]
    ensures Correlate(incs).0[i].severity >= incs[i].severity
  {
    CorrelateRowwise(incs);
  }

  /** Closed incidents, incidents without an address and lone incidents are left as they are. */
  lemma LeavesUngrouped(incs: seq<Incident>, i: nat)
    requires i < |incs|
    requires !Candidate(incs[i]) || CandCount(incs, incs[i].primaryIp.value) < 2
    ensures Correlate(incs).0[i] == incs[i]
  {
    CorrelateRowwise(incs);
  }

  /** A grouped incident ends one above the group's old maximum, or at 9 once that is reached;
      a severity already above 9 stays. */
  lemma GroupSettles(incs: seq<Incident>, i: nat, m: int)
    requires i < |incs| && Candidate(incs[i])
    requires CandCount(incs, incs[i].primaryIp.value) >= 2
    requires MaxSev(incs, incs[i].primaryIp.value) == Some(m)
    ensures Correlate(incs).0[i].severity ==
      if m < 9 then m + 1 else if incs[i].severity < 9 then 9 else incs[i].severity
  {
    var x := incs[i];
    assert Correlate(incs).0[i] == Escalated(incs, x) by { CorrelateRowwise(incs); }
    assert GroupTarget(incs, x.primaryIp.value) == Some(Target(m));
    assert x.severity <= m;
  }

  /** A row changes exactly when it is grouped and still below the cap. */
  lemma RowChanges(incs: seq<Incident>, i: nat)
    requires i < |incs|
    ensures Escalated(incs, incs[i]) != incs[i] <==>
      Candidate(incs[i]) && CandCount(incs, incs[i].primaryIp.value) >= 2 && incs[i].severity < 9
  {
    if Candidate(incs[i]) && CandCount(incs, incs[i].primaryIp.value) >= 2 {
      CandCountPositive(incs, incs[i].primaryIp.value);
    }
  }

  /** A run changes nothing exactly when every grouped incident is already at 9 or above. */
  lemma NoopIff(incs: seq<Incident>)
    ensures Correlate(incs).1 == 0 <==> Correlate(incs).0 == incs
    ensures Correlate(incs).1 == 0 <==>
      forall i :: 0 <= i < |incs| && Candidate(incs[i]) && CandCount(incs, incs[i].primaryIp.value) >= 2 ==>
        incs[i].severity >= 9
  {
    var r := Correlate(incs).0;
    UpdatedIsChanges(incs);
    ChangesZero(incs, r);
    CorrelateRowwise(incs);
    forall i | 0 <= i < |incs| ensures r[i] != incs[i] <==>
      Candidate(incs[i]) && CandCount(incs, incs[i].primaryIp.value) >= 2 && incs[i].severity < 9
    {
      RowChanges(incs, i);
    }
  }

  lemma {:induction false} CandCountSame(a: seq<Incident>, b: seq<Incident>, ip: String)
    requires |a| == |b|
    requires forall i :: 0 <= i < |a| ==> (CandidateAt(a[i], ip) <==> CandidateAt(b[i], ip))
    ensures CandCount(a, ip) == CandCount(b, ip)
  {
    if |a| > 0 {
      CandCountSame(a[..|a| - 1], b[..|b| - 1], ip);
    }
  }

  /** The correlator is not a fixed point: a group that ends below 9 is raised again by the next run. */
  lemma KeepsClimbing(incs: seq<Incident>, i: nat, m: int)
    requires i < |incs| && Candidate(incs[i])
    requires CandCount(incs, incs[i].primaryIp.value) >= 2
    requires MaxSev(incs, incs[i].primaryIp.value) == Some(m) && m < 8
    ensures Correlate(Correlate(incs).0).1 > 0
  {
    var r := Correlate(incs).0;
    var ip := incs[i].primaryIp.value;
    GroupSettles(incs, i, m);
    forall j | 0 <= j < |incs| ensures CandidateAt(r[j], ip) <==> CandidateAt(incs[j], ip) {
      NeverLowers(incs, j);
    }
    NeverLowers(incs, i);
    CandCountSame(incs, r, ip);
    NoopIff(r);
  }
}

=== FILE: detection.dfy ===
/** What the two detection rules share: count the matching events per source address, keep the
    addresses at or above the threshold, and upsert one alert per (rule, address) with a severity
    and description derived from the count. */
module Detection {
  import opened Base
  import opened Text
  import opened Records

  /** A rule: its alert name, threshold, event filter, severity scale and description. */
  datatype RuleSpec = RuleSpec(
    name: String,
    threshold: nat,
    isHit: Event -> bool,
    severity: nat -> int,
    describe: (nat, String) -> String)

  /** One row of the `GROUP BY src_ip HAVING cnt >= threshold` result. */
  datatype Hit = Hit(ip: String, count: nat)

  /** The event is counted for the rule under some address (`src_ip IS NOT NULL`). */
  predicate Counted(spec: RuleSpec, e: Event) {
    spec.isHit(e) && e.srcIp.Some?
  }

  /** `COUNT(*)` of the counted events at `ip`. */
  function CountAt(spec: RuleSpec, events: seq<Event>, ip: String): (n: nat)
    ensures n <= |events|
  {
    if |events| == 0 then 0
    else
      var e := events[|events| - 1];
      CountAt(spec, events[..|events| - 1], ip) + (if Counted(spec, e) && e.srcIp == Some(ip) then 1 else 0)
  }

  /** The addresses of the counted events, in table order, with repetitions. */
  function HitIps(spec: RuleSpec, events: seq<Event>): (r: seq<String>)
    ensures forall ip :: ip in r <==> CountAt(spec, events, ip) > 0
  {
    if |events| == 0 then []
    else
      var e := events[|events| - 1];
      var rest := HitIps(spec, events[..|events| - 1]);
      if Counted(spec, e) then rest + [e.srcIp.value] else rest
  }

  predicate NoDuplicates(xs: seq<String>) {
    forall i, j :: 0 <= i < j < |xs| ==> xs[i] != xs[j]
  }

  /** Dropping the head of a list without duplicates leaves one, and the head is not repeated. */
  lemma NoDuplicatesTail(xs: seq<String>)
    requires |xs| > 0 && NoDuplicates(xs)
    ensures NoDuplicates(xs[1..]) && xs[0] !in xs[1..]
  {
    var tl := xs[1..];
    forall i, j | 0 <= i < j < |tl| ensures tl[i] != tl[j] {
      assert tl[i] == xs[i + 1] && tl[j] == xs[j + 1];
    }
    forall j | 0 <= j < |tl| ensures tl[j] != xs[0] {
      assert tl[j] == xs[j + 1];
    }
  }

  /** Putting a new element in front of a list without duplicates keeps it so. */
  lemma NoDuplicatesCons(x: String, xs: seq<String>)
    requires NoDuplicates(xs) && x !in xs
    ensures NoDuplicates([x] + xs)
  {
    var r := [x] + xs;
    forall i, j | 0 <= i < j < |r| ensures r[i] != r[j] {
      assert r[j] == xs[j - 1];
      if i > 0 {
        assert r[i] == xs[i - 1];
      }
    }
  }

  /** The first appearance of each element, in order. */
  function Distinct(xs: seq<String>): (r: seq<String>)
    ensures forall x :: x in r <==> x in xs
    ensures NoDuplicates(r)
  {
    if |xs| == 0 then []
    else
      var d := Distinct(xs[..|xs| - 1]);
      assert forall x :: x in xs <==> x in xs[..|xs| - 1] || x == xs[|xs| - 1];
      if xs[|xs| - 1] in d then d else d + [xs[|xs| - 1]]
  }

  function HitIpList(hits: seq<Hit>): seq<String> {
    seq(|hits|, i requires 0 <= i < |hits| => hits[i].ip)
  }

  /** The groups of `ips` that reach the threshold, with their counts. */
  function Keep(spec: RuleSpec, events: seq<Event>, ips: seq<String>): (r: seq<Hit>)
    ensures forall h :: h in r ==> h.ip in ips && h.count == CountAt(spec, events, h.ip) && h.count >= spec.threshold
    ensures forall ip :: ip in ips && CountAt(spec, events, ip) >= spec.threshold ==> ip in HitIpList(r)
    ensures forall ip :: ip in HitIpList(r) ==> ip in ips
    ensures |r| <= |ips|
  {
    if |ips| == 0 then []
    else
      var rest := Keep(spec, events, ips[1..]);
      assert forall ip :: ip in ips <==> ip == ips[0] || ip in ips[1..];
      var n := CountAt(spec, events, ips[0]);
      if n >= spec.threshold then
        HitIpListCons(Hit(ips[0], n), rest);
        [Hit(ips[0], n)] + rest
      else rest
  }

  /** The result of the grouping query, groups in order of first appearance. */
  function Groups(spec: RuleSpec, events: seq<Event>): (r: seq<Hit>)
    ensures forall h :: h in r ==> h.count == CountAt(spec, events, h.ip) && h.count >= spec.threshold
  {
    Keep(spec, events, Distinct(HitIps(spec, events)))
  }

  /** Exactly the addresses with at least `threshold` counted events form a group, once each. */
  lemma {:induction false} GroupsExact(spec: RuleSpec, events: seq<Event>, ip: String)
    ensures ip in HitIpList(Groups(spec, events)) <==> CountAt(spec, events, ip) >= spec.threshold && CountAt(spec, events, ip) > 0
  {
    var ips := HitIps(spec, events);
    var ds := Distinct(ips);
    var r := Groups(spec, events);
    if ip in HitIpList(r) {
      var k :| 0 <= k < |r| && HitIpList(r)[k] == ip;
      assert r[k] in r;
      assert ip in ds;
      assert ip in ips;
    }
    if CountAt(spec, events, ip) >= spec.threshold && CountAt(spec, events, ip) > 0 {
      assert ip in ips;
      assert ip in ds;
    }
  }

  /** One step of `Keep`, seen through the addresses of the hits. */
  lemma KeepStep(spec: RuleSpec, events: seq<Event>, ips: seq<String>)
    requires |ips| > 0
    ensures CountAt(spec, events, ips[0]) >= spec.threshold ==>
      HitIpList(Keep(spec, events, ips)) == [ips[0]] + HitIpList(Keep(spec, events, ips[1..]))
    ensures CountAt(spec, events, ips[0]) < spec.threshold ==> Keep(spec, events, ips) == Keep(spec, events, ips[1..])
  {
    var n := CountAt(spec, events, ips[0]);
    if n >= spec.threshold {
      var rest := Keep(spec, events, ips[1..]);
      var h := Hit(ips[0], n);
      assert Keep(spec, events, ips) == [h] + rest;
      HitIpListCons(h, rest);
    }
  }

  lemma HitIpListCons(h: Hit, hs: seq<Hit>)
    ensures HitIpList([h] + hs) == [h.ip] + HitIpList(hs)
  {
    var a := HitIpList([h] + hs);
    var b := [h.ip] + HitIpList(hs);
    forall i | 0 <= i < |a| ensures a[i] == b[i] {
      if i > 0 {
        assert ([h] + hs)[i] == hs[i - 1];
      }
    }
  }

  lemma {:induction false} KeepDistinct(spec: RuleSpec, events: seq<Event>, ips: seq<String>)
    requires NoDuplicates(ips)
    ensures NoDuplicates(HitIpList(Keep(spec, events, ips)))
  {
    if |ips| > 0 {
      var tl := ips[1..];
      NoDuplicatesTail(ips);
      KeepDistinct(spec, events, tl);
      KeepStep(spec, events, ips);
      if CountAt(spec, events, ips[0]) >= spec.threshold {
        NoDuplicatesCons(ips[0], HitIpList(Keep(spec, events, tl)));
      }
    }
  }

  /** No address forms two groups. */
  lemma GroupsDistinct(spec: RuleSpec, events: seq<Event>)
    ensures NoDuplicates(HitIpList(Groups(spec, events)))
  {
    assert Groups(spec, events) == Keep(spec, events, Distinct(HitIps(spec, events)));
    KeepDistinct(spec, events, Distinct(HitIps(spec, events)));
  }

  // ----- the upsert -----

  /** The alert belongs to the identity (rule, address) of the unique index. */
  predicate HasKey(a: Alert, rule: String, ip: String) {
    a.ruleName == rule && a.srcIp == Some(ip)
  }

  predicate KeyPresent(alerts: seq<Alert>, rule: String, ip: String) {
    exists i :: 0 <= i < |alerts| && HasKey(alerts[i], rule, ip)
  }

  /** `INSERT ... ON CONFLICT(rule_name, src_ip) DO UPDATE SET severity, description, created_at`.
      A new row takes the next id and `now` as its creation time. */
  function Upsert(alerts: seq<Alert>, rule: String, ip: String, sev: int, desc: String, now: String): (r: seq<Alert>)
    ensures KeyPresent(r, rule, ip)
    ensures forall i :: 0 <= i < |r| && HasKey(r[i], rule, ip) ==>
      r[i].severity == sev && r[i].description == desc && r[i].createdAt == now
    ensures |r| == if KeyPresent(alerts, rule, ip) then |alerts| else |alerts| + 1
    ensures forall i :: 0 <= i < |alerts| ==>
      && r[i].id == alerts[i].id && r[i].ruleName == alerts[i].ruleName && r[i].srcIp == alerts[i].srcIp
      && (!HasKey(alerts[i], rule, ip) ==> r[i] == alerts[i])
    ensures |r| > |alerts| ==> r[|alerts|] == Alert(NextId(AlertIds(alerts)), now, rule, sev, Some(ip), desc)
  {
    if KeyPresent(alerts, rule, ip) then
      var r := seq(|alerts|, i requires 0 <= i < |alerts| =>
        if HasKey(alerts[i], rule, ip) then alerts[i].(severity := sev, description := desc, createdAt := now)
        else alerts[i]);
      assert KeyPresent(r, rule, ip) by {
        var k :| 0 <= k < |alerts| && HasKey(alerts[k], rule, ip);
        assert HasKey(r[k], rule, ip);
      }
      r
    else
      var r := alerts + [Alert(NextId(AlertIds(alerts)), now, rule, sev, Some(ip), desc)];
      assert HasKey(r[|alerts|], rule, ip);
      r
  }

  function UpsertHit(spec: RuleSpec, alerts: seq<Alert>, h: Hit, now: String): seq<Alert> {
    Upsert(alerts, spec.name, h.ip, spec.severity(h.count), spec.describe(h.count, h.ip), now)
  }

  /** The loop over the groups, one upsert each, in order. */
  function Apply(spec: RuleSpec, alerts: seq<Alert>, hits: seq<Hit>, now: String): (r: seq<Alert>)
    ensures |alerts| <= |r| <= |alerts| + |hits|
  {
    if |hits| == 0 then alerts
    else UpsertHit(spec, Apply(spec, alerts, hits[..|hits| - 1], now), hits[|hits| - 1], now)
  }

  /** A detection run: the alerts afterwards and the number of upserts made (`changed`). Each
      upsert adds at most one row, and without a qualifying address nothing changes. */
  function Run(spec: RuleSpec, events: seq<Event>, alerts: seq<Alert>, now: String): (r: (seq<Alert>, nat))
    ensures r.1 == |Groups(spec, events)|
    ensures |alerts| <= |r.0| <= |alerts| + r.1
    ensures r.1 == 0 ==> r.0 == alerts
  {
    var hits := Groups(spec, events);
    (Apply(spec, alerts, hits, now), |hits|)
  }

  /** The address of the alert is that of one of the hits. */
  predicate KeyOfSomeHit(a: Alert, rule: String, hits: seq<Hit>) {
    exists k :: 0 <= k < |hits| && HasKey(a, rule, hits[k].ip)
  }

  /** Existing rows keep their id and identity; rows of other rules and of addresses that are not
      among the hits are neither changed nor removed; appended rows belong to the hits. */
  lemma {:induction false} ApplyFrame(spec: RuleSpec, alerts: seq<Alert>, hits: seq<Hit>, now: String)
    ensures var r := Apply(spec, alerts, hits, now);
      && (forall i :: 0 <= i < |alerts| ==>
           && r[i].id == alerts[i].id && r[i].ruleName == alerts[i].ruleName && r[i].srcIp == alerts[i].srcIp
           && (!KeyOfSomeHit(alerts[i], spec.name, hits) ==> r[i] == alerts[i]))
      && (forall i :: |alerts| <= i < |r| ==> KeyOfSomeHit(r[i], spec.name, hits))
  {
    if |hits| > 0 {
      var init := hits[..|hits| - 1];
      var h := hits[|hits| - 1];
      ApplyFrame(spec, alerts, init, now);
      var p := Apply(spec, alerts, init, now);
      var r := UpsertHit(spec, p, h, now);
      forall i | 0 <= i < |alerts| && !KeyOfSomeHit(alerts[i], spec.name, hits)
        ensures r[i] == alerts[i]
      {
        forall k | 0 <= k < |init| ensures !HasKey(alerts[i], spec.name, init[k].ip) {
          assert hits[k] == init[k];
        }
        assert !HasKey(alerts[i], spec.name, hits[|hits| - 1].ip);
      }
      forall i | |alerts| <= i < |r| ensures KeyOfSomeHit(r[i], spec.name, hits) {
        if i < |p| {
          var k :| 0 <= k < |init| && HasKey(p[i], spec.name, init[k].ip);
          assert hits[k] == init[k];
          assert HasKey(r[i], spec.name, hits[k].ip);
        } else {
          assert HasKey(r[i], spec.name, hits[|hits| - 1].ip);
        }
      }
    }
  }

  /** Every row of the hit's identity carries the hit's severity and description, and one exists. */
  predicate Reflects(spec: RuleSpec, alerts: seq<Alert>, h: Hit) {
    && KeyPresent(alerts, spec.name, h.ip)
    && forall i :: 0 <= i < |alerts| && HasKey(alerts[i], spec.name, h.ip) ==>
         alerts[i].severity == spec.severity(h.count) && alerts[i].description == spec.describe(h.count, h.ip)
  }

  /** Every row of the hit's identity was written at `now`. */
  predicate Stamped(spec: RuleSpec, alerts: seq<Alert>, h: Hit, now: String) {
    forall i :: 0 <= i < |alerts| && HasKey(alerts[i], spec.name, h.ip) ==> alerts[i].createdAt == now
  }

  /** After a run, every qualifying address has its alert, with the severity and description of
      its count and the run's time. */
  lemma {:induction false} ApplySettles(spec: RuleSpec, alerts: seq<Alert>, hits: seq<Hit>, now: String)
    requires NoDuplicates(HitIpList(hits))
    ensures forall k :: 0 <= k < |hits| ==>
      Reflects(spec, Apply(spec, alerts, hits, now), hits[k]) && Stamped(spec, Apply(spec, alerts, hits, now), hits[k], now)
  {
    if |hits| > 0 {
      var init := hits[..|hits| - 1];
      var h := hits[|hits| - 1];
      assert HitIpList(init) == HitIpList(hits)[..|hits| - 1];
      ApplySettles(spec, alerts, init, now);
      var p := Apply(spec, alerts, init, now);
      var r := UpsertHit(spec, p, h, now);
      forall k | 0 <= k < |hits| ensures Reflects(spec, r, hits[k]) && Stamped(spec, r, hits[k], now) {
        if k < |hits| - 1 {
          assert hits[k] == init[k];
          assert hits[k].ip != h.ip by {
            assert HitIpList(hits)[k] != HitIpList(hits)[|hits| - 1];
          }
          UpsertKeepsOther(spec, p, h, hits[k], now);
        } else {
          UpsertReflects(spec, p, h, now);
        }
      }
    }
  }

  /** An upsert settles its own hit. */
  lemma UpsertReflects(spec: RuleSpec, p: seq<Alert>, h: Hit, now: String)
    ensures Reflects(spec, UpsertHit(spec, p, h, now), h) && Stamped(spec, UpsertHit(spec, p, h, now), h, now)
  {
  }

  /** An upsert for one address leaves what another address's hit settled. */
  lemma UpsertKeepsOther(spec: RuleSpec, p: seq<Alert>, h: Hit, g: Hit, now: String)
    requires g.ip != h.ip && Reflects(spec, p, g) && Stamped(spec, p, g, now)
    ensures Reflects(spec, UpsertHit(spec, p, h, now), g) && Stamped(spec, UpsertHit(spec, p, h, now), g, now)
  {
    var r := UpsertHit(spec, p, h, now);
    var w :| 0 <= w < |p| && HasKey(p[w], spec.name, g.ip);
    assert r[w] == p[w];
    forall i | |p| <= i < |r| ensures !HasKey(r[i], spec.name, g.ip) {
      assert HasKey(r[i], spec.name, h.ip);
    }
  }

  /** Within each identity there is at most one row (the unique index; NULL addresses never clash). */
  predicate UniqueKeys(alerts: seq<Alert>) {
    forall i, j :: 0 <= i < j < |alerts| && alerts[i].srcIp.Some? ==>
      !(alerts[i].ruleName == alerts[j].ruleName && alerts[i].srcIp == alerts[j].srcIp)
  }

  lemma UpsertKeepsUnique(alerts: seq<Alert>, rule: String, ip: String, sev: int, desc: String, now: String)
    requires UniqueKeys(alerts)
    ensures UniqueKeys(Upsert(alerts, rule, ip, sev, desc, now))
  {
    var r := Upsert(alerts, rule, ip, sev, desc, now);
    forall i, j | 0 <= i < j < |r| && r[i].srcIp.Some?
      ensures !(r[i].ruleName == r[j].ruleName && r[i].srcIp == r[j].srcIp)
    {
      if j >= |alerts| {
        assert !HasKey(alerts[i], rule, ip);
      }
    }
  }

  /** A run never creates a second alert for an identity. */
  lemma {:induction false} ApplyKeepsUnique(spec: RuleSpec, alerts: seq<Alert>, hits: seq<Hit>, now: String)
    requires UniqueKeys(alerts)
    ensures UniqueKeys(Apply(spec, alerts, hits, now))
  {
    if |hits| > 0 {
      var h := hits[|hits| - 1];
      ApplyKeepsUnique(spec, alerts, hits[..|hits| - 1], now);
      UpsertKeepsUnique(Apply(spec, alerts, hits[..|hits| - 1], now), spec.name, h.ip,
        spec.severity(h.count), spec.describe(h.count, h.ip), now);
    }
  }

  /** Two tables that differ at most in creation times. */
  predicate SameExceptTime(a: seq<Alert>, b: seq<Alert>) {
    |a| == |b| && forall i :: 0 <= i < |a| ==> a[i].(createdAt := b[i].createdAt) == b[i]
  }

  /** Upserting hits that the table already reflects changes nothing but creation times. */
  lemma {:induction false} ApplyReflectedIsStable(spec: RuleSpec, b: seq<Alert>, hits: seq<Hit>, now: String)
    requires forall k :: 0 <= k < |hits| ==> Reflects(spec, b, hits[k])
    ensures SameExceptTime(Apply(spec, b, hits, now), b)
  {
    if |hits| > 0 {
      var init := hits[..|hits| - 1];
      var h := hits[|hits| - 1];
      assert forall k :: 0 <= k < |init| ==> init[k] == hits[k];
      ApplyReflectedIsStable(spec, b, init, now);
      var p := Apply(spec, b, init, now);
      assert Reflects(spec, b, hits[|hits| - 1]);
      var w :| 0 <= w < |b| && HasKey(b[w], spec.name, h.ip);
      assert HasKey(p[w], spec.name, h.ip);
      var r := UpsertHit(spec, p, h, now);
      forall i | 0 <= i < |r| ensures r[i].(createdAt := b[i].createdAt) == b[i] {
        if HasKey(p[i], spec.name, h.ip) {
          assert HasKey(b[i], spec.name, h.ip);
        } else {
          assert r[i] == p[i];
        }
      }
    }
  }

  /** Running a rule again on unchanged events changes no alert except its creation time, and
      inserts nothing. */
  lemma RerunOnlyRestamps(spec: RuleSpec, events: seq<Event>, alerts: seq<Alert>, now1: String, now2: String)
    ensures SameExceptTime(Run(spec, events, Run(spec, events, alerts, now1).0, now2).0, Run(spec, events, alerts, now1).0)
  {
    var hits := Groups(spec, events);
    GroupsDistinct(spec, events);
    ApplySettles(spec, alerts, hits, now1);
    ApplyReflectedIsStable(spec, Apply(spec, alerts, hits, now1), hits, now2);
  }

  /** After a run, an address with at least `threshold` counted events has its alert, carrying the
      severity and description of its count and the run's time. */
  lemma RunSettles(spec: RuleSpec, events: seq<Event>, alerts: seq<Alert>, now: String, ip: String)
    requires CountAt(spec, events, ip) >= spec.threshold && CountAt(spec, events, ip) > 0
    ensures var r := Run(spec, events, alerts, now).0; var n := CountAt(spec, events, ip);
      && KeyPresent(r, spec.name, ip)
      && forall i :: 0 <= i < |r| && HasKey(r[i], spec.name, ip) ==>
           r[i].severity == spec.severity(n) && r[i].description == spec.describe(n, ip) && r[i].createdAt == now
  {
    var hits := Groups(spec, events);
    GroupsExact(spec, events, ip);
    GroupsDistinct(spec, events);
    var k :| 0 <= k < |hits| && HitIpList(hits)[k] == ip;
    assert hits[k] in hits;
    ApplySettles(spec, alerts, hits, now);
    assert Reflects(spec, Apply(spec, alerts, hits, now), hits[k]);
  }

  /** A run changes no alert of another rule, with no address, or whose address now falls below the
      threshold; existing rows keep id and identity; new rows are this rule's, for qualifying addresses. */
  lemma RunLeavesOthers(spec: RuleSpec, events: seq<Event>, alerts: seq<Alert>, now: String)
    ensures var r := Run(spec, events, alerts, now).0;
      && |alerts| <= |r|
      && (forall i :: 0 <= i < |alerts| ==>
           r[i].id == alerts[i].id && r[i].ruleName == alerts[i].ruleName && r[i].srcIp == alerts[i].srcIp)
      && (forall i :: 0 <= i < |alerts| && !Triggered(spec, events, alerts[i]) ==> r[i] == alerts[i])
      && (forall i :: |alerts| <= i < |r| ==> Triggered(spec, events, r[i]))
  {
    ApplyKeepsUntriggered(spec, events, alerts, now);
    ApplyAddsTriggered(spec, events, alerts, now);
  }

  lemma ApplyKeepsUntriggered(spec: RuleSpec, events: seq<Event>, alerts: seq<Alert>, now: String)
    ensures var r := Apply(spec, alerts, Groups(spec, events), now);
      && |alerts| <= |r|
      && (forall i :: 0 <= i < |alerts| ==>
           r[i].id == alerts[i].id && r[i].ruleName == alerts[i].ruleName && r[i].srcIp == alerts[i].srcIp)
      && (forall i :: 0 <= i < |alerts| && !Triggered(spec, events, alerts[i]) ==> r[i] == alerts[i])
  {
    var hits := Groups(spec, events);
    ApplyFrame(spec, alerts, hits, now);
    forall i | 0 <= i < |alerts| ensures !Triggered(spec, events, alerts[i]) ==> !KeyOfSomeHit(alerts[i], spec.name, hits) {
      KeyedIsTriggered(spec, events, alerts[i]);
    }
  }

  lemma ApplyAddsTriggered(spec: RuleSpec, events: seq<Event>, alerts: seq<Alert>, now: String)
    ensures var r := Apply(spec, alerts, Groups(spec, events), now);
      forall i :: |alerts| <= i < |r| ==> Triggered(spec, events, r[i])
  {
    var hits := Groups(spec, events);
    var r := Apply(spec, alerts, hits, now);
    ApplyFrame(spec, alerts, hits, now);
    forall i | |alerts| <= i < |r| ensures Triggered(spec, events, r[i]) {
      assert KeyOfSomeHit(r[i], spec.name, hits);
      var k :| 0 <= k < |hits| && HasKey(r[i], spec.name, hits[k].ip);
      assert hits[k] in hits;
    }
  }

  /** An alert keyed by one of the groups is triggered. */
  lemma KeyedIsTriggered(spec: RuleSpec, events: seq<Event>, a: Alert)
    ensures KeyOfSomeHit(a, spec.name, Groups(spec, events)) ==> Triggered(spec, events, a)
  {
    var hits := Groups(spec, events);
    if KeyOfSomeHit(a, spec.name, hits) {
      var k :| 0 <= k < |hits| && HasKey(a, spec.name, hits[k].ip);
      assert hits[k] in hits;
    }
  }

  /** The alert is this rule's, for an address that reaches the threshold. */
  predicate Triggered(spec: RuleSpec, events: seq<Event>, a: Alert) {
    a.ruleName == spec.name && a.srcIp.Some? && CountAt(spec, events, a.srcIp.value) >= spec.threshold
  }
}

=== FILE: enrichment.dfy ===
/** The batch enrichment driver: every incident, in id order, is re-exported and re-analysed unless
    its report is at least as new as its package. */
module Enrichment {
  import opened Base
  import opened Text
  import opened Records
  import opened Files
  import opened Export

  datatype Decision = Skip | Process

  /** The modification time of a file, `None` when it does not exist. */
  function MTime(fs: Fs, path: String): Option<int> {
    if path in fs then Some(fs[path].mtime) else None
  }

  /** The staleness rule: an existing report is kept unless a package exists that is strictly newer.
      A report whose package is missing is kept as well. */
  function Decide(report: Option<int>, package: Option<int>): (d: Decision)
    ensures d == Skip <==> report.Some? && (package.None? || package.value <= report.value)
  {
    if report.None? then Process
    else if package.None? then Skip
    else if package.value <= report.value then Skip
    else Process
  }

  function DecideFor(fs: Fs, root: String, key: String): Decision {
    Decide(MTime(fs, ReportPath(root, key)), MTime(fs, InboxPath(root, key)))
  }

  /** `analyze_incident`: reads the package, asks the engine, and writes the reply as the report.
      `engine` is the external analysis call; `None` is a failed call or a reply that is not JSON. */
  function Analyze(fs: Fs, root: String, key: String, engine: Content -> Option<String>, mtime: int): (r: Result<Fs, String>)
    ensures r.Err? <==> InboxPath(root, key) !in fs || engine(fs[InboxPath(root, key)].content).None?
    ensures r.Ok? ==> ReportPath(root, key) in r.value && InboxPath(root, key) in fs
    ensures r.Ok? ==> r.value[ReportPath(root, key)] == File(mtime, Text(engine(fs[InboxPath(root, key)].content).value, true))
    ensures r.Ok? ==> forall p :: p != ReportPath(root, key) ==> (p in r.value <==> p in fs) && (p in fs ==> r.value[p] == fs[p])
  {
    var inbox := InboxPath(root, key);
    if inbox !in fs then Err("Incident file not found: " + inbox)
    else
      var reply := engine(fs[inbox].content);
      if reply.None? then Err("analysis failed for " + key)
      else Ok(fs[ReportPath(root, key) := File(mtime, Text(reply.value, true))])
  }

  /** Files, `processed`, `skipped`. */
  datatype Tally = Tally(fs: Fs, processed: nat, skipped: nat)

  /** A run ended by an exception: the files on disk at that moment and the exception's message.
      The counters die with the run; the files written before the exception stay. */
  datatype Stopped = Stopped(fs: Fs, message: String)

  /** One incident of the loop: skip, or export then analyse. Either failure ends the run, and a
      package already exported for the key stays on disk. */
  function Visit(st: Store, t: Tally, root: String, key: String, engine: Content -> Option<String>, now: int): (r: Result<Tally, Stopped>)
    ensures r.Ok? ==> r.value.processed + r.value.skipped == t.processed + t.skipped + 1
    ensures r.Ok? && DecideFor(t.fs, root, key) == Skip ==> r.value == t.(skipped := t.skipped + 1)
    ensures r.Err? ==> DecideFor(t.fs, root, key) == Process
    ensures r.Err? && FindKey(st.incidents, key).None? ==> r.error.fs == t.fs
    ensures r.Err? && FindKey(st.incidents, key).Some? ==>
      r.error.fs == t.fs[InboxPath(root, key) := File(now, PackageFile(BuildPackage(st, st.incidents[FindKey(st.incidents, key).value])))]
  {
    if DecideFor(t.fs, root, key) == Skip then Ok(t.(skipped := t.skipped + 1))
    else
      match ExportIncident(st, t.fs, root, key, now)
      case Err(e) => Err(Stopped(t.fs, e))
      case Ok(exported) =>
        match Analyze(exported, root, key, engine, now)
        case Err(e) => Err(Stopped(exported, e))
        case Ok(analysed) => Ok(Tally(analysed, t.processed + 1, t.skipped))
  }

  /** The loop over `keys`; every write of the run carries the clock reading `now`. */
  function Pass(st: Store, fs: Fs, root: String, keys: seq<String>, engine: Content -> Option<String>, now: int): (r: Result<Tally, Stopped>)
    ensures r.Ok? ==> r.value.processed + r.value.skipped == |keys|
  {
    if |keys| == 0 then Ok(Tally(fs, 0, 0))
    else
      var t :- Pass(st, fs, root, keys[..|keys| - 1], engine, now);
      Visit(st, t, root, keys[|keys| - 1], engine, now)
  }

  /** `SELECT incident_key FROM incidents ORDER BY id`. */
  function Keys(incs: seq<Incident>): seq<String> {
    seq(|incs|, i requires 0 <= i < |incs| => incs[i].incidentKey)
  }

  /** `main`: one pass over every incident. */
  function Run(st: Store, fs: Fs, root: String, engine: Content -> Option<String>, now: int): (r: Result<Tally, Stopped>)
    ensures r.Ok? ==> r.value.processed + r.value.skipped == |st.incidents|
  {
    Pass(st, fs, root, Keys(st.incidents), engine, now)
  }

  // ----- a finished pass leaves nothing stale -----

  /** Every key would be skipped. */
  predicate AllFresh(fs: Fs, root: String, keys: seq<String>) {
    forall i :: 0 <= i < |keys| ==> DecideFor(fs, root, keys[i]) == Skip
  }

  /** Writing one key's package and report leaves every other key's files as they were. */
  lemma OtherKeyUntouched(fs: Fs, root: String, k: String, k2: String, f1: File, f2: File)
    requires k2 != k
    ensures DecideFor(fs[InboxPath(root, k) := f1][ReportPath(root, k) := f2], root, k2) == DecideFor(fs, root, k2)
  {
    if InboxPath(root, k2) == InboxPath(root, k) { InboxPathInjective(root, k2, k); }
    if ReportPath(root, k2) == ReportPath(root, k) { ReportPathInjective(root, k2, k); }
    PackageIsNotReport(root, k2, k);
    PackageIsNotReport(root, k, k2);
  }

  lemma VisitKeepsFresh(st: Store, t: Tally, root: String, keys: seq<String>, engine: Content -> Option<String>, now: int)
    requires |keys| > 0 && AllFresh(t.fs, root, keys[..|keys| - 1])
    requires Visit(st, t, root, keys[|keys| - 1], engine, now).Ok?
    ensures AllFresh(Visit(st, t, root, keys[|keys| - 1], engine, now).value.fs, root, keys)
  {
    var key := keys[|keys| - 1];
    var r := Visit(st, t, root, key, engine, now).value;
    if DecideFor(t.fs, root, key) == Process {
      var e := ExportIncident(st, t.fs, root, key, now).value;
      var i := FindKey(st.incidents, key).value;
      var f1 := File(now, PackageFile(BuildPackage(st, st.incidents[i])));
      assert e == t.fs[InboxPath(root, key) := f1];
      var f2 := r.fs[ReportPath(root, key)];
      assert r.fs == e[ReportPath(root, key) := f2];
      PackageIsNotReport(root, key, key);
      assert DecideFor(r.fs, root, key) == Skip;
      forall j | 0 <= j < |keys| - 1 && keys[j] != key ensures DecideFor(r.fs, root, keys[j]) == Skip {
        assert keys[..|keys| - 1][j] == keys[j];
        OtherKeyUntouched(t.fs, root, key, keys[j], f1, f2);
      }
    }
    forall j | 0 <= j < |keys| ensures DecideFor(r.fs, root, keys[j]) == Skip {
      if j < |keys| - 1 { assert keys[..|keys| - 1][j] == keys[j]; }
    }
  }

  lemma {:induction false} PassFreshens(st: Store, fs: Fs, root: String, keys: seq<String>, engine: Content -> Option<String>, now: int)
    requires Pass(st, fs, root, keys, engine, now).Ok?
    ensures AllFresh(Pass(st, fs, root, keys, engine, now).value.fs, root, keys)
  {
    if |keys| > 0 {
      var pre := keys[..|keys| - 1];
      PassLast(st, fs, root, keys, engine, now);
      PassFreshens(st, fs, root, pre, engine, now);
      VisitKeepsFresh(st, Pass(st, fs, root, pre, engine, now).value, root, keys, engine, now);
    }
  }

  /** A completed pass is the pass over all but the last key followed by a visit to the last. */
  lemma PassLast(st: Store, fs: Fs, root: String, keys: seq<String>, engine: Content -> Option<String>, now: int)
    requires |keys| > 0 && Pass(st, fs, root, keys, engine, now).Ok?
    ensures Pass(st, fs, root, keys[..|keys| - 1], engine, now).Ok?
    ensures Pass(st, fs, root, keys, engine, now)
      == Visit(st, Pass(st, fs, root, keys[..|keys| - 1], engine, now).value, root, keys[|keys| - 1], engine, now)
  {
  }

  lemma {:induction false} FreshPassSkipsAll(st: Store, fs: Fs, root: String, keys: seq<String>, engine: Content -> Option<String>, now: int)
    requires AllFresh(fs, root, keys)
    ensures Pass(st, fs, root, keys, engine, now) == Ok(Tally(fs, 0, |keys|))
  {
    if |keys| > 0 {
      var pre := keys[..|keys| - 1];
      assert AllFresh(fs, root, pre) by {
        forall j | 0 <= j < |pre| ensures DecideFor(fs, root, pre[j]) == Skip {
          assert pre[j] == keys[j];
        }
      }
      FreshPassSkipsAll(st, fs, root, pre, engine, now);
      assert DecideFor(fs, root, keys[|keys| - 1]) == Skip;
    }
  }

  /** After a completed pass a second pass, at any later time, skips every incident and writes nothing. */
  lemma SecondPassSkipsAll(st: Store, fs: Fs, root: String, engine: Content -> Option<String>, now1: int, now2: int)
    requires Run(st, fs, root, engine, now1).Ok?
    ensures var fs1 := Run(st, fs, root, engine, now1).value.fs;
      Run(st, fs1, root, engine, now2) == Ok(Tally(fs1, 0, |st.incidents|))
  {
    PassFreshens(st, fs, root, Keys(st.incidents), engine, now1);
    FreshPassSkipsAll(st, Run(st, fs, root, engine, now1).value.fs, root, Keys(st.incidents), engine, now2);
  }

  // ----- a run that raised keeps what it wrote -----

  /** A package written for `k` leaves every other key's decision as it was. */
  lemma OtherPackageUntouched(fs: Fs, root: String, k: String, k2: String, f: File)
    requires k2 != k
    ensures DecideFor(fs[InboxPath(root, k) := f], root, k2) == DecideFor(fs, root, k2)
  {
    if InboxPath(root, k2) == InboxPath(root, k) { InboxPathInjective(root, k2, k); }
    PackageIsNotReport(root, k, k2);
  }

  /** A pass that raised stopped at one key: the pass over the keys before it completed and the
      visit to that key raised, so no later key was visited. */
  lemma {:induction false} PassStops(st: Store, fs: Fs, root: String, keys: seq<String>, engine: Content -> Option<String>, now: int)
      returns (k: nat)
    requires Pass(st, fs, root, keys, engine, now).Err?
    ensures k < |keys| && Pass(st, fs, root, keys[..k], engine, now).Ok?
    ensures Pass(st, fs, root, keys, engine, now) == Visit(st, Pass(st, fs, root, keys[..k], engine, now).value, root, keys[k], engine, now)
  {
    var pre := keys[..|keys| - 1];
    PassStep(st, fs, root, keys, engine, now);
    if Pass(st, fs, root, pre, engine, now).Err? {
      k := PassStops(st, fs, root, pre, engine, now);
      assert pre[..k] == keys[..k] && pre[k] == keys[k];
    } else {
      k := |keys| - 1;
    }
  }

  /** One step of `Pass`: an exception in the earlier keys is passed on, and otherwise the last key
      is visited. */
  lemma PassStep(st: Store, fs: Fs, root: String, keys: seq<String>, engine: Content -> Option<String>, now: int)
    requires |keys| > 0
    ensures var pre := Pass(st, fs, root, keys[..|keys| - 1], engine, now);
      && (pre.Err? ==> Pass(st, fs, root, keys, engine, now) == pre)
      && (pre.Ok? ==> Pass(st, fs, root, keys, engine, now) == Visit(st, pre.value, root, keys[|keys| - 1], engine, now))
  {
  }

  /** What a run left on disk when the visit to `keys[k]` raised after exporting it: that key's
      package, written at `now`, and every earlier key other than it fresh. */
  predicate StoppedAt(st: Store, s: Fs, root: String, keys: seq<String>, k: int, now: int) {
    && 0 <= k < |keys|
    && FindKey(st.incidents, keys[k]).Some?
    && InboxPath(root, keys[k]) in s
    && s[InboxPath(root, keys[k])] == File(now, PackageFile(BuildPackage(st, st.incidents[FindKey(st.incidents, keys[k]).value])))
    && forall j :: 0 <= j < k && keys[j] != keys[k] ==> DecideFor(s, root, keys[j]) == Skip
  }

  /** The visit that ends a pass keeps the earlier keys' work: they stay fresh, and the failing key's
      package stays written when the key is an incident's, while a key that is none writes nothing. */
  lemma StoppedKeepsWork(st: Store, fs: Fs, root: String, keys: seq<String>, k: nat, engine: Content -> Option<String>, now: int)
    requires k < |keys| && Pass(st, fs, root, keys[..k], engine, now).Ok?
    requires Visit(st, Pass(st, fs, root, keys[..k], engine, now).value, root, keys[k], engine, now).Err?
    ensures var t := Pass(st, fs, root, keys[..k], engine, now).value;
      var s := Visit(st, t, root, keys[k], engine, now).error.fs;
      && (FindKey(st.incidents, keys[k]).Some? ==> StoppedAt(st, s, root, keys, k, now))
      && (FindKey(st.incidents, keys[k]).None? ==> s == t.fs && AllFresh(s, root, keys[..k]))
  {
    var t := Pass(st, fs, root, keys[..k], engine, now).value;
    var key := keys[k];
    var s := Visit(st, t, root, key, engine, now).error.fs;
    PassFreshens(st, fs, root, keys[..k], engine, now);
    if FindKey(st.incidents, key).Some? {
      var f := File(now, PackageFile(BuildPackage(st, st.incidents[FindKey(st.incidents, key).value])));
      assert s == t.fs[InboxPath(root, key) := f];
      forall j | 0 <= j < k && keys[j] != key ensures DecideFor(s, root, keys[j]) == Skip {
        assert keys[..k][j] == keys[j];
        OtherPackageUntouched(t.fs, root, key, keys[j], f);
      }
    }
  }

  /** A run that raised stopped at an incident whose fresh package it had just written, with every
      earlier incident of another key fresh: the exception discards the counters, not the files. */
  lemma RunStopped(st: Store, fs: Fs, root: String, engine: Content -> Option<String>, now: int)
    requires Run(st, fs, root, engine, now).Err?
    ensures exists k :: StoppedAt(st, Run(st, fs, root, engine, now).error.fs, root, Keys(st.incidents), k, now)
  {
    var keys := Keys(st.incidents);
    var k := PassStops(st, fs, root, keys, engine, now);
    assert st.incidents[k].incidentKey == keys[k];
    StoppedKeepsWork(st, fs, root, keys, k, engine, now);
  }
}

=== FILE: export.dfy ===
/** `export_incident`: assembling an incident's package from the store and writing it to the inbox. */
module Export {
  import opened Base
  import opened Text
  import opened Records
  import opened Sorting
  import opened Files

  /** `SELECT ... FROM incidents WHERE incident_key = ?` with `fetchone()`: the first match in table order. */
  function FindKey(incs: seq<Incident>, key: String): (r: Option<nat>)
    ensures r.Some? ==> r.value < |incs| && incs[r.value].incidentKey == key
    ensures r.Some? ==> forall j :: 0 <= j < r.value ==> incs[j].incidentKey != key
    ensures r.None? <==> forall j :: 0 <= j < |incs| ==> incs[j].incidentKey != key
  {
    if |incs| == 0 then None
    else if incs[0].incidentKey == key then Some(0)
    else
      var rest := FindKey(incs[1..], key);
      assert forall j :: 1 <= j < |incs| ==> incs[j] == incs[1..][j - 1];
      if rest.Some? then Some(rest.value + 1) else None
  }

  function View(x: Incident): IncidentView {
    IncidentView(x.incidentKey, x.createdAt, x.status, x.severity, x.primaryIp, x.summary)
  }

  /** `SELECT ... FROM alerts WHERE src_ip = ? ORDER BY id`: the table order is the id order. */
  function AlertsFor(alerts: seq<Alert>, ip: Option<String>): (r: seq<Alert>)
    ensures forall a :: a in r <==> a in alerts && SqlEq(a.srcIp, ip)
    ensures |r| <= |alerts|
    ensures ip.None? ==> r == []
  {
    if |alerts| == 0 then []
    else
      var pre := AlertsFor(alerts[..|alerts| - 1], ip);
      var a := alerts[|alerts| - 1];
      assert alerts == alerts[..|alerts| - 1] + [a];
      if SqlEq(a.srcIp, ip) then pre + [a] else pre
  }

  /** The filtered alerts keep ascending id order. */
  lemma {:induction false} AlertsForAscending(alerts: seq<Alert>, ip: Option<String>)
    requires Ascending(AlertIds(alerts))
    ensures Ascending(AlertIds(AlertsFor(alerts, ip)))
  {
    if |alerts| > 0 {
      var n := |alerts| - 1;
      var init := alerts[..n];
      assert Ascending(AlertIds(init)) by {
        forall i, j | 0 <= i < j < |init| ensures init[i].id < init[j].id {
          assert AlertIds(alerts)[i] == init[i].id && AlertIds(alerts)[j] == init[j].id;
        }
      }
      AlertsForAscending(init, ip);
      var pre := AlertsFor(init, ip);
      var a := alerts[n];
      if SqlEq(a.srcIp, ip) {
        var r := pre + [a];
        forall i, j | 0 <= i < j < |r| ensures AlertIds(r)[i] < AlertIds(r)[j] {
          if j < |pre| {
            assert AlertIds(pre)[i] < AlertIds(pre)[j];
          } else {
            assert r[i] in init;
            var k :| 0 <= k < n && init[k] == r[i];
            assert AlertIds(alerts)[k] < AlertIds(alerts)[n];
          }
        }
      }
    }
  }

  /** `SELECT ... FROM events WHERE src_ip = ?`, before ordering. */
  function EventsFor(events: seq<Event>, ip: Option<String>): (r: seq<Event>)
    ensures forall e :: e in r <==> e in events && SqlEq(e.srcIp, ip)
    ensures ip.None? ==> r == []
  {
    if |events| == 0 then []
    else
      var pre := EventsFor(events[..|events| - 1], ip);
      var e := events[|events| - 1];
      assert events == events[..|events| - 1] + [e];
      if SqlEq(e.srcIp, ip) then pre + [e] else pre
  }

  /** `ORDER BY event_time` under SQLite's binary text collation. */
  predicate TimeLe(a: Event, b: Event) {
    StrLe(a.eventTime, b.eventTime)
  }

  lemma TimeOrder()
    ensures Total(TimeLe) && Transitive(TimeLe)
  {
    forall a: Event, b: Event ensures TimeLe(a, b) || TimeLe(b, a) {
      StrLeTotal(a.eventTime, b.eventTime);
    }
    forall a: Event, b: Event, c: Event | TimeLe(a, b) && TimeLe(b, c) ensures TimeLe(a, c) {
      StrLeTransitive(a.eventTime, b.eventTime, c.eventTime);
    }
  }

  function Entry(e: Event): TimelineEntry {
    TimelineEntry(e.eventTime, e.eventType, e.product, e.host, e.srcIp, e.username, e.outcome, e.message)
  }

  function Entries(es: seq<Event>): seq<TimelineEntry> {
    seq(|es|, i requires 0 <= i < |es| => Entry(es[i]))
  }

  /** The events of the address in time order; ties keep their table order. */
  function TimelineEvents(events: seq<Event>, ip: Option<String>): seq<Event> {
    Sort(EventsFor(events, ip), TimeLe)
  }

  /** The ground rules the package states for the engine. */
  const Constraints: seq<String> := [
    "Local/lab logs only",
    "No offensive hacking or exploitation",
    "Focus on SOC analyst workflow realism",
    "If something is unknown, state assumptions"]

  /** The report fields the package asks the engine for. */
  const ReportFields: seq<String> := [
    "executive_summary",
    "technical_summary",
    "timeline",
    "triage_checklist",
    "containment_recommendations",
    "remediation_recommendations",
    "assumptions",
    "confidence"]

  function BuildPackage(st: Store, x: Incident): Package {
    Package(
      View(x),
      AlertsFor(st.alerts, x.primaryIp),
      Entries(TimelineEvents(st.events, x.primaryIp)),
      Constraints,
      "json",
      ReportFields)
  }

  /** The `SystemExit` message for an unknown key. */
  function NotFound(key: String): String {
    "Incident not found: " + key
  }

  /** Export one incident: a missing key stops before anything is written; otherwise the
      package replaces whatever was at the key's inbox path, stamped with `mtime`. */
  function ExportIncident(st: Store, fs: Fs, root: String, key: String, mtime: int): (r: Result<Fs, String>)
    ensures r.Err? <==> forall j :: 0 <= j < |st.incidents| ==> st.incidents[j].incidentKey != key
    ensures r.Err? ==> r.error == NotFound(key)
    ensures r.Ok? ==> InboxPath(root, key) in r.value && r.value[InboxPath(root, key)].mtime == mtime
    ensures r.Ok? ==>
      && FindKey(st.incidents, key).Some?
      && r.value[InboxPath(root, key)].content == PackageFile(BuildPackage(st, st.incidents[FindKey(st.incidents, key).value]))
    ensures r.Ok? ==> forall p :: p != InboxPath(root, key) ==> (p in r.value <==> p in fs) && (p in fs ==> r.value[p] == fs[p])
  {
    var i := FindKey(st.incidents, key);
    if i.None? then Err(NotFound(key))
    else Ok(fs[InboxPath(root, key) := File(mtime, PackageFile(BuildPackage(st, st.incidents[i.value])))])
  }

  /** The package of an incident: its fields verbatim, exactly the alerts of its address in id
      order (none without an address), its address's events in time order, and the fixed request. */
  lemma PackageContents(st: Store, x: Incident)
    requires Ascending(AlertIds(st.alerts))
    ensures var p := BuildPackage(st, x);
      && p.incident.key == x.incidentKey && p.incident.createdAt == x.createdAt
      && p.incident.status == x.status && p.incident.severity == x.severity
      && p.incident.primaryIp == x.primaryIp && p.incident.summary == x.summary
      && (forall a :: a in p.alerts <==> a in st.alerts && SqlEq(a.srcIp, x.primaryIp))
      && Ascending(AlertIds(p.alerts))
      && (x.primaryIp.None? ==> p.alerts == [] && p.timeline == [])
      && p.format == "json"
      && p.fields == ["executive_summary", "technical_summary", "timeline", "triage_checklist",
                      "containment_recommendations", "remediation_recommendations", "assumptions", "confidence"]
      && p.constraints == ["Local/lab logs only", "No offensive hacking or exploitation",
                           "Focus on SOC analyst workflow realism", "If something is unknown, state assumptions"]
  {
    AlertsForAscending(st.alerts, x.primaryIp);
    var p := BuildPackage(st, x);
    if x.primaryIp.None? {
      assert TimelineEvents(st.events, None) == Sort([], TimeLe) == [];
    }
  }

  /** The timeline holds exactly the address's events, each once, ordered by event time. */
  lemma TimelineExact(events: seq<Event>, ip: Option<String>)
    ensures var s := TimelineEvents(events, ip);
      && multiset(s) == multiset(EventsFor(events, ip))
      && (forall e :: e in s <==> e in events && SqlEq(e.srcIp, ip))
      && (forall i, j :: 0 <= i < j < |s| ==> StrLe(s[i].eventTime, s[j].eventTime))
  {
    TimeOrder();
    var s := TimelineEvents(events, ip);
    SortSorts(EventsFor(events, ip), TimeLe);
    forall e ensures e in s <==> e in EventsFor(events, ip) {
      assert e in s <==> e in multiset(s);
    }
    forall i, j | 0 <= i < j < |s| ensures StrLe(s[i].eventTime, s[j].eventTime) {
      SortedPairs(s, TimeLe, i, j);
    }
  }

  /** Events already in time order appear in table order. */
  lemma TimelineInTableOrder(events: seq<Event>, ip: Option<String>)
    requires Sorted(EventsFor(events, ip), TimeLe)
    ensures TimelineEvents(events, ip) == EventsFor(events, ip)
  {
    TimeOrder();
    SortSorted(EventsFor(events, ip), TimeLe);
  }

  /** The package path depends only on the key, so exporting again replaces the earlier package. */
  lemma ExportAgainReplaces(st: Store, fs: Fs, root: String, key: String, m1: int, m2: int)
    requires ExportIncident(st, fs, root, key, m1).Ok?
    ensures ExportIncident(st, ExportIncident(st, fs, root, key, m1).value, root, key, m2) == ExportIncident(st, fs, root, key, m2)
  {
    var i := FindKey(st.incidents, key).value;
    var path := InboxPath(root, key);
    var f1 := File(m1, PackageFile(BuildPackage(st, st.incidents[i])));
    var f2 := File(m2, PackageFile(BuildPackage(st, st.incidents[i])));
    assert fs[path := f1][path := f2] == fs[path := f2];
  }
}

=== FILE: files.dfy ===
/** The data directory the enrichment workflow shares with the analysis engine: where each file
    lives, what it holds, and when it was last written. Paths are POSIX strings under the project
    root; contents are the documents themselves, not their JSON text. */
module Files {
  import opened Base
  import opened Text
  import opened Records

  const InboxDir: String := "/data/ai/inbox/"
  const OutboxDir: String := "/data/ai/outbox/"
  const AgentOutboxDir: String := "/data/ai/az_outbox/"

  /** The package `export_incident` writes: one per incident key. */
  function InboxPath(root: String, key: String): String {
    root + InboxDir + key + ".json"
  }

  /** The analysis report for an incident. */
  function ReportPath(root: String, key: String): String {
    root + OutboxDir + key + ".report.json"
  }

  /** The envelope written for one enrichment run. */
  function RunInboxPath(root: String, key: String, runId: nat): String {
    root + InboxDir + key + ".run-" + Decimal(runId) + ".json"
  }

  /** Where the external engine is expected to put one run's output. */
  function RunOutboxPath(root: String, key: String, runId: nat): String {
    root + AgentOutboxDir + key + ".run-" + Decimal(runId) + ".agent.json"
  }

  /** The incident fields a package or envelope carries. */
  datatype IncidentView = IncidentView(
    key: String, createdAt: String, status: String, severity: int, primaryIp: Option<String>, summary: String)

  /** One timeline row of a package: an event without its ids. */
  datatype TimelineEntry = TimelineEntry(
    time: String, eventType: String, product: String, host: String,
    srcIp: Option<String>, username: Option<String>, outcome: String, message: String)

  /** The incident package handed to the analysis engine. */
  datatype Package = Package(
    incident: IncidentView,
    alerts: seq<Alert>,
    timeline: seq<TimelineEntry>,
    constraints: seq<String>,
    format: String,
    fields: seq<String>)

  /** A previous report as an envelope carries it: absent, loaded, or flagged as unreadable. */
  datatype PriorReport = NoReport | Loaded(content: Content) | InvalidJson(path: String)

  /** The per-run envelope. */
  datatype Envelope = Envelope(
    incidentKey: String,
    runId: nat,
    requestedAt: String,
    analystPrompt: String,
    expectedOutputPath: String,
    incident: IncidentView,
    alerts: seq<Alert>,
    notes: seq<Note>,
    openaiReport: PriorReport)

  /** What a file holds; `Text` is any other document, `json` telling whether it parses as JSON. */
  datatype Content = PackageFile(package: Package) | EnvelopeFile(envelope: Envelope) | Text(body: String, json: bool)

  datatype File = File(mtime: int, content: Content)

  type Fs = map<String, File>

  // ----- path lemmas -----

  lemma StripSame(a: String, x: String, y: String, c: String)
    requires a + x + c == a + y + c
    ensures x == y
  {
    var s := a + x + c;
    assert |x| == |y|;
    assert x == s[|a|..|a| + |x|];
    assert y == (a + y + c)[|a|..|a| + |y|];
  }

  /** Packages of distinct incidents never overwrite each other. */
  lemma InboxPathInjective(root: String, k1: String, k2: String)
    requires InboxPath(root, k1) == InboxPath(root, k2)
    ensures k1 == k2
  {
    assert InboxPath(root, k1) == (root + InboxDir) + k1 + ".json";
    assert InboxPath(root, k2) == (root + InboxDir) + k2 + ".json";
    StripSame(root + InboxDir, k1, k2, ".json");
  }

  /** Reports of distinct incidents never overwrite each other. */
  lemma ReportPathInjective(root: String, k1: String, k2: String)
    requires ReportPath(root, k1) == ReportPath(root, k2)
    ensures k1 == k2
  {
    assert ReportPath(root, k1) == (root + OutboxDir) + k1 + ".report.json";
    assert ReportPath(root, k2) == (root + OutboxDir) + k2 + ".report.json";
    StripSame(root + OutboxDir, k1, k2, ".report.json");
  }

  /** A package and a report are never the same file: the directories differ after `/data/ai/`. */
  lemma PackageIsNotReport(root: String, k1: String, k2: String)
    ensures InboxPath(root, k1) != ReportPath(root, k2)
  {
    assert InboxPath(root, k1)[|root| + 9] == 'i';
    assert ReportPath(root, k2)[|root| + 9] == 'o';
  }

  /** Length of the longest all-digit suffix. */
  function DigitTail(s: String): (n: nat)
    ensures n <= |s|
  {
    if |s| > 0 && IsDigit(s[|s| - 1]) then DigitTail(s[..|s| - 1]) + 1 else 0
  }

  /** The digits after `.run-` are exactly the final digit run, since `-` is not a digit. */
  lemma {:induction false} DigitTailOf(k: String, d: String)
    requires AllDigits(d)
    ensures DigitTail(k + ".run-" + d) == |d|
  {
    var s := k + ".run-" + d;
    if |d| == 0 {
      assert s[|s| - 1] == '-';
    } else {
      assert s[..|s| - 1] == k + ".run-" + d[..|d| - 1];
      DigitTailOf(k, d[..|d| - 1]);
    }
  }

  /** `key.run-N` names determine both the key and the number. */
  lemma RunNameInjective(k1: String, d1: String, k2: String, d2: String)
    requires AllDigits(d1) && AllDigits(d2)
    requires k1 + ".run-" + d1 == k2 + ".run-" + d2
    ensures k1 == k2 && d1 == d2
  {
    var s := k1 + ".run-" + d1;
    DigitTailOf(k1, d1);
    DigitTailOf(k2, d2);
    assert d1 == s[|s| - |d1|..];
    assert d2 == (k2 + ".run-" + d2)[|s| - |d2|..];
    assert k1 == s[..|k1|];
    assert k2 == (k2 + ".run-" + d2)[..|k2|];
  }

  /** Every run gets its own envelope. */
  lemma RunInboxPathInjective(root: String, k1: String, id1: nat, k2: String, id2: nat)
    requires RunInboxPath(root, k1, id1) == RunInboxPath(root, k2, id2)
    ensures k1 == k2 && id1 == id2
  {
    var n1 := k1 + ".run-" + Decimal(id1);
    var n2 := k2 + ".run-" + Decimal(id2);
    assert RunInboxPath(root, k1, id1) == (root + InboxDir) + n1 + ".json";
    assert RunInboxPath(root, k2, id2) == (root + InboxDir) + n2 + ".json";
    StripSame(root + InboxDir, n1, n2, ".json");
    RunNameInjective(k1, Decimal(id1), k2, Decimal(id2));
    DecimalInjective(id1, id2);
  }

  /** Every run has its own expected output file. */
  lemma RunOutboxPathInjective(root: String, k1: String, id1: nat, k2: String, id2: nat)
    requires RunOutboxPath(root, k1, id1) == RunOutboxPath(root, k2, id2)
    ensures k1 == k2 && id1 == id2
  {
    var n1 := k1 + ".run-" + Decimal(id1);
    var n2 := k2 + ".run-" + Decimal(id2);
    assert RunOutboxPath(root, k1, id1) == (root + AgentOutboxDir) + n1 + ".agent.json";
    assert RunOutboxPath(root, k2, id2) == (root + AgentOutboxDir) + n2 + ".agent.json";
    StripSame(root + AgentOutboxDir, n1, n2, ".agent.json");
    RunNameInjective(k1, Decimal(id1), k2, Decimal(id2));
    DecimalInjective(id1, id2);
  }
}

=== FILE: incident_sync.dfy ===
/** Turning alerts into incidents: each alert with an address has a fingerprint `rule|ip`; the first
    incident with that fingerprint is brought up to date, or a new incident is opened under the next
    key of the year. */
module IncidentSync {
  import opened Base
  import opened Text
  import opened Records

  // ----- incident keys -----

  function KeyPrefix(year: nat): String {
    "INC-" + Decimal(year) + "-"
  }

  /** The key with sequence number `n`: `f"INC-{year}-{n:06d}"`. */
  function IssuedKey(year: nat, n: nat): String {
    KeyPrefix(year) + PadNat(n, 6)
  }

  /** `SELECT COUNT(*) FROM incidents WHERE incident_key LIKE 'INC-<year>-%'`. */
  function YearCount(incs: seq<Incident>, year: nat): (n: nat)
    ensures n <= |incs|
  {
    if |incs| == 0 then 0
    else YearCount(incs[..|incs| - 1], year) + (if LikePrefix(incs[|incs| - 1].incidentKey, KeyPrefix(year)) then 1 else 0)
  }

  /** `next_incident_key`: one past the number of keys of the year, however they are numbered. */
  function NextKey(incs: seq<Incident>, year: nat): String {
    IssuedKey(year, YearCount(incs, year) + 1)
  }

  lemma PrefixIsLikePrefix(p: String, x: String)
    ensures LikePrefix(p + x, p)
  {
  }

  /** Distinct sequence numbers give distinct keys within a year. */
  lemma IssuedKeysDistinct(year: nat, m: nat, n: nat)
    requires m != n
    ensures IssuedKey(year, m) != IssuedKey(year, n)
  {
    PadNatRoundTrip(m, 6);
    PadNatRoundTrip(n, 6);
    var p := KeyPrefix(year);
    assert IssuedKey(year, m)[|p|..] == PadNat(m, 6);
    assert IssuedKey(year, n)[|p|..] == PadNat(n, 6);
  }

  /** The next key is fresh when the year's keys are numbered within 1..count, as when none was
      ever deleted. */
  lemma NextKeyFresh(incs: seq<Incident>, year: nat)
    requires forall i :: 0 <= i < |incs| && LikePrefix(incs[i].incidentKey, KeyPrefix(year)) ==>
      exists m :: 1 <= m <= YearCount(incs, year) && incs[i].incidentKey == IssuedKey(year, m)
    ensures forall i :: 0 <= i < |incs| ==> incs[i].incidentKey != NextKey(incs, year)
  {
    var c := YearCount(incs, year);
    PrefixIsLikePrefix(KeyPrefix(year), PadNat(c + 1, 6));
    forall i | 0 <= i < |incs| && LikePrefix(incs[i].incidentKey, KeyPrefix(year))
      ensures incs[i].incidentKey != NextKey(incs, year)
    {
      var m :| 1 <= m <= c && incs[i].incidentKey == IssuedKey(year, m);
      IssuedKeysDistinct(year, m, c + 1);
    }
  }

  /** The count ignores numbering, so once the first key of a year is deleted, the next key repeats
      the surviving second one. */
  lemma KeyReissuedAfterDeletion(b: Incident, year: nat)
    requires b.incidentKey == IssuedKey(year, 2)
    ensures NextKey([b], year) == b.incidentKey
  {
    PrefixIsLikePrefix(KeyPrefix(year), PadNat(2, 6));
    assert [b][..0] == [];
  }

  // ----- fingerprints and summaries -----

  function Fingerprint(rule: String, ip: String): String {
    rule + "|" + ip
  }

  /** `f"{rule} detected from {ip} — {desc}"`. */
  function Summary(rule: String, ip: String, desc: String): String {
    rule + " detected from " + ip + " \U{2014} " + desc
  }

  /** Position of the first '|', or the length when there is none. */
  function FirstBar(s: String): (n: nat)
    ensures n <= |s| && forall i :: 0 <= i < n ==> s[i] != '|'
    ensures n < |s| ==> s[n] == '|'
  {
    if |s| == 0 || s[0] == '|' then 0 else 1 + FirstBar(s[1..])
  }

  /** Reading a fingerprint back: the rule up to the first '|', the address after it. */
  function SplitFingerprint(fp: String): (r: (String, String))
    ensures '|' !in r.0
  {
    var n := FirstBar(fp);
    (fp[..n], if n < |fp| then fp[n + 1..] else "")
  }

  lemma {:induction false} FirstBarOf(rule: String, tail: String)
    requires '|' !in rule
    ensures FirstBar(rule + "|" + tail) == |rule|
  {
    if |rule| > 0 {
      assert (rule + "|" + tail)[1..] == rule[1..] + "|" + tail;
      FirstBarOf(rule[1..], tail);
    }
  }

  /** For rule names without '|', the fingerprint determines the rule and the address. */
  lemma SplitFingerprintRoundTrip(rule: String, ip: String)
    requires '|' !in rule
    ensures SplitFingerprint(Fingerprint(rule, ip)) == (rule, ip)
  {
    FirstBarOf(rule, ip);
    var fp := Fingerprint(rule, ip);
    assert fp[..|rule|] == rule && fp[|rule| + 1..] == ip;
  }

  lemma FingerprintInjective(r1: String, ip1: String, r2: String, ip2: String)
    requires '|' !in r1 && '|' !in r2 && Fingerprint(r1, ip1) == Fingerprint(r2, ip2)
    ensures r1 == r2 && ip1 == ip2
  {
    SplitFingerprintRoundTrip(r1, ip1);
    SplitFingerprintRoundTrip(r2, ip2);
  }

  /** A '|' inside a rule name lets two different identities share one fingerprint. */
  lemma FingerprintCollision()
    ensures Fingerprint("A|B", "C") == Fingerprint("A", "B|C")
  {
  }

  // ----- one alert -----

  /** `if not src_ip: continue` skips NULL and empty addresses. */
  predicate Syncable(a: Alert) {
    a.srcIp.Some? && a.srcIp.value != ""
  }

  function AlertFingerprint(a: Alert): String
    requires a.srcIp.Some?
  {
    Fingerprint(a.ruleName, a.srcIp.value)
  }

  function AlertSummary(a: Alert): String
    requires a.srcIp.Some?
  {
    Summary(a.ruleName, a.srcIp.value, a.description)
  }

  /** `SELECT ... WHERE fingerprint = ? LIMIT 1`: the first incident in table order with the
      fingerprint (NULL fingerprints never match). */
  function Find(incs: seq<Incident>, fp: String): (r: Option<nat>)
    ensures r.Some? ==> r.value < |incs| && incs[r.value].fingerprint == Some(fp)
    ensures r.Some? ==> forall j :: 0 <= j < r.value ==> incs[j].fingerprint != Some(fp)
    ensures r.None? ==> forall j :: 0 <= j < |incs| ==> incs[j].fingerprint != Some(fp)
  {
    if |incs| == 0 then None
    else if incs[0].fingerprint == Some(fp) then Some(0)
    else match Find(incs[1..], fp)
      case None => None
      case Some(k) => Some(k + 1)
  }

  /** The first row with the fingerprint is what `Find` returns. */
  lemma FindFirst(incs: seq<Incident>, fp: String, k: nat)
    requires k < |incs| && incs[k].fingerprint == Some(fp)
    requires forall j :: 0 <= j < k ==> incs[j].fingerprint != Some(fp)
    ensures Find(incs, fp) == Some(k)
  {
    var f := Find(incs, fp);
    assert f.Some? by {
      assert incs[k].fingerprint == Some(fp);
    }
  }

  /** What the loop did with one alert. */
  datatype Change = Skipped | Kept | Updated | Created

  /** The existing incident disagrees with the alert in severity or summary. */
  predicate Differs(inc: Incident, a: Alert)
    requires a.srcIp.Some?
  {
    inc.severity != a.severity || inc.summary != AlertSummary(a)
  }

  /** The row opened for an alert; `now` stands for the schema's default creation time. */
  function Opened(incs: seq<Incident>, a: Alert, year: nat, now: String): Incident
    requires a.srcIp.Some?
  {
    Incident(NextId(IncidentIds(incs)), NextKey(incs, year), now, "New", a.severity, a.srcIp,
      AlertSummary(a), a.ruleName, Some(AlertFingerprint(a)), Some(a.id))
  }

  /** The first incident with the alert's fingerprint carries the alert's severity and summary. */
  predicate Synced(incs: seq<Incident>, a: Alert) {
    Syncable(a) ==>
      var f := Find(incs, AlertFingerprint(a));
      f.Some? && incs[f.value].severity == a.severity && incs[f.value].summary == AlertSummary(a)
  }

  /** The fields the sync never writes on an existing incident. */
  predicate KeepsIdentity(before: Incident, after: Incident) {
    && after.id == before.id && after.incidentKey == before.incidentKey && after.status == before.status
    && after.createdAt == before.createdAt && after.fingerprint == before.fingerprint
    && after.sourceAlertId == before.sourceAlertId
  }

  /** One loop iteration. */
  function SyncAlert(incs: seq<Incident>, a: Alert, year: nat, now: String): (r: (seq<Incident>, Change))
    ensures !Syncable(a) ==> r == (incs, Skipped)
    ensures r.1 == Created <==> Syncable(a) && Find(incs, AlertFingerprint(a)).None?
    ensures |r.0| == |incs| + (if r.1 == Created then 1 else 0)
    ensures r.1 == Kept || r.1 == Skipped ==> r.0 == incs
  {
    if !Syncable(a) then (incs, Skipped)
    else
      var fp := AlertFingerprint(a);
      match Find(incs, fp)
      case Some(k) =>
        if Differs(incs[k], a) then
          (incs[k := incs[k].(severity := a.severity, summary := AlertSummary(a),
            ruleName := a.ruleName, primaryIp := a.srcIp)], Updated)
        else (incs, Kept)
      case None => (incs + [Opened(incs, a, year, now)], Created)
  }

  /** After its iteration, an alert with an address is reflected by the first incident of its
      fingerprint, found or opened. */
  lemma SyncAlertSynced(incs: seq<Incident>, a: Alert, year: nat, now: String)
    requires Syncable(a)
    ensures Synced(SyncAlert(incs, a, year, now).0, a)
  {
    var fp := AlertFingerprint(a);
    var r := SyncAlert(incs, a, year, now).0;
    match Find(incs, fp)
    case Some(k) => FindFirst(r, fp, k);
    case None => FindFirst(r, fp, |incs|);
  }

  /** A new incident is opened, as the last row, exactly for an address no incident fingerprints. */
  lemma SyncAlertOpens(incs: seq<Incident>, a: Alert, year: nat, now: String)
    requires Syncable(a) && Find(incs, AlertFingerprint(a)).None?
    ensures SyncAlert(incs, a, year, now).0 == incs + [Opened(incs, a, year, now)]
  {
  }

  /** The opened incident is `New`, carries the next key of the year, the fingerprint `rule|ip`,
      the alert's id as its source, the alert's severity, rule and address, and the summary; its id
      is above every existing one. */
  lemma OpenedFields(incs: seq<Incident>, a: Alert, year: nat, now: String)
    requires Syncable(a)
    ensures var x := Opened(incs, a, year, now);
      && x.status == "New" && x.incidentKey == IssuedKey(year, YearCount(incs, year) + 1)
      && x.fingerprint == Some(a.ruleName + "|" + a.srcIp.value) && x.sourceAlertId == Some(a.id)
      && x.severity == a.severity && x.primaryIp == a.srcIp && x.ruleName == a.ruleName
      && x.summary == a.ruleName + " detected from " + a.srcIp.value + " \U{2014} " + a.description
      && forall i :: 0 <= i < |incs| ==> incs[i].id < x.id
  {
    forall i | 0 <= i < |incs| ensures incs[i].id < NextId(IncidentIds(incs)) {
      assert IncidentIds(incs)[i] == incs[i].id;
    }
  }

  /** No existing incident changes id, key, status, creation time, fingerprint or source alert. */
  lemma SyncAlertFrame(incs: seq<Incident>, a: Alert, year: nat, now: String)
    ensures forall i :: 0 <= i < |incs| ==> KeepsIdentity(incs[i], SyncAlert(incs, a, year, now).0[i])
  {
  }

  /** An update touches only the first incident of the fingerprint, when it disagrees with the alert,
      and rewrites its rule and address; agreement leaves everything as it was. */
  lemma SyncAlertUpdates(incs: seq<Incident>, a: Alert, year: nat, now: String)
    requires Syncable(a) && Find(incs, AlertFingerprint(a)).Some?
    ensures var r := SyncAlert(incs, a, year, now); var k := Find(incs, AlertFingerprint(a)).value;
      && (r.1 == Updated <==> Differs(incs[k], a))
      && (r.1 == Updated ==> r.0[k].ruleName == a.ruleName && r.0[k].primaryIp == a.srcIp)
      && forall j :: 0 <= j < |incs| && j != k ==> r.0[j] == incs[j]
  {
    var k := Find(incs, AlertFingerprint(a)).value;
    if Differs(incs[k], a) {
      var u := incs[k := incs[k].(severity := a.severity, summary := AlertSummary(a),
        ruleName := a.ruleName, primaryIp := a.srcIp)];
      assert SyncAlert(incs, a, year, now) == (u, Updated);
    } else {
      assert SyncAlert(incs, a, year, now) == (incs, Kept);
    }
  }

  // ----- the pass -----

  datatype SyncOutput = SyncOutput(incidents: seq<Incident>, created: nat, updated: nat)

  /** The loop over all alerts in id order. */
  function Sync(incs: seq<Incident>, alerts: seq<Alert>, year: nat, now: String): (r: SyncOutput)
    ensures |incs| <= |r.incidents| && r.created == |r.incidents| - |incs|
    ensures forall i :: 0 <= i < |incs| ==> KeepsIdentity(incs[i], r.incidents[i])
    ensures r.updated <= |alerts| && r.created <= |alerts|
  {
    if |alerts| == 0 then SyncOutput(incs, 0, 0)
    else
      var p := Sync(incs, alerts[..|alerts| - 1], year, now);
      var (next, ch) := SyncAlert(p.incidents, alerts[|alerts| - 1], year, now);
      SyncAlertFrame(p.incidents, alerts[|alerts| - 1], year, now);
      SyncOutput(next, p.created + (if ch == Created then 1 else 0), p.updated + (if ch == Updated then 1 else 0))
  }

  // ----- properties of the pass -----

  lemma {:induction false} YearCountSameKeys(a: seq<Incident>, b: seq<Incident>, year: nat)
    requires |a| == |b| && forall i :: 0 <= i < |a| ==> a[i].incidentKey == b[i].incidentKey
    ensures YearCount(a, year) == YearCount(b, year)
  {
    if |a| > 0 {
      YearCountSameKeys(a[..|a| - 1], b[..|b| - 1], year);
    }
  }

  /** One alert adds to the year's count exactly when it opens an incident, whose key is then the
      next number; existing keys stay. */
  lemma KeyStep(incs: seq<Incident>, a: Alert, year: nat, now: String)
    ensures var r := SyncAlert(incs, a, year, now);
      && YearCount(r.0, year) == YearCount(incs, year) + (if r.1 == Created then 1 else 0)
      && (forall i :: 0 <= i < |incs| ==> r.0[i].incidentKey == incs[i].incidentKey)
      && (r.1 == Created ==> r.0[|incs|].incidentKey == IssuedKey(year, YearCount(incs, year) + 1))
  {
    var (next, ch) := SyncAlert(incs, a, year, now);
    SyncAlertFrame(incs, a, year, now);
    if ch == Created {
      assert next[..|next| - 1] == incs;
      PrefixIsLikePrefix(KeyPrefix(year), PadNat(YearCount(incs, year) + 1, 6));
    } else {
      YearCountSameKeys(next, incs, year);
    }
  }

  /** The rows `r` added after `incs` carry the keys numbered `c + 1`, `c + 2`, ... in order. */
  predicate NumberedFrom(incs: seq<Incident>, r: SyncOutput, c: nat, year: nat) {
    && |r.incidents| == |incs| + r.created
    && forall i :: |incs| <= i < |r.incidents| ==> r.incidents[i].incidentKey == IssuedKey(year, c + (i - |incs|) + 1)
  }

  /** The year's count after a pass grows by the number created, and the incident opened k-th
      (from 0) carries the year's number count + k + 1. */
  predicate KeysAfter(incs: seq<Incident>, r: SyncOutput, year: nat) {
    && YearCount(r.incidents, year) == YearCount(incs, year) + r.created
    && NumberedFrom(incs, r, YearCount(incs, year), year)
  }

  /** The last alert of a pass keeps the keys in sequence. */
  lemma KeyLastStep(incs: seq<Incident>, alerts: seq<Alert>, year: nat, now: String)
    requires |alerts| > 0 && KeysAfter(incs, Sync(incs, alerts[..|alerts| - 1], year, now), year)
    ensures KeysAfter(incs, Sync(incs, alerts, year, now), year)
  {
    var p := Sync(incs, alerts[..|alerts| - 1], year, now);
    var st := SyncAlert(p.incidents, alerts[|alerts| - 1], year, now);
    KeyStep(p.incidents, alerts[|alerts| - 1], year, now);
    NumberedStep(incs, p, st.0, st.1 == Created, Sync(incs, alerts, year, now), YearCount(incs, year),
      YearCount(p.incidents, year), year);
  }

  lemma NumberedStep(incs: seq<Incident>, p: SyncOutput, next: seq<Incident>, created: bool, r: SyncOutput,
                     c: nat, yp: nat, year: nat)
    requires NumberedFrom(incs, p, c, year) && yp == c + p.created
    requires |next| == |p.incidents| + (if created then 1 else 0)
    requires forall i :: 0 <= i < |p.incidents| ==> next[i].incidentKey == p.incidents[i].incidentKey
    requires created ==> next[|p.incidents|].incidentKey == IssuedKey(year, yp + 1)
    requires r.incidents == next && r.created == p.created + (if created then 1 else 0)
    ensures NumberedFrom(incs, r, c, year)
  {
    forall i | |incs| <= i < |next| ensures next[i].incidentKey == IssuedKey(year, c + (i - |incs|) + 1) {
      if i < |p.incidents| {
        assert next[i].incidentKey == p.incidents[i].incidentKey;
      }
    }
  }

  /** The keys opened in one pass are the next numbers of the year, in order, and the year's count
      grows by the number created. */
  lemma {:induction false} SyncKeysConsecutive(incs: seq<Incident>, alerts: seq<Alert>, year: nat, now: String)
    ensures KeysAfter(incs, Sync(incs, alerts, year, now), year)
  {
    if |alerts| > 0 {
      SyncKeysConsecutive(incs, alerts[..|alerts| - 1], year, now);
      KeyLastStep(incs, alerts, year, now);
    }
  }

  /** No two incidents share a fingerprint (legacy rows without one are exempt). */
  predicate UniqueFingerprints(incs: seq<Incident>) {
    forall i, j :: 0 <= i < j < |incs| && incs[i].fingerprint.Some? ==> incs[i].fingerprint != incs[j].fingerprint
  }

  lemma SyncAlertKeepsUnique(incs: seq<Incident>, a: Alert, year: nat, now: String)
    requires UniqueFingerprints(incs)
    ensures UniqueFingerprints(SyncAlert(incs, a, year, now).0)
  {
    var (r, ch) := SyncAlert(incs, a, year, now);
    forall i, j | 0 <= i < j < |r| && r[i].fingerprint.Some? ensures r[i].fingerprint != r[j].fingerprint {
      if j < |incs| {
        assert r[i].fingerprint == incs[i].fingerprint && r[j].fingerprint == incs[j].fingerprint;
      } else {
        assert r[i].fingerprint == incs[i].fingerprint;
      }
    }
  }

  /** Starting from unique fingerprints, a pass leaves at most one incident per fingerprint. */
  lemma {:induction false} SyncKeepsUnique(incs: seq<Incident>, alerts: seq<Alert>, year: nat, now: String)
    requires UniqueFingerprints(incs)
    ensures UniqueFingerprints(Sync(incs, alerts, year, now).incidents)
  {
    if |alerts| > 0 {
      SyncKeepsUnique(incs, alerts[..|alerts| - 1], year, now);
      SyncAlertKeepsUnique(Sync(incs, alerts[..|alerts| - 1], year, now).incidents, alerts[|alerts| - 1], year, now);
    }
  }

  /** No two alerts with an address share a fingerprint, as when rule names contain no '|' and
      the alerts carry the unique (rule, address) index. */
  predicate DistinctFingerprints(alerts: seq<Alert>) {
    forall i, j :: 0 <= i < j < |alerts| && Syncable(alerts[i]) && Syncable(alerts[j]) ==>
      AlertFingerprint(alerts[i]) != AlertFingerprint(alerts[j])
  }

  /** Handling one alert does not disturb an incident already in step with another alert. */
  lemma SyncedPreserved(incs: seq<Incident>, a: Alert, b: Alert, year: nat, now: String)
    requires Syncable(b) && Synced(incs, b)
    requires Syncable(a) ==> AlertFingerprint(a) != AlertFingerprint(b)
    ensures Synced(SyncAlert(incs, a, year, now).0, b)
  {
    var (next, ch) := SyncAlert(incs, a, year, now);
    var fp := AlertFingerprint(b);
    var f := Find(incs, fp).value;
    SyncAlertFrame(incs, a, year, now);
    FindFirst(next, fp, f);
    if ch == Updated {
      SyncAlertUpdates(incs, a, year, now);
      var k := Find(incs, AlertFingerprint(a)).value;
      assert incs[k].fingerprint != incs[f].fingerprint;
    }
  }

  /** After a pass, every alert with an address is reflected by the first incident of its
      fingerprint. */
  lemma {:induction false} SyncEstablishes(incs: seq<Incident>, alerts: seq<Alert>, year: nat, now: String)
    requires DistinctFingerprints(alerts)
    ensures forall k :: 0 <= k < |alerts| ==> Synced(Sync(incs, alerts, year, now).incidents, alerts[k])
  {
    if |alerts| > 0 {
      var init := alerts[..|alerts| - 1];
      var a := alerts[|alerts| - 1];
      assert DistinctFingerprints(init) by {
        assert forall i :: 0 <= i < |init| ==> init[i] == alerts[i];
      }
      SyncEstablishes(incs, init, year, now);
      var p := Sync(incs, init, year, now).incidents;
      forall k | 0 <= k < |alerts| ensures Synced(SyncAlert(p, a, year, now).0, alerts[k]) {
        if k < |alerts| - 1 && Syncable(alerts[k]) {
          assert alerts[k] == init[k];
          SyncedPreserved(p, a, alerts[k], year, now);
        } else if Syncable(a) {
          SyncAlertSynced(p, a, year, now);
        }
      }
    }
  }

  /** A pass over alerts the incidents already reflect creates and updates nothing. */
  lemma {:induction false} SyncOfSyncedIsNoop(incs: seq<Incident>, alerts: seq<Alert>, year: nat, now: String)
    requires forall k :: 0 <= k < |alerts| ==> Synced(incs, alerts[k])
    ensures Sync(incs, alerts, year, now) == SyncOutput(incs, 0, 0)
  {
    if |alerts| > 0 {
      SyncOfSyncedIsNoop(incs, alerts[..|alerts| - 1], year, now);
      assert Synced(incs, alerts[|alerts| - 1]);
    }
  }

  /** A second pass over the same alerts creates and updates nothing. */
  lemma SecondPassChangesNothing(incs: seq<Incident>, alerts: seq<Alert>, year: nat, now: String, year2: nat, now2: String)
    requires DistinctFingerprints(alerts)
    ensures var first := Sync(incs, alerts, year, now).incidents;
      Sync(first, alerts, year2, now2) == SyncOutput(first, 0, 0)
  {
    SyncEstablishes(incs, alerts, year, now);
    SyncOfSyncedIsNoop(Sync(incs, alerts, year, now).incidents, alerts, year2, now2);
  }
}

=== FILE: maintenance.dfy ===
/** The one-off maintenance scripts: collapsing duplicate alerts before the unique index on
    `(rule_name, src_ip)` is created, and deleting legacy incidents that have no fingerprint. */
module Maintenance {
  import opened Base
  import opened Text
  import opened Records
  import Detection
  import IncidentSync

  // ----- alert deduplication -----

  /** `GROUP BY rule_name, src_ip`: grouping compares NULL addresses as equal, so all alerts of a
      rule without an address form one group. */
  predicate InGroup(a: Alert, rule: String, ip: Option<String>) {
    a.ruleName == rule && a.srcIp == ip
  }

  /** `MAX(id)` over one group; 0 for a group without rows. */
  function GroupMax(alerts: seq<Alert>, rule: String, ip: Option<String>): (m: nat)
    ensures forall i :: 0 <= i < |alerts| && InGroup(alerts[i], rule, ip) ==> alerts[i].id <= m
  {
    if |alerts| == 0 then 0
    else
      var p := GroupMax(alerts[..|alerts| - 1], rule, ip);
      var a := alerts[|alerts| - 1];
      assert forall i :: 0 <= i < |alerts| - 1 ==> alerts[i] == alerts[..|alerts| - 1][i];
      if InGroup(a, rule, ip) && a.id > p then a.id else p
  }

  /** A non-empty group's maximum is the id of one of its rows. */
  lemma {:induction false} GroupMaxAttained(alerts: seq<Alert>, rule: String, ip: Option<String>, k: nat)
    requires k < |alerts| && InGroup(alerts[k], rule, ip)
    ensures exists i :: 0 <= i < |alerts| && InGroup(alerts[i], rule, ip) && alerts[i].id == GroupMax(alerts, rule, ip)
  {
    var pre := alerts[..|alerts| - 1];
    var a := alerts[|alerts| - 1];
    var m := GroupMax(alerts, rule, ip);
    if InGroup(a, rule, ip) && a.id == m {
    } else if k == |alerts| - 1 {
      assert a.id <= GroupMax(pre, rule, ip);
      if |pre| > 0 {
        assert pre[0] == alerts[0];
      }
      PrefixAttained(alerts, rule, ip);
    } else {
      assert pre[k] == alerts[k];
      GroupMaxAttained(pre, rule, ip, k);
      var i :| 0 <= i < |pre| && InGroup(pre[i], rule, ip) && pre[i].id == GroupMax(pre, rule, ip);
      assert alerts[i] == pre[i];
    }
  }

  /** When the last row is in the group but does not exceed the prefix's maximum, the prefix already
      holds a row reaching it. */
  lemma {:induction false} PrefixAttained(alerts: seq<Alert>, rule: String, ip: Option<String>)
    requires |alerts| > 0 && InGroup(alerts[|alerts| - 1], rule, ip)
    requires alerts[|alerts| - 1].id <= GroupMax(alerts[..|alerts| - 1], rule, ip)
    ensures exists i :: 0 <= i < |alerts| && InGroup(alerts[i], rule, ip) && alerts[i].id == GroupMax(alerts, rule, ip)
  {
    var pre := alerts[..|alerts| - 1];
    var a := alerts[|alerts| - 1];
    if GroupMax(pre, rule, ip) == a.id {
    } else {
      var p := GroupMax(pre, rule, ip);
      assert p > a.id >= 0;
      assert p > 0;
      PositiveMaxAttained(pre, rule, ip);
      var i :| 0 <= i < |pre| && InGroup(pre[i], rule, ip) && pre[i].id == p;
      assert alerts[i] == pre[i];
    }
  }

  /** A positive maximum is the id of some row of the group. */
  lemma {:induction false} PositiveMaxAttained(alerts: seq<Alert>, rule: String, ip: Option<String>)
    requires GroupMax(alerts, rule, ip) > 0
    ensures exists i :: 0 <= i < |alerts| && InGroup(alerts[i], rule, ip) && alerts[i].id == GroupMax(alerts, rule, ip)
  {
    var pre := alerts[..|alerts| - 1];
    var a := alerts[|alerts| - 1];
    if InGroup(a, rule, ip) && a.id == GroupMax(alerts, rule, ip) {
    } else {
      PositiveMaxAttained(pre, rule, ip);
      var i :| 0 <= i < |pre| && InGroup(pre[i], rule, ip) && pre[i].id == GroupMax(pre, rule, ip);
      assert alerts[i] == pre[i];
    }
  }

  /** `SELECT MAX(id) FROM alerts GROUP BY rule_name, src_ip`, one entry per row's group. */
  function MaxIds(alerts: seq<Alert>): (r: seq<nat>)
    ensures |r| == |alerts|
  {
    seq(|alerts|, i requires 0 <= i < |alerts| => GroupMax(alerts, alerts[i].ruleName, alerts[i].srcIp))
  }

  /** The rows whose id is in `keep`, in table order. */
  function KeepIds(s: seq<Alert>, keep: seq<nat>): (r: seq<Alert>)
    ensures forall a :: a in r <==> a in s && a.id in keep
  {
    if |s| == 0 then []
    else
      var pre := KeepIds(s[..|s| - 1], keep);
      var a := s[|s| - 1];
      assert s == s[..|s| - 1] + [a];
      if a.id in keep then pre + [a] else pre
  }

  /** `DELETE FROM alerts WHERE id NOT IN (SELECT MAX(id) ... GROUP BY rule_name, src_ip)`. */
  function Dedup(alerts: seq<Alert>): seq<Alert> {
    KeepIds(alerts, MaxIds(alerts))
  }

  /** Filtering keeps the table in id order. */
  lemma {:induction false} KeepIdsAscending(s: seq<Alert>, keep: seq<nat>)
    requires Ascending(AlertIds(s))
    ensures Ascending(AlertIds(KeepIds(s, keep)))
  {
    if |s| > 0 {
      var pre := s[..|s| - 1];
      var a := s[|s| - 1];
      assert Ascending(AlertIds(pre)) by {
        forall i, j | 0 <= i < j < |pre| ensures AlertIds(pre)[i] < AlertIds(pre)[j] {
          assert AlertIds(s)[i] < AlertIds(s)[j];
        }
      }
      KeepIdsAscending(pre, keep);
      var r := KeepIds(s, keep);
      var p := KeepIds(pre, keep);
      if a.id in keep {
        forall i, j | 0 <= i < j < |r| ensures AlertIds(r)[i] < AlertIds(r)[j] {
          if j < |p| {
            assert AlertIds(p)[i] < AlertIds(p)[j];
          } else {
            assert r[i] in pre;
            var k :| 0 <= k < |pre| && pre[k] == r[i];
            assert AlertIds(s)[k] < AlertIds(s)[|s| - 1];
          }
        }
      }
    }
  }

  /** Ids strictly increase along the table, so a row is determined by its id. */
  lemma SameIdSameRow(alerts: seq<Alert>, i: nat, j: nat)
    requires Ascending(AlertIds(alerts))
    requires i < |alerts| && j < |alerts| && alerts[i].id == alerts[j].id
    ensures i == j
  {
    assert AlertIds(alerts)[i] == alerts[i].id && AlertIds(alerts)[j] == alerts[j].id;
  }

  /** With unique ids, an id is among the group maxima exactly when it is its own group's maximum. */
  lemma MaxIdsOwnGroup(alerts: seq<Alert>, k: nat)
    requires Ascending(AlertIds(alerts)) && k < |alerts|
    ensures alerts[k].id in MaxIds(alerts) <==> alerts[k].id == GroupMax(alerts, alerts[k].ruleName, alerts[k].srcIp)
  {
    var a := alerts[k];
    if a.id in MaxIds(alerts) {
      var g :| 0 <= g < |alerts| && MaxIds(alerts)[g] == a.id;
      var b := alerts[g];
      GroupMaxAttained(alerts, b.ruleName, b.srcIp, g);
      var c :| 0 <= c < |alerts| && InGroup(alerts[c], b.ruleName, b.srcIp) && alerts[c].id == GroupMax(alerts, b.ruleName, b.srcIp);
      SameIdSameRow(alerts, c, k);
    } else {
      assert MaxIds(alerts)[k] == GroupMax(alerts, a.ruleName, a.srcIp);
    }
  }

  /** The survivors are exactly the rows holding their group's largest id, unmodified. */
  lemma DedupKeepsGroupMax(alerts: seq<Alert>)
    requires Ascending(AlertIds(alerts))
    ensures forall a :: a in Dedup(alerts) <==> a in alerts && a.id == GroupMax(alerts, a.ruleName, a.srcIp)
  {
    forall a ensures a in Dedup(alerts) <==> a in alerts && a.id == GroupMax(alerts, a.ruleName, a.srcIp) {
      if a in alerts {
        var k :| 0 <= k < |alerts| && alerts[k] == a;
        MaxIdsOwnGroup(alerts, k);
      }
    }
  }

  /** Afterwards no two rows share a group, counting the rows without an address as one group. */
  lemma DedupOnePerGroup(alerts: seq<Alert>)
    requires Ascending(AlertIds(alerts))
    ensures var r := Dedup(alerts);
      forall i, j :: 0 <= i < j < |r| ==> !InGroup(r[j], r[i].ruleName, r[i].srcIp)
  {
    var r := Dedup(alerts);
    DedupKeepsGroupMax(alerts);
    KeepIdsAscending(alerts, MaxIds(alerts));
    forall i, j | 0 <= i < j < |r| ensures !InGroup(r[j], r[i].ruleName, r[i].srcIp) {
      assert r[i] in r && r[j] in r;
      assert AlertIds(r)[i] < AlertIds(r)[j];
    }
  }

  /** Every group present before keeps a row, and that row's id is at least any id the group had. */
  lemma DedupKeepsEveryGroup(alerts: seq<Alert>)
    requires Ascending(AlertIds(alerts))
    ensures var r := Dedup(alerts);
      forall i :: 0 <= i < |alerts| ==>
        exists j :: 0 <= j < |r| && InGroup(r[j], alerts[i].ruleName, alerts[i].srcIp) && r[j].id >= alerts[i].id
  {
    var r := Dedup(alerts);
    DedupKeepsGroupMax(alerts);
    forall i | 0 <= i < |alerts|
      ensures exists j :: 0 <= j < |r| && InGroup(r[j], alerts[i].ruleName, alerts[i].srcIp) && r[j].id >= alerts[i].id
    {
      var a := alerts[i];
      GroupMaxAttained(alerts, a.ruleName, a.srcIp, i);
      var c :| 0 <= c < |alerts| && InGroup(alerts[c], a.ruleName, a.srcIp) && alerts[c].id == GroupMax(alerts, a.ruleName, a.srcIp);
      assert alerts[c] in r;
      var j :| 0 <= j < |r| && r[j] == alerts[c];
    }
  }

  /** A group's maximum in a subset of the rows that still holds the maximum row is unchanged. */
  lemma {:induction false} GroupMaxOfSubset(sub: seq<Alert>, alerts: seq<Alert>, a: Alert)
    requires forall b :: b in sub ==> b in alerts
    requires a in sub && a.id == GroupMax(alerts, a.ruleName, a.srcIp)
    ensures GroupMax(sub, a.ruleName, a.srcIp) == a.id
  {
    var k :| 0 <= k < |sub| && sub[k] == a;
    GroupMaxAttained(sub, a.ruleName, a.srcIp, k);
    var c :| 0 <= c < |sub| && InGroup(sub[c], a.ruleName, a.srcIp) && sub[c].id == GroupMax(sub, a.ruleName, a.srcIp);
    assert sub[c] in alerts;
    var d :| 0 <= d < |alerts| && alerts[d] == sub[c];
  }

  /** Filtering with a set that admits every row returns the table itself. */
  lemma {:induction false} KeepIdsAll(s: seq<Alert>, keep: seq<nat>)
    requires forall i :: 0 <= i < |s| ==> s[i].id in keep
    ensures KeepIds(s, keep) == s
  {
    if |s| > 0 {
      KeepIdsAll(s[..|s| - 1], keep);
      assert s == s[..|s| - 1] + [s[|s| - 1]];
    }
  }

  /** Running the dedup again deletes nothing. */
  lemma DedupIdempotent(alerts: seq<Alert>)
    requires Ascending(AlertIds(alerts))
    ensures Dedup(Dedup(alerts)) == Dedup(alerts)
    ensures |Dedup(Dedup(alerts))| == |Dedup(alerts)|
  {
    var r := Dedup(alerts);
    DedupKeepsGroupMax(alerts);
    forall i | 0 <= i < |r| ensures r[i].id in MaxIds(r) {
      assert r[i] in r;
      GroupMaxOfSubset(r, alerts, r[i]);
      assert MaxIds(r)[i] == r[i].id;
    }
    KeepIdsAll(r, MaxIds(r));
  }

  /** `CREATE UNIQUE INDEX ... ON alerts(rule_name, src_ip)`: refused when two rows share a rule
      and a non-NULL address (the index treats NULLs as distinct). */
  function CreateUniqueIndex(alerts: seq<Alert>): (r: Result<seq<Alert>, String>)
    ensures r.Ok? <==> Detection.UniqueKeys(alerts)
    ensures r.Ok? ==> r.value == alerts
  {
    if Detection.UniqueKeys(alerts) then Ok(alerts)
    else Err("UNIQUE constraint failed: alerts.rule_name, alerts.src_ip")
  }

  /** Two rows with the same rule and the same non-NULL address make the creation fail. */
  lemma IndexRefusesDuplicate(alerts: seq<Alert>, i: nat, j: nat)
    requires i < j < |alerts| && alerts[i].ruleName == alerts[j].ruleName
    requires alerts[i].srcIp.Some? && alerts[i].srcIp == alerts[j].srcIp
    ensures CreateUniqueIndex(alerts).Err?
  {
  }

  /** Once the index exists, a detection run's upserts keep every identity single, so the table
      stays one the index accepts: `ON CONFLICT` updates instead of inserting a second row. */
  lemma IndexSurvivesDetection(spec: Detection.RuleSpec, events: seq<Event>, alerts: seq<Alert>, now: String)
    requires CreateUniqueIndex(alerts).Ok?
    ensures CreateUniqueIndex(Detection.Run(spec, events, alerts, now).0).Ok?
  {
    Detection.ApplyKeepsUnique(spec, alerts, Detection.Groups(spec, events), now);
  }

  /** The script: deduplicate, then create the index. */
  function AddAlertIndex(alerts: seq<Alert>): Result<seq<Alert>, String> {
    CreateUniqueIndex(Dedup(alerts))
  }

  /** On a table with unique ids the index is always created, over the deduplicated rows, which
      stay in id order. */
  lemma AddAlertIndexSucceeds(alerts: seq<Alert>)
    requires Ascending(AlertIds(alerts))
    ensures AddAlertIndex(alerts) == Ok(Dedup(alerts))
    ensures Ascending(AlertIds(Dedup(alerts)))
  {
    DedupOnePerGroup(alerts);
    KeepIdsAscending(alerts, MaxIds(alerts));
  }

  // ----- legacy incident cleanup -----

  /** A row from before fingerprints existed. */
  predicate Legacy(x: Incident) {
    x.fingerprint.None?
  }

  /** `DELETE FROM incidents WHERE fingerprint IS NULL`, with the cursor's `rowcount`. */
  function Cleanup(incs: seq<Incident>): (r: (seq<Incident>, nat))
    ensures forall x :: x in r.0 <==> x in incs && !Legacy(x)
    ensures |r.0| + r.1 == |incs|
  {
    if |incs| == 0 then ([], 0)
    else
      var (kept, deleted) := Cleanup(incs[..|incs| - 1]);
      var x := incs[|incs| - 1];
      assert incs == incs[..|incs| - 1] + [x];
      if Legacy(x) then (kept, deleted + 1) else (kept + [x], deleted)
  }

  /** The legacy rows of a table, in order. */
  function LegacyRows(incs: seq<Incident>): (r: seq<Incident>)
    ensures forall x :: x in r <==> x in incs && Legacy(x)
  {
    if |incs| == 0 then []
    else
      var x := incs[|incs| - 1];
      assert incs == incs[..|incs| - 1] + [x];
      LegacyRows(incs[..|incs| - 1]) + (if Legacy(x) then [x] else [])
  }

  /** The reported count is the number of legacy rows there were. */
  lemma {:induction false} CleanupCountsLegacy(incs: seq<Incident>)
    ensures Cleanup(incs).1 == |LegacyRows(incs)|
  {
    if |incs| > 0 {
      CleanupCountsLegacy(incs[..|incs| - 1]);
    }
  }

  /** The kept rows stay in id order. */
  lemma {:induction false} CleanupKeepsOrder(incs: seq<Incident>)
    requires Ascending(IncidentIds(incs))
    ensures Ascending(IncidentIds(Cleanup(incs).0))
  {
    if |incs| > 0 {
      var pre := incs[..|incs| - 1];
      var x := incs[|incs| - 1];
      assert Ascending(IncidentIds(pre)) by {
        forall i, j | 0 <= i < j < |pre| ensures IncidentIds(pre)[i] < IncidentIds(pre)[j] {
          assert IncidentIds(incs)[i] < IncidentIds(incs)[j];
        }
      }
      CleanupKeepsOrder(pre);
      var r := Cleanup(incs).0;
      var p := Cleanup(pre).0;
      if !Legacy(x) {
        forall i, j | 0 <= i < j < |r| ensures IncidentIds(r)[i] < IncidentIds(r)[j] {
          if j < |p| {
            assert IncidentIds(p)[i] < IncidentIds(p)[j];
          } else {
            assert r[i] in pre;
            var k :| 0 <= k < |pre| && pre[k] == r[i];
            assert IncidentIds(incs)[k] < IncidentIds(incs)[|incs| - 1];
          }
        }
      }
    }
  }

  /** A second cleanup deletes nothing and keeps every row. */
  lemma {:induction false} CleanupIdempotent(incs: seq<Incident>)
    ensures Cleanup(Cleanup(incs).0) == (Cleanup(incs).0, 0)
  {
    var r := Cleanup(incs).0;
    CleanupOfModern(r);
  }

  lemma {:induction false} CleanupOfModern(incs: seq<Incident>)
    requires forall i :: 0 <= i < |incs| ==> !Legacy(incs[i])
    ensures Cleanup(incs) == (incs, 0)
  {
    if |incs| > 0 {
      CleanupOfModern(incs[..|incs| - 1]);
      assert incs == incs[..|incs| - 1] + [incs[|incs| - 1]];
    }
  }

  /** Deleting the year's first incident as legacy makes the next key repeat the surviving second
      one: key numbering counts rows, so cleanup can reissue a key. */
  lemma CleanupReissuesKey(a: Incident, b: Incident, year: nat)
    requires Legacy(a) && !Legacy(b)
    requires a.incidentKey == IncidentSync.IssuedKey(year, 1) && b.incidentKey == IncidentSync.IssuedKey(year, 2)
    ensures Cleanup([a, b]) == ([b], 1)
    ensures IncidentSync.NextKey(Cleanup([a, b]).0, year) == b.incidentKey
  {
    var s := [a, b];
    assert [a][..0] == [];
    assert Cleanup([a]) == ([], 1);
    assert s[..|s| - 1] == [a] && s[|s| - 1] == b;
    assert Cleanup(s) == ([] + [b], 1);
    assert [] + [b] == [b];
    IncidentSync.KeyReissuedAfterDeletion(b, year);
  }
}

=== FILE: nginx_log.dfy ===
/** The nginx access-log parser: the combined-format line pattern, the message it stores, and the
    per-line decision of the nginx_access.log pass. */
module NginxLog {
  import opened Base
  import opened Text
  import opened Records
  import opened Scan
  import opened ParsePass

  /** A `NGINX_RE` match: the named groups, plus the two unnamed `\S+` fields after the address. */
  datatype AccessLine = AccessLine(
    ip: String, ident: String, authUser: String, ts: String,
    verb: String, path: String, proto: String,
    status: String, size: String, referer: String, ua: String)

  /** `^(?P<ip>\S+)\s+\S+\s+\S+\s+\[(?P<ts>[^\]]+)\]`: the client fields and the bracketed time. */
  function MatchClient(s: String): (r: Option<(String, String, String, String, String)>)
  {
    var ip :- Plus(s, NonSpace);
    var a :- Plus(ip.rest, Space);
    var ident :- Plus(a.rest, NonSpace);
    var b :- Plus(ident.rest, Space);
    var user :- Plus(b.rest, NonSpace);
    var c :- Plus(user.rest, Space);
    var o :- Lit(c.rest, "[");
    var ts :- Plus(o, Not(']'));
    var e :- Lit(ts.rest, "]");
    Some((ip.text, ident.text, user.text, ts.text, e))
  }

  /** `\s+(?P<proto>[^"]+)"`. The class of `proto` includes whitespace, so when no other character
      comes before the quote the regex gives the last whitespace character of the run back to
      `proto`; that needs a run of at least two. */
  function MatchProto(s: String): (r: Option<(String, String)>)
  {
    var sp :- Plus(s, Space);
    var run := Star(sp.rest, Not('"'));
    if |run.text| > 0 then
      var q :- Lit(run.rest, "\"");
      Some((run.text, q))
    else if |sp.text| >= 2 then
      var q :- Lit(sp.rest, "\"");
      Some(([sp.text[|sp.text| - 1]], q))
    else None
  }

  /** `\s+"(?P<method>\S+)\s+(?P<path>\S+)` followed by the protocol and its closing quote. */
  function MatchRequest(s: String): (r: Option<(String, String, String, String)>)
  {
    var a :- Plus(s, Space);
    var q :- Lit(a.rest, "\"");
    var verb :- Plus(q, NonSpace);
    var b :- Plus(verb.rest, Space);
    var path :- Plus(b.rest, NonSpace);
    var (proto, rest) :- MatchProto(path.rest);
    Some((verb.text, path.text, proto, rest))
  }

  /** `\s+(?P<status>\d{3})\s+(?P<size>\S+)\s+"(?P<ref>[^"]*)"\s+"(?P<ua>[^"]*)"`; the rest of the
      line is ignored. */
  function MatchResponse(s: String): (r: Option<(String, String, String, String)>)
    ensures r.Some? ==> |r.value.0| == 3 && AllDigits(r.value.0)
  {
    var a :- Plus(s, Space);
    var status :- Exactly(a.rest, Digit, 3);
    var b :- Plus(status.rest, Space);
    var size :- Plus(b.rest, NonSpace);
    var c :- Plus(size.rest, Space);
    var q1 :- Lit(c.rest, "\"");
    var referer := Star(q1, Not('"'));
    var q2 :- Lit(referer.rest, "\"");
    var d :- Plus(q2, Space);
    var q3 :- Lit(d.rest, "\"");
    var ua := Star(q3, Not('"'));
    var _ :- Lit(ua.rest, "\"");
    Some((status.text, size.text, referer.text, ua.text))
  }

  /** `NGINX_RE.match`. */
  function MatchAccess(line: String): (r: Option<AccessLine>)
    ensures r.Some? ==> |r.value.status| == 3 && AllDigits(r.value.status)
  {
    var (ip, ident, user, ts, s1) :- MatchClient(line);
    var (verb, path, proto, s2) :- MatchRequest(s1);
    var (status, size, referer, ua) :- MatchResponse(s2);
    Some(AccessLine(ip, ident, user, ts, verb, path, proto, status, size, referer, ua))
  }

  // ----- canonical line text -----

  predicate NonEmptyIn(s: String, k: CharClass) {
    |s| > 0 && AllIn(s, k)
  }

  /** The fields a line written by `AccessText` must have for the pattern to read them back. */
  predicate WfAccess(x: AccessLine) {
    && NonEmptyIn(x.ip, NonSpace) && NonEmptyIn(x.ident, NonSpace) && NonEmptyIn(x.authUser, NonSpace)
    && NonEmptyIn(x.ts, Not(']'))
    && NonEmptyIn(x.verb, NonSpace) && NonEmptyIn(x.path, NonSpace)
    && NonEmptyIn(x.proto, Not('"')) && !IsSpace(x.proto[0])
    && |x.status| == 3 && AllDigits(x.status) && NonEmptyIn(x.size, NonSpace)
    && AllIn(x.referer, Not('"')) && AllIn(x.ua, Not('"'))
  }

  function ClientText(ip: String, ident: String, user: String, ts: String, tail: String): String {
    ip + (" " + (ident + (" " + (user + (" " + ("[" + (ts + ("]" + tail))))))))
  }

  function RequestText(verb: String, path: String, proto: String, tail: String): String {
    " " + ("\"" + (verb + (" " + (path + (" " + (proto + ("\"" + tail)))))))
  }

  function ResponseText(status: String, size: String, referer: String, ua: String, tail: String): String {
    " " + (status + (" " + (size + (" " + ("\"" + (referer + ("\"" + (" " + ("\"" + (ua + ("\"" + tail)))))))))))
  }

  /** A combined-format line written with single spaces, followed by anything. */
  function AccessText(x: AccessLine, tail: String): String {
    ClientText(x.ip, x.ident, x.authUser, x.ts,
      RequestText(x.verb, x.path, x.proto,
        ResponseText(x.status, x.size, x.referer, x.ua, tail)))
  }

  // ----- round trips -----

  lemma ClientRoundTrip(ip: String, ident: String, user: String, ts: String, tail: String)
    requires NonEmptyIn(ip, NonSpace) && NonEmptyIn(ident, NonSpace) && NonEmptyIn(user, NonSpace)
    requires NonEmptyIn(ts, Not(']'))
    ensures MatchClient(ClientText(ip, ident, user, ts, tail)) == Some((ip, ident, user, ts, tail))
  {
    var t2 := "[" + (ts + ("]" + tail));
    var t1 := user + (" " + t2);
    var t0 := ident + (" " + t1);
    PlusOf(ip, " " + t0, NonSpace);
    PlusOf(" ", t0, Space);
    PlusOf(ident, " " + t1, NonSpace);
    PlusOf(" ", t1, Space);
    PlusOf(user, " " + t2, NonSpace);
    PlusOf(" ", t2, Space);
    LitOf("[", ts + ("]" + tail));
    PlusOf(ts, "]" + tail, Not(']'));
    LitOf("]", tail);
  }

  lemma ProtoRoundTrip(proto: String, tail: String)
    requires NonEmptyIn(proto, Not('"')) && !IsSpace(proto[0])
    ensures MatchProto(" " + (proto + ("\"" + tail))) == Some((proto, tail))
  {
    PlusOf(" ", proto + ("\"" + tail), Space);
    StarOf(proto, "\"" + tail, Not('"'));
    LitOf("\"", tail);
  }

  lemma RequestRoundTrip(verb: String, path: String, proto: String, tail: String)
    requires NonEmptyIn(verb, NonSpace) && NonEmptyIn(path, NonSpace)
    requires NonEmptyIn(proto, Not('"')) && !IsSpace(proto[0])
    ensures MatchRequest(RequestText(verb, path, proto, tail)) == Some((verb, path, proto, tail))
  {
    var t1 := " " + (proto + ("\"" + tail));
    var t0 := path + t1;
    PlusOf(" ", "\"" + (verb + (" " + t0)), Space);
    LitOf("\"", verb + (" " + t0));
    PlusOf(verb, " " + t0, NonSpace);
    PlusOf(" ", t0, Space);
    PlusOf(path, t1, NonSpace);
    ProtoRoundTrip(proto, tail);
  }

  lemma ResponseRoundTrip(status: String, size: String, referer: String, ua: String, tail: String)
    requires |status| == 3 && AllDigits(status) && NonEmptyIn(size, NonSpace)
    requires AllIn(referer, Not('"')) && AllIn(ua, Not('"'))
    ensures MatchResponse(ResponseText(status, size, referer, ua, tail)) == Some((status, size, referer, ua))
  {
    var t3 := "\"" + (ua + ("\"" + tail));
    var t2 := "\"" + (referer + ("\"" + (" " + t3)));
    var t1 := size + (" " + t2);
    PlusOf(" ", status + (" " + t1), Space);
    ExactlyOf(status, " " + t1, Digit);
    PlusOf(" ", t1, Space);
    PlusOf(size, " " + t2, NonSpace);
    PlusOf(" ", t2, Space);
    LitOf("\"", referer + ("\"" + (" " + t3)));
    StarOf(referer, "\"" + (" " + t3), Not('"'));
    LitOf("\"", " " + t3);
    PlusOf(" ", t3, Space);
    LitOf("\"", ua + ("\"" + tail));
    StarOf(ua, "\"" + tail, Not('"'));
    LitOf("\"", tail);
  }

  /** `NGINX_RE` reads back every group of a line written in the combined format. */
  lemma AccessRoundTrip(x: AccessLine, tail: String)
    requires WfAccess(x)
    ensures MatchAccess(AccessText(x, tail)) == Some(x)
  {
    var t2 := ResponseText(x.status, x.size, x.referer, x.ua, tail);
    var t1 := RequestText(x.verb, x.path, x.proto, t2);
    ClientRoundTrip(x.ip, x.ident, x.authUser, x.ts, t1);
    RequestRoundTrip(x.verb, x.path, x.proto, t2);
    ResponseRoundTrip(x.status, x.size, x.referer, x.ua, tail);
  }

  /** A request with no protocol but two spaces before the closing quote still matches, with a
      single space as the protocol. */
  lemma BlankProtoBacktracks(tail: String)
    ensures MatchProto("  \"" + tail) == Some((" ", tail))
  {
    var s := "  \"" + tail;
    PlusOf("  ", "\"" + tail, Space);
    assert s == "  " + ("\"" + tail);
    StarOf([], "\"" + tail, Not('"'));
    LitOf("\"", tail);
  }

  /** With a single space before the closing quote there is nothing for the protocol, so the line
      does not match. */
  lemma EmptyProtoFails(tail: String)
    ensures MatchProto(" \"" + tail) == None
  {
    PlusOf(" ", "\"" + tail, Space);
    assert " \"" + tail == " " + ("\"" + tail);
    StarOf([], "\"" + tail, Not('"'));
  }

  // ----- the nginx_access.log pass -----

  const Source: String := "nginx_access.log"

  /** `f"Nginx {method} {path} -> {status} UA={ua}"`, where `status` went through `int()`. */
  function Message(x: AccessLine): String
    requires |x.status| == 3 && AllDigits(x.status)
  {
    "Nginx " + x.verb + " " + x.path + " -> " + Decimal(DecimalValue(x.status)) + " UA=" + x.ua
  }

  function AccessDraft(x: AccessLine, eventTime: String): Draft
    requires |x.status| == 3 && AllDigits(x.status)
  {
    Draft(eventTime, "http_access", "nginx", "web", Some(x.ip), None, "success", Message(x))
  }

  /** One loop iteration. `parseTs` stands for `parse_nginx_ts`, which depends on the host's time
      zone; `None` is the `ValueError` of `strptime`, which ends the pass. */
  function Classify(line: String, parseTs: String -> Option<String>): (r: LineOutcome)
    ensures r.Skip? <==> MatchAccess(line).None?
    ensures r.Emit? ==> r.draft.username.None? && r.draft.outcome == "success" && r.draft.host == "web"
    ensures MatchAccess(line).Some? ==>
      var x := MatchAccess(line).value;
      (r.Emit? <==> parseTs(x.ts).Some?) && (r.Emit? ==> r == Emit(AccessDraft(x, parseTs(x.ts).value)))
  {
    match MatchAccess(line)
    case None => Skip
    case Some(x) =>
      match parseTs(x.ts)
      case None => Abort(ValueError("time data '" + x.ts + "' does not match format '%d/%b/%Y:%H:%M:%S %z'"))
      case Some(t) => Emit(AccessDraft(x, t))
  }

  function Pass(st: Store, parseTs: String -> Option<String>): Result<(Store, nat), ParseError> {
    RunPass(st, Source, line => Classify(line, parseTs))
  }

  /** A combined-format line yields the event with the client address as source, no user name,
      outcome `success` whatever the status, and the message built from its groups. */
  lemma AccessLineEvent(x: AccessLine, tail: String, parseTs: String -> Option<String>)
    requires WfAccess(x) && parseTs(x.ts).Some?
    ensures Classify(AccessText(x, tail), parseTs) == Emit(AccessDraft(x, parseTs(x.ts).value))
  {
    AccessRoundTrip(x, tail);
  }

  /** The status in the message is the three-digit code as written unless it has a leading zero,
      which `int()` drops. */
  lemma MessageStatus(x: AccessLine)
    requires |x.status| == 3 && AllDigits(x.status)
    ensures x.status[0] != '0' <==> Decimal(DecimalValue(x.status)) == x.status
  {
    if x.status[0] != '0' {
      CanonicalDecimal(x.status);
    }
  }
}

=== FILE: parse_pass.dfy ===
/** What the two log parsers share: select the raw lines of one source that no event links to yet,
    in id order, classify each line, append one event per matching line, and commit only if no
    line raised. */
module ParsePass {
  import opened Base
  import opened Text
  import opened Records

  /** The Python exceptions a parser pass can raise; each ends the pass before its commit. */
  datatype ParseError = KeyError(key: String) | ValueError(message: String) | OverflowError(message: String)

  /** The event columns a parser derives from one line; the id and the raw-line link are added on insert. */
  datatype Draft = Draft(
    eventTime: String,
    eventType: String,
    product: String,
    host: String,
    srcIp: Option<String>,
    username: Option<String>,
    outcome: String,
    message: String)

  /** What one line leads to: nothing (no pattern matched), one event, or an exception. */
  datatype LineOutcome = Skip | Emit(draft: Draft) | Abort(error: ParseError)

  function MakeEvent(id: nat, rawId: nat, d: Draft): Event {
    Event(id, Some(rawId), d.eventTime, d.eventType, d.product, d.host, d.srcIp, d.username, d.outcome, d.message)
  }

  /** Ids of the raw lines some event already points at. */
  function Linked(events: seq<Event>): set<nat> {
    set e | e in events && e.rawLogId.Some? :: e.rawLogId.value
  }

  /** The rows the pass reads: lines of `source` whose id is not in `linked`, in table order. */
  function Pending(rawLogs: seq<RawLog>, linked: set<nat>, source: String): (r: seq<RawLog>)
    ensures forall x :: x in r <==> x in rawLogs && x.source == source && x.id !in linked
  {
    if |rawLogs| == 0 then []
    else
      var rest := Pending(rawLogs[1..], linked, source);
      assert forall x :: x in rawLogs <==> x == rawLogs[0] || x in rawLogs[1..];
      if rawLogs[0].source == source && rawLogs[0].id !in linked then [rawLogs[0]] + rest else rest
  }

  /** The pending rows come in ascending id order, as `ORDER BY id` delivers them. */
  lemma {:induction false} PendingInIdOrder(rawLogs: seq<RawLog>, linked: set<nat>, source: String)
    requires Ascending(RawLogIds(rawLogs))
    ensures Ascending(RawLogIds(Pending(rawLogs, linked, source)))
  {
    if |rawLogs| > 0 {
      var tl := rawLogs[1..];
      AscendingTail(rawLogs);
      PendingInIdOrder(tl, linked, source);
      var rest := Pending(tl, linked, source);
      if rawLogs[0].source == source && rawLogs[0].id !in linked {
        assert Pending(rawLogs, linked, source) == [rawLogs[0]] + rest;
        forall y | y in rest ensures rawLogs[0].id < y.id {
          var k :| 0 <= k < |tl| && tl[k] == y;
        }
        AscendingCons(rawLogs[0], rest);
      } else {
        assert Pending(rawLogs, linked, source) == rest;
      }
    }
  }

  /** Below the head of a table in id order lies a table in id order with larger ids. */
  lemma AscendingTail(rows: seq<RawLog>)
    requires |rows| > 0 && Ascending(RawLogIds(rows))
    ensures Ascending(RawLogIds(rows[1..]))
    ensures forall k :: 0 <= k < |rows| - 1 ==> rows[0].id < rows[1..][k].id
  {
    var tl := rows[1..];
    forall i, j | 0 <= i < j < |tl| ensures RawLogIds(tl)[i] < RawLogIds(tl)[j] {
      assert RawLogIds(rows)[i + 1] < RawLogIds(rows)[j + 1];
    }
    forall k | 0 <= k < |tl| ensures rows[0].id < tl[k].id {
      assert RawLogIds(rows)[0] < RawLogIds(rows)[k + 1];
    }
  }

  /** A row with a smaller id than every row of a table in id order can go in front. */
  lemma AscendingCons(x: RawLog, rows: seq<RawLog>)
    requires Ascending(RawLogIds(rows)) && forall y :: y in rows ==> x.id < y.id
    ensures Ascending(RawLogIds([x] + rows))
  {
    var r := [x] + rows;
    forall i, j | 0 <= i < j < |r| ensures RawLogIds(r)[i] < RawLogIds(r)[j] {
      assert r[j] == rows[j - 1] && r[j] in rows;
      if i > 0 {
        assert RawLogIds(rows)[i - 1] < RawLogIds(rows)[j - 1];
      }
    }
  }

  /** One emitting row: the line's id and the event columns derived from it. */
  datatype Emission = Emission(rawId: nat, draft: Draft)

  /** Reference definition of the pass's effect: the emitting rows, in order. */
  function Emitted(rows: seq<RawLog>, classify: String -> LineOutcome): (r: seq<Emission>)
    ensures |r| <= |rows|
  {
    if |rows| == 0 then []
    else
      var rest := Emitted(rows[1..], classify);
      match classify(rows[0].line)
      case Emit(d) => [Emission(rows[0].id, d)] + rest
      case _ => rest
  }

  /** The events inserted for a list of emissions, numbered consecutively from `firstId`. */
  function Build(em: seq<Emission>, firstId: nat): (r: seq<Event>)
    ensures |r| == |em|
  {
    if |em| == 0 then [] else [MakeEvent(firstId, em[0].rawId, em[0].draft)] + Build(em[1..], firstId + 1)
  }

  predicate NoAbort(rows: seq<RawLog>, classify: String -> LineOutcome) {
    forall i :: 0 <= i < |rows| ==> !classify(rows[i].line).Abort?
  }

  /** The row at index `i` raises and no earlier row does. */
  predicate FirstAbortAt(rows: seq<RawLog>, classify: String -> LineOutcome, i: int) {
    && 0 <= i < |rows|
    && classify(rows[i].line).Abort?
    && forall j :: 0 <= j < i ==> !classify(rows[j].line).Abort?
  }

  datatype PassOutput = PassOutput(events: seq<Event>, inserted: nat)

  /** Appending a row with the next id moves the next id on by one. */
  lemma NextEventId(events: seq<Event>, ev: Event)
    requires ev.id == NextId(EventIds(events))
    ensures NextId(EventIds(events + [ev])) == ev.id + 1
  {
    var ids := EventIds(events + [ev]);
    assert ids == EventIds(events) + [ev.id];
    assert ids[|events|] == ev.id;
    assert MaxId(ids) in ids;
  }

  /** Building the events of a list whose first row emits: that row's event, then the rest's. */
  lemma EmitStep(rows: seq<RawLog>, classify: String -> LineOutcome, d: Draft, n: nat)
    requires |rows| > 0 && classify(rows[0].line) == Emit(d)
    ensures Build(Emitted(rows, classify), n)
         == [MakeEvent(n, rows[0].id, d)] + Build(Emitted(rows[1..], classify), n + 1)
    ensures |Emitted(rows, classify)| == |Emitted(rows[1..], classify)| + 1
  {
    var em := Emitted(rows, classify);
    assert em == [Emission(rows[0].id, d)] + Emitted(rows[1..], classify);
    assert em[1..] == Emitted(rows[1..], classify);
  }

  lemma NoAbortCons(rows: seq<RawLog>, classify: String -> LineOutcome)
    requires |rows| > 0
    ensures NoAbort(rows, classify) <==> !classify(rows[0].line).Abort? && NoAbort(rows[1..], classify)
  {
    assert forall i :: 1 <= i < |rows| ==> rows[i] == rows[1..][i - 1];
  }

  /** The insert loop: each emitting row is appended with the next id and counted, the first
      raising row aborts the whole pass. */
  function Insert(rows: seq<RawLog>, classify: String -> LineOutcome, events: seq<Event>): (r: Result<PassOutput, ParseError>)
    ensures r.Ok? <==> NoAbort(rows, classify)
    ensures r.Ok? ==> |r.value.events| == |events| + r.value.inserted
    decreases |rows|
  {
    if |rows| == 0 then Ok(PassOutput(events, 0))
    else
      NoAbortCons(rows, classify);
      match classify(rows[0].line)
      case Skip => Insert(rows[1..], classify, events)
      case Abort(e) => Err(e)
      case Emit(d) =>
        var ev := MakeEvent(NextId(EventIds(events)), rows[0].id, d);
        var tail :- Insert(rows[1..], classify, events + [ev]);
        Ok(PassOutput(tail.events, tail.inserted + 1))
  }

  /** On success the table grows by exactly the reference events, numbered on from the next id. */
  lemma {:induction false} InsertClosedForm(rows: seq<RawLog>, classify: String -> LineOutcome, events: seq<Event>)
    requires NoAbort(rows, classify)
    ensures Insert(rows, classify, events) == Ok(PassOutput(
      events + Build(Emitted(rows, classify), NextId(EventIds(events))), |Emitted(rows, classify)|))
  {
    if |rows| == 0 {
      assert events + [] == events;
    } else {
      NoAbortCons(rows, classify);
      match classify(rows[0].line)
      case Skip =>
        InsertClosedForm(rows[1..], classify, events);
      case Emit(d) =>
        var ev := MakeEvent(NextId(EventIds(events)), rows[0].id, d);
        InsertClosedForm(rows[1..], classify, events + [ev]);
        EmitCase(rows, classify, events, d);
    }
  }

  /** The emitting step of `InsertClosedForm`, given the closed form for the remaining rows. */
  lemma EmitCase(rows: seq<RawLog>, classify: String -> LineOutcome, events: seq<Event>, d: Draft)
    requires |rows| > 0 && classify(rows[0].line) == Emit(d) && NoAbort(rows[1..], classify)
    requires
      var ev := MakeEvent(NextId(EventIds(events)), rows[0].id, d);
      Insert(rows[1..], classify, events + [ev]) == Ok(PassOutput(
        (events + [ev]) + Build(Emitted(rows[1..], classify), NextId(EventIds(events + [ev]))),
        |Emitted(rows[1..], classify)|))
    ensures Insert(rows, classify, events) == Ok(PassOutput(
      events + Build(Emitted(rows, classify), NextId(EventIds(events))), |Emitted(rows, classify)|))
  {
    var ev := MakeEvent(NextId(EventIds(events)), rows[0].id, d);
    var tail := Insert(rows[1..], classify, events + [ev]);
    var b := Build(Emitted(rows[1..], classify), ev.id + 1);
    assert Insert(rows, classify, events) == Ok(PassOutput(tail.value.events, tail.value.inserted + 1));
    NextEventId(events, ev);
    assert tail.value.events == events + ([ev] + b) by {
      assert (events + [ev]) + b == events + ([ev] + b);
    }
    EmitStep(rows, classify, d, ev.id);
  }

  /** A failing pass raises the exception of the first raising row. */
  lemma {:induction false} InsertRaisesFirst(rows: seq<RawLog>, classify: String -> LineOutcome, events: seq<Event>)
    requires Insert(rows, classify, events).Err?
    ensures exists i :: FirstAbortAt(rows, classify, i) && classify(rows[i].line) == Abort(Insert(rows, classify, events).error)
  {
    var tl := rows[1..];
    match classify(rows[0].line)
    case Abort(e) =>
      assert FirstAbortAt(rows, classify, 0);
    case Skip =>
      InsertRaisesFirst(tl, classify, events);
      var i :| FirstAbortAt(tl, classify, i) && classify(tl[i].line) == Abort(Insert(tl, classify, events).error);
      FirstAbortShift(rows, classify, i);
    case Emit(d) =>
      var ev := MakeEvent(NextId(EventIds(events)), rows[0].id, d);
      InsertRaisesFirst(tl, classify, events + [ev]);
      var i :| FirstAbortAt(tl, classify, i) && classify(tl[i].line) == Abort(Insert(tl, classify, events + [ev]).error);
      FirstAbortShift(rows, classify, i);
  }

  /** A first raising row of the tail is the first raising row of a list whose head does not raise. */
  lemma FirstAbortShift(rows: seq<RawLog>, classify: String -> LineOutcome, i: int)
    requires |rows| > 0 && !classify(rows[0].line).Abort? && FirstAbortAt(rows[1..], classify, i)
    ensures FirstAbortAt(rows, classify, i + 1) && rows[i + 1] == rows[1..][i]
  {
    var tl := rows[1..];
    forall j | 1 <= j < i + 1 ensures !classify(rows[j].line).Abort? {
      assert rows[j] == tl[j - 1];
    }
  }

  /** Every emitting pending row is linked once the pass has run. */
  lemma {:induction false} EmittedAreLinked(rows: seq<RawLog>, classify: String -> LineOutcome, events: seq<Event>, firstId: nat)
    ensures forall x :: x in rows && classify(x.line).Emit? ==> x.id in Linked(events + Build(Emitted(rows, classify), firstId))
    ensures Linked(events) <= Linked(events + Build(Emitted(rows, classify), firstId))
  {
    var all := events + Build(Emitted(rows, classify), firstId);
    assert forall e :: e in events ==> e in all;
    if |rows| > 0 {
      var tailRows := rows[1..];
      EmittedAreLinked(tailRows, classify, events, firstId);
      match classify(rows[0].line)
      case Emit(d) =>
        var ev := MakeEvent(firstId, rows[0].id, d);
        EmittedAreLinked(tailRows, classify, events + [ev], firstId + 1);
        assert all == (events + [ev]) + Build(Emitted(tailRows, classify), firstId + 1);
        assert ev in all;
        assert forall e :: e in events + [ev] ==> e in all;
      case _ =>
    }
  }

  /** A pass over rows that all classify as non-matching writes nothing. */
  lemma {:induction false} AllSkipInsertsNothing(rows: seq<RawLog>, classify: String -> LineOutcome, events: seq<Event>)
    requires forall x :: x in rows ==> classify(x.line).Skip?
    ensures Insert(rows, classify, events) == Ok(PassOutput(events, 0))
  {
    if |rows| > 0 {
      assert rows[0] in rows;
      assert forall x :: x in rows[1..] ==> x in rows;
      AllSkipInsertsNothing(rows[1..], classify, events);
    }
  }

  /** The store-level pass for one source label. */
  function RunPass(st: Store, source: String, classify: String -> LineOutcome): (r: Result<(Store, nat), ParseError>)
    ensures r.Ok? ==> r.value.0 == st.(events := r.value.0.events)
    ensures r.Ok? ==> |r.value.0.events| == |st.events| + r.value.1
    ensures r.Ok? ==> r.value.0.events[..|st.events|] == st.events
  {
    var rows := Pending(st.rawLogs, Linked(st.events), source);
    var out :- Insert(rows, classify, st.events);
    InsertClosedForm(rows, classify, st.events);
    Ok((st.(events := out.events), out.inserted))
  }

  /** The pass reads the pending rows of its source in id order; it fails exactly when one of them
      raises, and otherwise appends one event per emitting row, numbered on from the next id, and
      reports their number. Nothing but the events table changes. */
  lemma RunPassEffect(st: Store, source: String, classify: String -> LineOutcome)
    ensures var rows := Pending(st.rawLogs, Linked(st.events), source);
      && (RunPass(st, source, classify).Ok? <==> NoAbort(rows, classify))
      && (RunPass(st, source, classify).Ok? ==> RunPass(st, source, classify).value == (
           st.(events := st.events + Build(Emitted(rows, classify), NextId(EventIds(st.events)))),
           |Emitted(rows, classify)|))
  {
    var rows := Pending(st.rawLogs, Linked(st.events), source);
    if NoAbort(rows, classify) {
      InsertClosedForm(rows, classify, st.events);
    }
  }

  /** Running a pass again straight after a successful one inserts nothing and changes nothing:
      every line it still sees is one that matched no pattern. */
  lemma SecondPassInsertsNothing(st: Store, source: String, classify: String -> LineOutcome)
    requires RunPass(st, source, classify).Ok?
    ensures RunPass(RunPass(st, source, classify).value.0, source, classify)
         == Ok((RunPass(st, source, classify).value.0, 0))
  {
    var rows := Pending(st.rawLogs, Linked(st.events), source);
    var st' := RunPass(st, source, classify).value.0;
    var built := Build(Emitted(rows, classify), NextId(EventIds(st.events)));
    InsertClosedForm(rows, classify, st.events);
    assert st'.events == st.events + built;
    EmittedAreLinked(rows, classify, st.events, NextId(EventIds(st.events)));
    var rows' := Pending(st.rawLogs, Linked(st'.events), source);
    forall x | x in rows' ensures classify(x.line).Skip? {
      assert x in rows;
      var i :| 0 <= i < |rows| && rows[i] == x;
      assert !classify(rows[i].line).Abort?;
    }
    AllSkipInsertsNothing(rows', classify, st'.events);
    assert st'.(events := st'.events) == st';
  }
}

=== FILE: records.dfy ===
/** The store: one sequence per table, each kept in ascending id order, so `ORDER BY id` is the
    sequence order. SQL NULL is `None`. */
module Records {
  import opened Base
  import opened Text

  /** An imported log line tagged with the file it came from (`raw_logs`). */
  datatype RawLog = RawLog(id: nat, source: String, line: String)

  /** A normalised event (`events`); `rawLogId` links it to the line it was parsed from. */
  datatype Event = Event(
    id: nat,
    rawLogId: Option<nat>,
    eventTime: String,
    eventType: String,
    product: String,
    host: String,
    srcIp: Option<String>,
    username: Option<String>,
    outcome: String,
    message: String)

  /** A rule finding (`alerts`); identity is the pair (ruleName, srcIp). */
  datatype Alert = Alert(
    id: nat,
    createdAt: String,
    ruleName: String,
    severity: int,
    srcIp: Option<String>,
    description: String)

  /** An analyst-facing case (`incidents`); legacy rows have no fingerprint. */
  datatype Incident = Incident(
    id: nat,
    incidentKey: String,
    createdAt: String,
    status: String,
    severity: int,
    primaryIp: Option<String>,
    summary: String,
    ruleName: String,
    fingerprint: Option<String>,
    sourceAlertId: Option<nat>)

  /** A free-text annotation of an incident (`incident_notes`), read-only here. */
  datatype Note = Note(id: nat, incidentKey: String, createdAt: String, author: String, note: String)

  /** The lifecycle of an enrichment run. */
  datatype RunStatus = Queued | Exported | Completed | Failed

  /** One enrichment attempt (`agent_runs`). */
  datatype AgentRun = AgentRun(
    id: nat,
    incidentKey: String,
    createdAt: String,
    status: RunStatus,
    model: String,
    requestedBy: String,
    analystPrompt: String,
    exportPath: Option<String>,
    outputPath: Option<String>,
    error: Option<String>)

  datatype Store = Store(
    rawLogs: seq<RawLog>,
    events: seq<Event>,
    alerts: seq<Alert>,
    incidents: seq<Incident>,
    runs: seq<AgentRun>,
    notes: seq<Note>)

  function RawLogIds(t: seq<RawLog>): seq<nat> {
    seq(|t|, i requires 0 <= i < |t| => t[i].id)
  }

  function EventIds(t: seq<Event>): seq<nat> {
    seq(|t|, i requires 0 <= i < |t| => t[i].id)
  }

  function AlertIds(t: seq<Alert>): seq<nat> {
    seq(|t|, i requires 0 <= i < |t| => t[i].id)
  }

  function IncidentIds(t: seq<Incident>): seq<nat> {
    seq(|t|, i requires 0 <= i < |t| => t[i].id)
  }

  function RunIds(t: seq<AgentRun>): seq<nat> {
    seq(|t|, i requires 0 <= i < |t| => t[i].id)
  }

  /** Every table is in strictly ascending id order. */
  predicate WellOrdered(st: Store) {
    && Ascending(RawLogIds(st.rawLogs))
    && Ascending(EventIds(st.events))
    && Ascending(AlertIds(st.alerts))
    && Ascending(IncidentIds(st.incidents))
    && Ascending(RunIds(st.runs))
  }

  /** SQL `a = b` on nullable text: true only when both are present and equal. */
  predicate SqlEq(a: Option<String>, b: Option<String>) {
    a.Some? && b.Some? && a.value == b.value
  }
}

=== FILE: scan.dfy ===
/** Building blocks for the log-line patterns. Each pattern used by the parsers is a chain of
    character-class runs and literals in which every run is followed by a character outside its
    class, so greedy matching never has to give characters back: a run is the longest prefix of
    its class. The recognisers consume a prefix and return what is left. */
module Scan {
  import opened Base
  import opened Text

  /** Regex character classes: `\s`, `\S`, `\d`, `\w` and `[^c]`. */
  datatype CharClass = Space | NonSpace | Digit | Word | Not(c: char)

  predicate In(c: char, k: CharClass) {
    match k
    case Space => IsSpace(c)
    case NonSpace => !IsSpace(c)
    case Digit => IsDigit(c)
    case Word => IsWordChar(c)
    case Not(x) => c != x
  }

  predicate AllIn(s: String, k: CharClass) {
    forall i :: 0 <= i < |s| ==> In(s[i], k)
  }

  /** `s` does not start with a character of class `k`. */
  predicate StopsRun(s: String, k: CharClass) {
    |s| == 0 || !In(s[0], k)
  }

  /** Length of the longest prefix of `s` in class `k`. */
  function Span(s: String, k: CharClass): (n: nat)
    ensures n <= |s|
    ensures forall i :: 0 <= i < n ==> In(s[i], k)
    ensures n == |s| || !In(s[n], k)
  {
    if |s| == 0 || !In(s[0], k) then 0 else 1 + Span(s[1..], k)
  }

  /** A consumed token and the unconsumed rest of the line. */
  datatype Tok = Tok(text: String, rest: String)

  /** `k+`: the longest non-empty run of class `k`. */
  function Plus(s: String, k: CharClass): (r: Option<Tok>)
    ensures r.Some? ==> r.value.text + r.value.rest == s
    ensures r.Some? ==> |r.value.text| > 0 && AllIn(r.value.text, k) && StopsRun(r.value.rest, k)
    ensures r.None? <==> StopsRun(s, k)
  {
    var n := Span(s, k);
    if n == 0 then None else Some(Tok(s[..n], s[n..]))
  }

  /** `k*`: the longest, possibly empty, run of class `k`. */
  function Star(s: String, k: CharClass): (r: Tok)
    ensures r.text + r.rest == s
    ensures AllIn(r.text, k) && StopsRun(r.rest, k)
  {
    var n := Span(s, k);
    Tok(s[..n], s[n..])
  }

  /** `k{n}`: exactly `n` characters of class `k`. */
  function Exactly(s: String, k: CharClass, n: nat): (r: Option<Tok>)
    ensures r.Some? ==> r.value.text + r.value.rest == s && |r.value.text| == n && AllIn(r.value.text, k)
  {
    if n <= |s| && AllIn(s[..n], k) then Some(Tok(s[..n], s[n..])) else None
  }

  /** A literal: consumes `lit` when `s` starts with it. */
  function Lit(s: String, lit: String): (r: Option<String>)
    ensures r.Some? <==> lit <= s
    ensures r.Some? ==> lit + r.value == s
  {
    if lit <= s then Some(s[|lit|..]) else None
  }

  /** The run in front of a stopping character is exactly as long as the text before it. */
  lemma {:induction false} SpanOf(text: String, rest: String, k: CharClass)
    requires AllIn(text, k) && StopsRun(rest, k)
    ensures Span(text + rest, k) == |text|
  {
    if |text| > 0 {
      assert (text + rest)[1..] == text[1..] + rest;
      SpanOf(text[1..], rest, k);
    } else {
      assert text + rest == rest;
    }
  }

  /** A run followed by something that stops it is taken whole by `Plus`. */
  lemma PlusOf(text: String, rest: String, k: CharClass)
    requires |text| > 0 && AllIn(text, k) && StopsRun(rest, k)
    ensures Plus(text + rest, k) == Some(Tok(text, rest))
  {
    var s := text + rest;
    SpanOf(text, rest, k);
    assert s[..|text|] == text && s[|text|..] == rest;
  }

  lemma StarOf(text: String, rest: String, k: CharClass)
    requires AllIn(text, k) && StopsRun(rest, k)
    ensures Star(text + rest, k) == Tok(text, rest)
  {
    var s := text + rest;
    SpanOf(text, rest, k);
    assert s[..|text|] == text && s[|text|..] == rest;
  }

  lemma ExactlyOf(text: String, rest: String, k: CharClass)
    requires AllIn(text, k)
    ensures Exactly(text + rest, k, |text|) == Some(Tok(text, rest))
  {
    var s := text + rest;
    assert s[..|text|] == text && s[|text|..] == rest;
  }

  lemma LitOf(lit: String, rest: String)
    ensures Lit(lit + rest, lit) == Some(rest)
  {
    assert (lit + rest)[|lit|..] == rest;
  }
}

=== FILE: sorting.dfy ===
/** `ORDER BY` on a query result: insertion sort under a total preorder, so rows with equal sort
    keys keep their table order. */
module Sorting {

  /** `le(a, b)`: `a` may come before `b`; any two rows are comparable. */
  ghost predicate Total<T(!new)>(le: (T, T) -> bool) {
    forall a, b :: le(a, b) || le(b, a)
  }

  ghost predicate Transitive<T(!new)>(le: (T, T) -> bool) {
    forall a, b, c :: le(a, b) && le(b, c) ==> le(a, c)
  }

  /** No two distinct rows among `rows` are tied. */
  ghost predicate NoTiesAmong<T>(rows: multiset<T>, le: (T, T) -> bool) {
    forall a, b :: a in rows && b in rows && le(a, b) && le(b, a) ==> a == b
  }

  /** Each row may come before its successor. */
  predicate Sorted<T>(s: seq<T>, le: (T, T) -> bool) {
    forall i :: 0 < i < |s| ==> le(s[i - 1], s[i])
  }

  /** In a sorted sequence under a transitive order every row may come before every later one. */
  lemma {:induction false} SortedPairs<T(!new)>(s: seq<T>, le: (T, T) -> bool, i: nat, j: nat)
    requires Transitive(le) && Sorted(s, le) && i < j < |s|
    ensures le(s[i], s[j])
    decreases j - i
  {
    if i + 1 < j {
      SortedPairs(s, le, i + 1, j);
      assert le(s[i], s[i + 1]);
    }
  }

  lemma AppendSorted<T>(s: seq<T>, y: T, le: (T, T) -> bool)
    requires Sorted(s, le) && (|s| == 0 || le(s[|s| - 1], y))
    ensures Sorted(s + [y], le)
  {
    var r := s + [y];
    forall i | 0 < i < |r| ensures le(r[i - 1], r[i]) {
      if i < |s| {
        assert r[i - 1] == s[i - 1] && r[i] == s[i];
      }
    }
  }

  /** Puts `x` after the last row it need not precede. */
  function Insert<T>(x: T, s: seq<T>, le: (T, T) -> bool): seq<T> {
    if |s| == 0 then [x]
    else if le(s[|s| - 1], x) then s + [x]
    else Insert(x, s[..|s| - 1], le) + [s[|s| - 1]]
  }

  /** Inserting into a sorted sequence keeps it sorted and adds exactly the one row. */
  lemma {:induction false} InsertSorted<T(!new)>(x: T, s: seq<T>, le: (T, T) -> bool)
    requires Total(le) && Sorted(s, le)
    ensures multiset(Insert(x, s, le)) == multiset(s) + multiset{x}
    ensures Sorted(Insert(x, s, le), le)
    ensures var r := Insert(x, s, le); |r| == |s| + 1 && (r[|s|] == x || (|s| > 0 && r[|s|] == s[|s| - 1]))
  {
    if |s| > 0 {
      var pre := s[..|s| - 1];
      var last := s[|s| - 1];
      assert s == pre + [last];
      if le(last, x) {
        AppendSorted(s, x, le);
      } else {
        var m := Insert(x, pre, le);
        assert Insert(x, s, le) == m + [last];
        assert multiset(m) == multiset(pre) + multiset{x} && Sorted(m, le) && |m| == |pre| + 1 && le(m[|pre|], last) by {
          SortedPrefix(s, |s| - 1, le);
          InsertSorted(x, pre, le);
          if m[|pre|] != x {
            assert pre[|pre| - 1] == s[|s| - 2];
          }
        }
        AppendSorted(m, last, le);
      }
    }
  }

  /** The rows of `xs` in the order `le` asks for. */
  function Sort<T>(xs: seq<T>, le: (T, T) -> bool): seq<T> {
    if |xs| == 0 then [] else Insert(xs[|xs| - 1], Sort(xs[..|xs| - 1], le), le)
  }

  /** Sorting rearranges the rows, and only that, into order. */
  lemma {:induction false} SortSorts<T(!new)>(xs: seq<T>, le: (T, T) -> bool)
    requires Total(le)
    ensures multiset(Sort(xs, le)) == multiset(xs)
    ensures Sorted(Sort(xs, le), le)
  {
    if |xs| > 0 {
      var pre := xs[..|xs| - 1];
      assert xs == pre + [xs[|xs| - 1]];
      SortSorts(pre, le);
      InsertSorted(xs[|xs| - 1], Sort(pre, le), le);
    }
  }

  lemma SortedPrefix<T>(s: seq<T>, n: nat, le: (T, T) -> bool)
    requires Sorted(s, le) && n <= |s|
    ensures Sorted(s[..n], le)
  {
    forall i | 0 < i < n ensures le(s[..n][i - 1], s[..n][i]) {
      assert s[..n][i - 1] == s[i - 1] && s[..n][i] == s[i];
    }
  }

  lemma InsertAtEnd<T>(x: T, s: seq<T>, le: (T, T) -> bool)
    requires |s| == 0 || le(s[|s| - 1], x)
    ensures Insert(x, s, le) == s + [x]
  {
  }

  /** Rows already in order are left where they are. */
  lemma {:induction false} SortSorted<T(!new)>(xs: seq<T>, le: (T, T) -> bool)
    requires Total(le) && Sorted(xs, le)
    ensures Sort(xs, le) == xs
  {
    if |xs| > 0 {
      var n := |xs| - 1;
      var pre := xs[..n];
      SortedPrefix(xs, n, le);
      SortSorted(pre, le);
      assert n == 0 || le(pre[n - 1], xs[n]) by {
        if n > 0 { assert pre[n - 1] == xs[n - 1]; }
      }
      InsertAtEnd(xs[n], pre, le);
      assert xs == pre + [xs[n]];
    }
  }

  lemma MultisetSnoc<T>(s: seq<T>)
    requires |s| > 0
    ensures multiset(s[..|s| - 1]) == multiset(s) - multiset{s[|s| - 1]}
  {
    assert s == s[..|s| - 1] + [s[|s| - 1]];
  }

  /** Two sorted arrangements of the same rows end in the same row when no two of `rows` tie. */
  lemma LastAgree<T(!new)>(a: seq<T>, b: seq<T>, le: (T, T) -> bool, rows: multiset<T>)
    requires Transitive(le) && NoTiesAmong(rows, le) && multiset(a) <= rows
    requires Sorted(a, le) && Sorted(b, le) && multiset(a) == multiset(b) && |a| > 0
    ensures |b| == |a| && a[|a| - 1] == b[|a| - 1]
  {
    assert |b| == |multiset(b)| == |a|;
    var n := |a| - 1;
    assert b[n] in multiset(a) by { assert b[n] in multiset(b); }
    assert a[n] in multiset(b) by { assert a[n] in multiset(a); }
    var i :| 0 <= i < |a| && a[i] == b[n];
    var j :| 0 <= j < |b| && b[j] == a[n];
    if i < n && j < n {
      SortedPairs(a, le, i, n);
      SortedPairs(b, le, j, n);
      assert a[i] in multiset(a) && a[n] in multiset(a);
      assert a[i] in rows && a[n] in rows;
    }
  }

  /** Dropping the same last row from two sorted arrangements of one multiset leaves two sorted
      arrangements of one smaller multiset. */
  lemma DropLastAlike<T>(a: seq<T>, b: seq<T>, le: (T, T) -> bool)
    requires Sorted(a, le) && Sorted(b, le) && multiset(a) == multiset(b)
    requires |a| == |b| > 0 && a[|a| - 1] == b[|a| - 1]
    ensures Sorted(a[..|a| - 1], le) && Sorted(b[..|a| - 1], le)
    ensures multiset(a[..|a| - 1]) == multiset(b[..|a| - 1])
    ensures multiset(a[..|a| - 1]) <= multiset(a)
  {
    MultisetSnoc(a);
    MultisetSnoc(b);
    SortedPrefix(a, |a| - 1, le);
    SortedPrefix(b, |a| - 1, le);
  }

  /** Two sequences that agree up to their last row and on it are equal. */
  lemma SnocEqual<T>(a: seq<T>, b: seq<T>)
    requires |a| == |b| > 0 && a[..|a| - 1] == b[..|a| - 1] && a[|a| - 1] == b[|a| - 1]
    ensures a == b
  {
    assert a == a[..|a| - 1] + [a[|a| - 1]];
    assert b == b[..|a| - 1] + [b[|a| - 1]];
  }

  /** Sorted arrangements of the same rows, drawn from a pool `rows` in which no two tie, agree. */
  lemma {:induction false} SortedUniqueWithin<T(!new)>(a: seq<T>, b: seq<T>, le: (T, T) -> bool, rows: multiset<T>)
    requires Transitive(le) && NoTiesAmong(rows, le) && multiset(a) <= rows
    requires Sorted(a, le) && Sorted(b, le) && multiset(a) == multiset(b)
    ensures a == b
  {
    if |a| > 0 {
      var n := |a| - 1;
      LastAgree(a, b, le, rows);
      DropLastAlike(a, b, le);
      SortedUniqueWithin(a[..n], b[..n], le, rows);
      SnocEqual(a, b);
    } else {
      assert |b| == |multiset(b)| == 0;
    }
  }

  /** Under an order with no ties between distinct rows there is only one sorted arrangement. */
  lemma SortedUnique<T(!new)>(a: seq<T>, b: seq<T>, le: (T, T) -> bool)
    requires Transitive(le) && NoTiesAmong(multiset(a), le)
    requires Sorted(a, le) && Sorted(b, le) && multiset(a) == multiset(b)
    ensures a == b
  {
    SortedUniqueWithin(a, b, le, multiset(a));
  }

  /** Sorting yields the one sorted arrangement, whatever order the rows came in. */
  lemma SortIsTheSortedPermutation<T(!new)>(xs: seq<T>, ys: seq<T>, le: (T, T) -> bool)
    requires Total(le) && Transitive(le) && NoTiesAmong(multiset(xs), le)
    requires multiset(xs) == multiset(ys)
    ensures Sort(xs, le) == Sort(ys, le)
  {
    SortSorts(xs, le);
    SortSorts(ys, le);
    SortedUnique(Sort(xs, le), Sort(ys, le), le);
  }
}

=== FILE: ssh_bruteforce.dfy ===
/** The SSH brute-force rule: at least ten failed SSH logins from one address raise one alert for
    that address, with a severity that grows with the count. */
module SshBruteForce {
  import opened Base
  import opened Text
  import opened Records
  import opened ParsePass
  import opened Detection
  import AuthLog

  const Threshold: nat := 10
  const RuleName: String := "SSH_BRUTE_FORCE"

  /** `severity_from_count`: 6 up to 19 failures, 7 from 20, 8 from 30, 9 from 50. */
  function Severity(cnt: nat): (s: int)
    ensures 6 <= s <= 9
    ensures cnt < 20 ==> s == 6
  {
    if cnt >= 50 then 9
    else if cnt >= 30 then 8
    else if cnt >= 20 then 7
    else 6
  }

  /** More failures never mean a lower severity. */
  lemma SeverityMonotone(a: nat, b: nat)
    requires a <= b
    ensures Severity(a) <= Severity(b)
  {
  }

  /** The severity reaches each level exactly from its lower bound on. */
  lemma SeverityLevels(cnt: nat)
    ensures Severity(cnt) >= 7 <==> cnt >= 20
    ensures Severity(cnt) >= 8 <==> cnt >= 30
    ensures Severity(cnt) == 9 <==> cnt >= 50
  {
  }

  /** The events the query counts: failed SSH authentications. */
  predicate IsHit(e: Event) {
    e.eventType == "ssh_auth" && e.outcome == "fail"
  }

  function Describe(cnt: nat, ip: String): String {
    "SSH brute force suspected: " + Decimal(cnt) + " failed logins from " + ip
  }

  const Rule := RuleSpec(RuleName, Threshold, IsHit, Severity, Describe)

  /** One run of the rule: the alerts afterwards and the number of upserts. */
  function Run(events: seq<Event>, alerts: seq<Alert>, now: String): (r: (seq<Alert>, nat))
    ensures r.1 == |Groups(Rule, events)| && |alerts| <= |r.0| <= |alerts| + r.1
  {
    Detection.Run(Rule, events, alerts, now)
  }

  /** An address qualifies exactly when it has at least ten counted failures; its alert then says
      how many, from where, with the matching severity. */
  lemma QualifyingAddressAlerted(events: seq<Event>, alerts: seq<Alert>, now: String, ip: String)
    requires CountAt(Rule, events, ip) >= Threshold
    ensures var r := Run(events, alerts, now).0; var n := CountAt(Rule, events, ip);
      && KeyPresent(r, RuleName, ip)
      && forall i :: 0 <= i < |r| && HasKey(r[i], RuleName, ip) ==>
           && r[i].severity == Severity(n) && 6 <= r[i].severity <= 9
           && r[i].description == "SSH brute force suspected: " + Decimal(n) + " failed logins from " + ip
           && r[i].createdAt == now
  {
    RunSettles(Rule, events, alerts, now, ip);
  }

  /** The query's groups are exactly the addresses with at least ten failures. */
  lemma GroupsAreQualifying(events: seq<Event>, ip: String)
    ensures ip in HitIpList(Groups(Rule, events)) <==> CountAt(Rule, events, ip) >= Threshold
  {
    GroupsExact(Rule, events, ip);
  }

  /** Alerts of other rules and of addresses below ten failures are neither changed nor removed. */
  lemma OthersUntouched(events: seq<Event>, alerts: seq<Alert>, now: String)
    ensures var r := Run(events, alerts, now).0;
      forall i :: 0 <= i < |alerts| && !Triggered(Rule, events, alerts[i]) ==> r[i] == alerts[i]
  {
    RunLeavesOthers(Rule, events, alerts, now);
  }

  /** Running the rule again on the same events changes nothing but creation times. */
  lemma RerunIdempotent(events: seq<Event>, alerts: seq<Alert>, now1: String, now2: String)
    ensures var first := Run(events, alerts, now1).0;
      SameExceptTime(Run(events, first, now2).0, first)
  {
    RerunOnlyRestamps(Rule, events, alerts, now1, now2);
  }

  /** The event the auth.log pass makes of a failed-password line is counted for the line's
      address; that of an accepted line is not. */
  lemma ParsedFailuresCount(id: nat, rawId: nat, f: AuthLog.FailedLine, a: AuthLog.AcceptedLine, ts: String)
    ensures var e := MakeEvent(id, rawId, AuthLog.FailedDraft(f, ts));
      Counted(Rule, e) && e.srcIp == Some(f.login.ip)
    ensures !Counted(Rule, MakeEvent(id, rawId, AuthLog.AcceptedDraft(a, ts)))
  {
  }
}

=== FILE: text.dfy ===
/** Character classes, decimal rendering, zero padding, trimming and the string comparisons the
    store's queries use. Strings are sequences of Unicode scalar values. */
module Text {

  type String = seq<char>

  predicate IsDigit(c: char) {
    '0' <= c <= '9'
  }

  predicate IsAsciiLetter(c: char) {
    'a' <= c <= 'z' || 'A' <= c <= 'Z'
  }

  /** Regex `\w` on the ASCII range. */
  predicate IsWordChar(c: char) {
    IsAsciiLetter(c) || IsDigit(c) || c == '_'
  }

  /** Python's whitespace (`str.isspace`), which is what the regex class `\s` and `str.strip()` use. */
  predicate IsSpace(c: char) {
    || c == ' '
    || '\t' <= c <= '\r'
    || '\U{1C}' <= c <= '\U{1F}'
    || c == '\U{85}' || c == '\U{A0}' || c == '\U{1680}'
    || '\U{2000}' <= c <= '\U{200A}'
    || c == '\U{2028}' || c == '\U{2029}' || c == '\U{202F}' || c == '\U{205F}' || c == '\U{3000}'
  }

  predicate AllDigits(s: String) {
    forall i :: 0 <= i < |s| ==> IsDigit(s[i])
  }

  function DigitValue(c: char): (d: nat)
    requires IsDigit(c)
    ensures d < 10
  {
    (c as int - '0' as int) as nat
  }

  function DigitChar(d: nat): (c: char)
    requires d < 10
    ensures IsDigit(c) && DigitValue(c) == d
  {
    ('0' as int + d) as char
  }

  /** The number a string of decimal digits denotes; leading zeros are allowed, as for Python `int()`. */
  function DecimalValue(s: String): nat
    requires AllDigits(s)
  {
    if |s| == 0 then 0 else DecimalValue(s[..|s| - 1]) * 10 + DigitValue(s[|s| - 1])
  }

  /** Python `str(n)` for a non-negative integer: shortest decimal form, no leading zero. */
  function Decimal(n: nat): (s: String)
    ensures |s| >= 1 && AllDigits(s)
    ensures s[0] == '0' ==> n == 0
    ensures n < 10 <==> |s| == 1
  {
    if n < 10 then [DigitChar(n)] else Decimal(n / 10) + [DigitChar(n % 10)]
  }

  /** Reading back what `Decimal` writes gives the number again. */
  lemma {:induction false} DecimalRoundTrip(n: nat)
    ensures DecimalValue(Decimal(n)) == n
  {
    if n >= 10 {
      var s := Decimal(n);
      assert s[..|s| - 1] == Decimal(n / 10);
      DecimalRoundTrip(n / 10);
    }
  }

  /** `Decimal` is injective, so names built from distinct numbers differ. */
  lemma DecimalInjective(m: nat, n: nat)
    requires Decimal(m) == Decimal(n)
    ensures m == n
  {
    DecimalRoundTrip(m);
    DecimalRoundTrip(n);
  }

  function Zeros(k: nat): (z: String)
    ensures |z| == k && forall i :: 0 <= i < k ==> z[i] == '0'
  {
    seq(k, _ => '0')
  }

  /** Left-pad with '0' up to `width` characters; longer strings are kept whole. */
  function ZeroPad(s: String, width: nat): (r: String)
    ensures |r| == if |s| >= width then |s| else width
    ensures r[|r| - |s|..] == s
    ensures forall i :: 0 <= i < |r| - |s| ==> r[i] == '0'
  {
    if |s| >= width then s else Zeros(width - |s|) + s
  }

  /** Python's `f"{n:0<width>d}"` for a non-negative integer. */
  function PadNat(n: nat, width: nat): (r: String)
    ensures AllDigits(r)
    ensures |r| == if |Decimal(n)| >= width then |Decimal(n)| else width
  {
    ZeroPad(Decimal(n), width)
  }

  /** Leading zeros do not change the value of a digit string. */
  lemma {:induction false} LeadingZerosValue(k: nat, s: String)
    requires AllDigits(s)
    ensures AllDigits(Zeros(k) + s) && DecimalValue(Zeros(k) + s) == DecimalValue(s)
  {
    var t := Zeros(k) + s;
    assert AllDigits(t) by {
      forall i | 0 <= i < |t| ensures IsDigit(t[i]) {
        if i < k { assert t[i] == '0'; } else { assert t[i] == s[i - k]; }
      }
    }
    if |s| == 0 {
      assert t == Zeros(k);
      if k > 0 {
        assert t[..|t| - 1] == Zeros(k - 1) + s;
        LeadingZerosValue(k - 1, s);
      }
    } else {
      assert t[..|t| - 1] == Zeros(k) + s[..|s| - 1];
      LeadingZerosValue(k, s[..|s| - 1]);
    }
  }

  /** Padded numbers read back to the number, so padding is injective for a fixed width. */
  lemma PadNatRoundTrip(n: nat, width: nat)
    ensures DecimalValue(PadNat(n, width)) == n
  {
    DecimalRoundTrip(n);
    ZeroPadValue(Decimal(n), width);
  }

  /** Zero padding keeps a digit string's value. */
  lemma ZeroPadValue(s: String, width: nat)
    requires AllDigits(s)
    ensures AllDigits(ZeroPad(s, width)) && DecimalValue(ZeroPad(s, width)) == DecimalValue(s)
  {
    if |s| < width {
      LeadingZerosValue(width - |s|, s);
    }
  }

  /** `sub` occurs in `s` starting at position `i`. */
  predicate OccursAt(s: String, sub: String, i: int) {
    0 <= i <= |s| - |sub| && s[i..i + |sub|] == sub
  }

  /** `sub` occurs somewhere in `s`: SQL `s LIKE '%sub%'` for a pattern without letters or wildcards. */
  predicate Contains(s: String, sub: String) {
    exists i | 0 <= i <= |s| - |sub| :: OccursAt(s, sub, i)
  }

  function TrimStart(s: String): (r: String)
    ensures |r| <= |s| && r == s[|s| - |r|..]
    ensures forall i :: 0 <= i < |s| - |r| ==> IsSpace(s[i])
    ensures |r| == 0 || !IsSpace(r[0])
  {
    if |s| > 0 && IsSpace(s[0]) then TrimStart(s[1..]) else s
  }

  function TrimEnd(s: String): (r: String)
    ensures |r| <= |s| && r == s[..|r|]
    ensures forall i :: |r| <= i < |s| ==> IsSpace(s[i])
    ensures |r| == 0 || !IsSpace(r[|r| - 1])
  {
    if |s| > 0 && IsSpace(s[|s| - 1]) then TrimEnd(s[..|s| - 1]) else s
  }

  /** Python `str.strip()`: the infix left after removing whitespace at both ends. Everything
      before and after that infix is whitespace, so no more and no less than the padding goes. */
  function Trim(s: String): (r: String)
    ensures |r| == 0 || (!IsSpace(r[0]) && !IsSpace(r[|r| - 1]))
    ensures Contains(s, r)
    ensures exists k :: PaddedAt(s, r, k)
  {
    var t := TrimStart(s);
    var r := TrimEnd(t);
    StrippedPieces(s, t, r);
    r
  }

  /** `r` occurs in `s` at `k` with only whitespace before and after it. */
  predicate PaddedAt(s: String, r: String, k: int) {
    && OccursAt(s, r, k)
    && (forall i :: 0 <= i < k ==> IsSpace(s[i]))
    && (forall i :: k + |r| <= i < |s| ==> IsSpace(s[i]))
  }

  /** Whitespace cut from the front of `s` leaving `t`, then from the back of `t` leaving `r`. */
  lemma StrippedPieces(s: String, t: String, r: String)
    requires |t| <= |s| && t == s[|s| - |t|..] && forall i :: 0 <= i < |s| - |t| ==> IsSpace(s[i])
    requires |r| <= |t| && r == t[..|r|] && forall i :: |r| <= i < |t| ==> IsSpace(t[i])
    ensures PaddedAt(s, r, |s| - |t|)
  {
    var k := |s| - |t|;
    assert s[k..k + |r|] == r by {
      forall i | 0 <= i < |r| ensures s[k..k + |r|][i] == r[i] {
        assert s[k + i] == t[i];
      }
    }
    forall i | k + |r| <= i < |s| ensures IsSpace(s[i]) {
      assert s[i] == t[i - k];
    }
  }

  /** The piece `strip()` keeps is determined: any split of `s` into whitespace, a piece with
      non-space ends (or an empty one) and whitespace yields exactly `Trim(s)`. */
  lemma TrimUnique(s: String, r: String, k: int)
    requires PaddedAt(s, r, k) && (|r| == 0 || (!IsSpace(r[0]) && !IsSpace(r[|r| - 1])))
    ensures Trim(s) == r
  {
    var t := Trim(s);
    var j :| PaddedAt(s, t, j);
    if |r| > 0 && |t| > 0 {
      assert s[k] == r[0] && s[k + |r| - 1] == r[|r| - 1];
      assert s[j] == t[0] && s[j + |t| - 1] == t[|t| - 1];
      assert j == k;
      assert j + |t| == k + |r|;
    }
  }

  /** `strip()` removes a leading and a trailing whitespace run, each of any length. */
  lemma TrimPadded(lead: String, s: String, trail: String)
    requires |s| > 0 && !IsSpace(s[0]) && !IsSpace(s[|s| - 1])
    requires forall i :: 0 <= i < |lead| ==> IsSpace(lead[i])
    requires forall i :: 0 <= i < |trail| ==> IsSpace(trail[i])
    ensures Trim(lead + s + trail) == s
  {
    assert lead + s + trail == lead + (s + trail);
    TrimStartPad(lead, s + trail);
    TrimEndPad(s, trail);
  }

  lemma {:induction false} TrimStartPad(pad: String, s: String)
    requires forall i :: 0 <= i < |pad| ==> IsSpace(pad[i])
    requires |s| > 0 && !IsSpace(s[0])
    ensures TrimStart(pad + s) == s
  {
    if |pad| > 0 {
      assert (pad + s)[1..] == pad[1..] + s;
      TrimStartPad(pad[1..], s);
    } else {
      assert pad + s == s;
    }
  }

  lemma {:induction false} TrimEndPad(s: String, pad: String)
    requires forall i :: 0 <= i < |pad| ==> IsSpace(pad[i])
    requires |s| > 0 && !IsSpace(s[|s| - 1])
    ensures TrimEnd(s + pad) == s
  {
    if |pad| > 0 {
      assert (s + pad)[..|s + pad| - 1] == s + pad[..|pad| - 1];
      TrimEndPad(s, pad[..|pad| - 1]);
    } else {
      assert s + pad == s;
    }
  }

  /** A string without surrounding whitespace is its own trim. */
  lemma TrimNoSpace(s: String)
    requires |s| == 0 || (!IsSpace(s[0]) && !IsSpace(s[|s| - 1]))
    ensures Trim(s) == s
  {
  }

  function LowerAscii(c: char): char {
    if 'A' <= c <= 'Z' then (c as int + 32) as char else c
  }

  /** SQL `s LIKE prefix || '%'` for a prefix without wildcards: a prefix match that ignores ASCII case. */
  predicate LikePrefix(s: String, prefix: String) {
    |prefix| <= |s| && forall i :: 0 <= i < |prefix| ==> LowerAscii(s[i]) == LowerAscii(prefix[i])
  }

  /** SQLite's BINARY collation on UTF-8 text: code-point lexicographic order, a prefix sorting first. */
  predicate StrLe(a: String, b: String) {
    |a| == 0 || (|b| > 0 && (a[0] < b[0] || (a[0] == b[0] && StrLe(a[1..], b[1..]))))
  }

  lemma {:induction false} StrLeTotal(a: String, b: String)
    ensures StrLe(a, b) || StrLe(b, a)
  {
    if |a| > 0 && |b| > 0 && a[0] == b[0] {
      StrLeTotal(a[1..], b[1..]);
    }
  }

  lemma {:induction false} StrLeTransitive(a: String, b: String, c: String)
    requires StrLe(a, b) && StrLe(b, c)
    ensures StrLe(a, c)
  {
    if |a| > 0 && a[0] == b[0] && b[0] == c[0] {
      StrLeTransitive(a[1..], b[1..], c[1..]);
    }
  }

  lemma {:induction false} StrLeAntisymmetric(a: String, b: String)
    requires StrLe(a, b) && StrLe(b, a)
    ensures a == b
  {
    if |a| > 0 {
      StrLeAntisymmetric(a[1..], b[1..]);
      assert a == [a[0]] + a[1..] && b == [b[0]] + b[1..];
    }
  }

  /** A digit string not starting with `0` denotes a positive number. */
  lemma {:induction false} LeadingDigitPositive(s: String)
    requires |s| > 0 && AllDigits(s) && s[0] != '0'
    ensures DecimalValue(s) > 0
  {
    if |s| > 1 {
      LeadingDigitPositive(s[..|s| - 1]);
    }
  }

  /** `str(int(s))` gives `s` back exactly when `s` has no superfluous leading zero. */
  lemma {:induction false} CanonicalDecimal(s: String)
    requires |s| > 0 && AllDigits(s)
    ensures Decimal(DecimalValue(s)) == s <==> (s[0] != '0' || |s| == 1)
  {
    var v := DecimalValue(s);
    if |s| > 1 && s[0] != '0' {
      var p := s[..|s| - 1];
      LeadingDigitPositive(p);
      CanonicalDecimal(p);
      assert v / 10 == DecimalValue(p) && v % 10 == DigitValue(s[|s| - 1]);
      assert s == p + [s[|s| - 1]];
    }
  }

  function Pow10(w: nat): (p: nat)
    ensures p >= 1
  {
    if w == 0 then 1 else 10 * Pow10(w - 1)
  }

  /** A number below `10^w` takes at most `w` digits, so padding it to `w` gives exactly `w`. */
  lemma {:induction false} DecimalWidth(n: nat, w: nat)
    requires w >= 1 && n < Pow10(w)
    ensures |Decimal(n)| <= w && |PadNat(n, w)| == w
  {
    if n >= 10 {
      assert Pow10(w) == 10 * Pow10(w - 1);
      DecimalWidth(n / 10, w - 1);
      assert |Decimal(n)| == |Decimal(n / 10)| + 1;
    }
  }

  /** Text occurring in a piece of a concatenation occurs in the whole. */
  lemma ContainsIn(a: String, m: String, c: String, sub: String)
    requires Contains(m, sub)
    ensures Contains(a + m + c, sub)
  {
    var i :| 0 <= i <= |m| - |sub| && OccursAt(m, sub, i);
    var s := a + m + c;
    assert s[|a| + i..|a| + i + |sub|] == m[i..i + |sub|];
    assert OccursAt(s, sub, |a| + i);
  }

  lemma ContainsSelf(s: String)
    ensures Contains(s, s)
  {
    assert OccursAt(s, s, 0);
  }
}

=== FILE: web_scanner.dfy ===
/** The web-scanning rule: at least five nginx requests from one address whose event message
    contains "-> 404" raise one alert for that address. */
module WebScanner {
  import opened Base
  import opened Text
  import opened Records
  import opened ParsePass
  import opened Detection
  import NginxLog

  const Threshold: nat := 5
  const RuleName: String := "WEB_404_SCANNING"
  const NotFound: String := "-> 404"

  /** `severity_from_count`: 6 below 10 responses, 7 from 10, 8 from 20. */
  function Severity(cnt: nat): (s: int)
    ensures 6 <= s <= 8
    ensures cnt < 10 ==> s == 6
  {
    if cnt >= 20 then 8
    else if cnt >= 10 then 7
    else 6
  }

  lemma SeverityMonotone(a: nat, b: nat)
    requires a <= b
    ensures Severity(a) <= Severity(b)
  {
  }

  lemma SeverityLevels(cnt: nat)
    ensures Severity(cnt) >= 7 <==> cnt >= 10
    ensures Severity(cnt) == 8 <==> cnt >= 20
  {
  }

  /** The events the query counts: nginx access events whose message contains "-> 404" anywhere
      (`LIKE '%-> 404%'`; the pattern has no letters, so case does not matter). */
  predicate IsHit(e: Event) {
    e.eventType == "http_access" && Contains(e.message, NotFound)
  }

  function Describe(cnt: nat, ip: String): String {
    "Web scanning suspected: " + Decimal(cnt) + " HTTP 404 responses from " + ip
  }

  const Rule := RuleSpec(RuleName, Threshold, IsHit, Severity, Describe)

  function Run(events: seq<Event>, alerts: seq<Alert>, now: String): (r: (seq<Alert>, nat))
    ensures r.1 == |Groups(Rule, events)| && |alerts| <= |r.0| <= |alerts| + r.1
  {
    Detection.Run(Rule, events, alerts, now)
  }

  lemma QualifyingAddressAlerted(events: seq<Event>, alerts: seq<Alert>, now: String, ip: String)
    requires CountAt(Rule, events, ip) >= Threshold
    ensures var r := Run(events, alerts, now).0; var n := CountAt(Rule, events, ip);
      && KeyPresent(r, RuleName, ip)
      && forall i :: 0 <= i < |r| && HasKey(r[i], RuleName, ip) ==>
           && r[i].severity == Severity(n) && 6 <= r[i].severity <= 8
           && r[i].description == "Web scanning suspected: " + Decimal(n) + " HTTP 404 responses from " + ip
           && r[i].createdAt == now
  {
    RunSettles(Rule, events, alerts, now, ip);
  }

  lemma GroupsAreQualifying(events: seq<Event>, ip: String)
    ensures ip in HitIpList(Groups(Rule, events)) <==> CountAt(Rule, events, ip) >= Threshold
  {
    GroupsExact(Rule, events, ip);
  }

  lemma OthersUntouched(events: seq<Event>, alerts: seq<Alert>, now: String)
    ensures var r := Run(events, alerts, now).0;
      forall i :: 0 <= i < |alerts| && !Triggered(Rule, events, alerts[i]) ==> r[i] == alerts[i]
  {
    RunLeavesOthers(Rule, events, alerts, now);
  }

  lemma RerunIdempotent(events: seq<Event>, alerts: seq<Alert>, now1: String, now2: String)
    ensures var first := Run(events, alerts, now1).0;
      SameExceptTime(Run(events, first, now2).0, first)
  {
    RerunOnlyRestamps(Rule, events, alerts, now1, now2);
  }

  /** The event of an access line with status 404 is counted for the client address. */
  lemma NotFoundLineCounts(id: nat, rawId: nat, x: NginxLog.AccessLine, t: String)
    requires x.status == "404"
    ensures var e := MakeEvent(id, rawId, NginxLog.AccessDraft(x, t));
      Counted(Rule, e) && e.srcIp == Some(x.ip)
  {
    CanonicalDecimal(x.status);
    var a := "Nginx " + x.verb + " " + x.path + " ";
    var c := " UA=" + x.ua;
    assert NginxLog.Message(x) == a + NotFound + c;
    ContainsSelf(NotFound);
    ContainsIn(a, NotFound, c, NotFound);
  }

  /** The filter reads the whole message, so a user agent containing "-> 404" makes a request count
      whatever its status. */
  lemma UserAgentCanTrigger(id: nat, rawId: nat, x: NginxLog.AccessLine, t: String)
    requires |x.status| == 3 && AllDigits(x.status) && Contains(x.ua, NotFound)
    ensures Counted(Rule, MakeEvent(id, rawId, NginxLog.AccessDraft(x, t)))
  {
    var a := "Nginx " + x.verb + " " + x.path + " -> " + Decimal(DecimalValue(x.status)) + " UA=";
    assert NginxLog.Message(x) == a + x.ua + [];
    ContainsIn(a, x.ua, [], NotFound);
  }
}
